=== FILE: README.md ===
# OpenCut multicam export, text layout and migration — a Dafny model

This project models the parts of OpenCut, a browser video editor, that decide
what an export does and how text is drawn:

- **the export descriptor schema**. `ExportSchema` covers the zod schemas
  for sources, segments, output, job status, the descriptor and the status
  file. Parsing either fails with an issue or yields a typed value with its
  defaults filled in.
- **the export processor**:
  - `Progress` turns one line of FFmpeg diagnostics into a fraction done.
  - `Processor` covers `runFFmpeg` and `processExportJob`. A job is a
    sequence of status writes, transcoder calls, the concatenation list and
    temporary-file removals. The transcoder, the file system's failures and
    number formatting are parameters.
  - `Scheduler` covers `findPendingJobs` and `processJob`, and one pass of
    the polling loop.
- **the multicam manager**. `Multicam` holds the clip state, the
  switch-point algebra (add, remove, active angle), angles, sync offsets and
  the mode flags. `MulticamExport` covers the export descriptor generated
  from a clip and the flattening of a clip onto the timeline.
- **the multicam preview**. `MulticamPreview` covers the grid layout, the
  letterbox placement and the media time each tile samples.
- **the project migration from format 6 to 7**. `Migration` models it on an
  untyped JSON tree.
- **text rendering and editing**:
  - `TextLayout` covers block measurement and the text, background and
    visual rectangles.
  - `TextNode` covers font scaling, font-family quoting, decoration
    rectangles and the visibility window.
  - `TextProperties` covers the offset converters and the `parse` closures
    of the numeric fields.

`Wrappers` holds `Option`, `Result` and `Outcome`. `TextUtil` holds decimal
rendering, split and join on a separator, the last `k` items of a list, and
JavaScript `trim`.

The main results:

- A descriptor produced by `generateExportConfig` is accepted by the schema
  the processor validates with, and every segment resolves to a source. This
  needs non-negative start times; the model exhibits the clip with a negative
  sync offset that breaks it.
- Flattening a clip onto the timeline cuts exactly the spans the export
  would cut.
- The status record a reader sees after a run is "completed" or "failed", so
  the poll loop never selects a finished job again. A job whose descriptor
  is rejected stays pending.
- Status progress never decreases until a failure resets it to 0.
- Adding then removing a switch point at an unused time restores the list.
  Every manager operation keeps a clip well-formed: it has angles, its
  switch points are sorted and non-empty, and each point names one of its
  angles.
- The migration is idempotent. It changes a project exactly when some text
  element is still in the old shape, and it leaves none behind.
- Quoting a font family puts a backslash before each inner quote and
  nothing else. For a family without backslashes, a CSS reading of the
  quoted text gives the family back and ends at the closing quote; a family
  with a backslash before a quote ends the CSS string early. Typed values and stored
  values round-trip through the display converters, to within half a step.

## Model

| member | source | states |
|---|---|---|
| ExportSchema.ParseFormat | packages/export-config/src/schema.ts:23 | accepts exactly "mp4" and "webm", and the parsed value's name is the input |
| ExportSchema.ParseCodec | packages/export-config/src/schema.ts:27 | accepts exactly "copy", "h264" and "h265", and the parsed value's name is the input |
| ExportSchema.ParseStatus | packages/export-config/src/schema.ts:31-36 | accepts exactly the four status names, and the parsed value's name is the input |
| ExportSchema.EnumRoundTrip | packages/export-config/src/schema.ts:23-36 | every format, codec and status survives naming then parsing |
| ExportSchema.ParseSource | packages/export-config/src/schema.ts:3-12 | ok iff width and height are absent or positive integers, duration absent or non-negative, fps absent or positive; the fields are copied and hasAudio defaults to true |
| ExportSchema.ParseSegment | packages/export-config/src/schema.ts:14-19 | ok iff sourceIndex is a non-negative integer and both times are non-negative; audioFromSource defaults to true |
| ExportSchema.ParseOutput | packages/export-config/src/schema.ts:21-29 | ok iff format and codec are absent or known, and the dimensions and fps are valid; defaults mp4, copy, includeAudio true |
| ExportSchema.ParseSources | packages/export-config/src/schema.ts:44 | ok iff every element parses; the result is the element-wise parse |
| ExportSchema.ParseSegments | packages/export-config/src/schema.ts:45 | ok iff every element parses; the result is the element-wise parse |
| ExportSchema.ParseConfig | packages/export-config/src/schema.ts:38-48 | ok iff version is 1, createdAt is a datetime, there is at least one source and one segment, every part parses and the status is known; the result is valid, keeps the identifying fields, and holds the parsed sources and segments in order and the parsed status, "pending" when none is given |
| ExportSchema.ParseStatusFile | packages/export-config/src/schema.ts:50-57 | ok iff the status is known and progress, defaulting to 0, is within [0, 1]; the other fields are copied |
| ExportSchema.ConfigRoundTrip | packages/export-config/src/schema.ts:38-48 | a valid descriptor, serialised and parsed again, is returned unchanged |
| ExportSchema.ParseIdempotent | packages/export-config/src/schema.ts:38-48 | parsing the serialisation of a parsed descriptor gives the same result |
| ExportSchema.AcceptanceAndDefaults | packages/export-config/src/schema.ts:11-47 | an accepted descriptor has version 1, non-empty lists of the same lengths, and every omitted default filled in (hasAudio, audioFromSource, mp4, copy, includeAudio, pending) |
| ExportSchema.AcceptsUnresolvedIndexAndReversedRange | packages/export-config/src/schema.ts:14-19 | the schema accepts a segment whose sourceIndex names no source and whose end precedes its start |
| ExportSchema.StatusFileRoundTrip | packages/export-config/src/schema.ts:50-57 | a valid status record survives serialisation and parsing |
| Progress.FirstMatch | apps/export-processor/src/progress.ts:10 | the first position where the time pattern matches, or none anywhere |
| Progress.ParseProgress | apps/export-processor/src/progress.ts:12-28 | none iff no `time=HH:MM:SS.CC` occurs; 0 for a non-positive total; otherwise the matched time over the total, capped at 1, within [0, 1] |
| Progress.UsesFirstMatch | apps/export-processor/src/progress.ts:16-27 | the leftmost time stamp is the one reported |
| Progress.StampRoundTrip | apps/export-processor/src/progress.ts:19-27 | a line starting with a rendered stamp reports h·3600 + m·60 + s + cs/100 seconds over the total, capped at 1 |
| Processor.RunFFmpeg | apps/export-processor/src/processor.ts:130-134 | resolves iff the process closes with exit code 0 |
| Processor.RunFFmpegErrors | apps/export-processor/src/processor.ts:135-144 | a spawn failure rejects with the spawn message; any other failure names the exit code and ends with at most five trailing lines of the trimmed diagnostics, all of them when there are at most five |
| Processor.DiagnosticTailShape | apps/export-processor/src/processor.ts:136-137 | the tail is a suffix of the trimmed output with at most 5 lines, and the whole output when it has at most 5 lines |
| Processor.LastLanded | apps/export-processor/src/status.ts:15-21 | the record a later read sees: the last write that landed, if any did |
| Processor.ProcessExportJob | apps/export-processor/src/processor.ts:14-21 | the first write is the "Starting export" record; when it does not land, the job raises before any transcoder call |
| Processor.CutArgs | apps/export-processor/src/processor.ts:44-53 | `-y`, the segment's `-ss`/`-to` times, the source's file, `-c copy`, `-an` exactly when the segment takes no audio, `-avoid_negative_ts make_zero`, and the segment file last: 12 arguments, 13 with `-an` |
| Processor.ConcatListText | apps/export-processor/src/processor.ts:58-62 | for one or more file names without newlines, splitting the list at newlines gives back one `file '…'` line per file |
| Processor.ConcatArgs | apps/export-processor/src/processor.ts:73-80 | ten arguments: `-y`, `-f concat`, `-safe 0`, `-i` on the list file, `-c copy`, and the output file last |
| Processor.CutProgressIncreasing | apps/export-processor/src/processor.ts:37-42 | per-segment progress starts at 0, strictly increases and stays below 0.8 |
| Processor.CutProgressBelow | apps/export-processor/src/processor.ts:40 | each segment's progress is in [0, 0.8) and below the next one's |
| Processor.RunProgress | apps/export-processor/src/processor.ts:14-110 | the first write is "Starting export"; every progress is in [0, 1]; progress never decreases except into the failure record |
| Processor.RunCallShape | apps/export-processor/src/processor.ts:25-82 | transcoder calls are the cuts of segments 0, 1, … with their argument vectors, then the concatenation |
| Processor.RunCallChain | apps/export-processor/src/processor.ts:55-82 | every call before the last succeeded: a failing call stops the job |
| Processor.RunFailureReported | apps/export-processor/src/processor.ts:99-110 | when the last call failed, its error message is the job's error, unless the failure write itself failed |
| Processor.UnresolvedSegmentStops | apps/export-processor/src/processor.ts:26-32 | a segment whose source index does not resolve stops the job before its cut and before the list is written |
| Processor.RunWriteIndex | apps/export-processor/src/processor.ts:14-109 | status write k lands exactly when the file system accepts write k |
| Processor.RunSucceeded | apps/export-processor/src/processor.ts:58-96 | a successful job ends with the landed "completed" record at progress 1 with the download URL, after n+1 passing calls; the list was written and all temporary files were removed |
| Processor.RunFailed | apps/export-processor/src/processor.ts:99-110 | a job that failed normally ends with the "failed" record at progress 0 carrying the error; one that threw did so because its last write did not land |
| Processor.HappyPath | apps/export-processor/src/processor.ts:14-96 | when nothing fails: n+3 writes (start, one per segment, concatenating, completed) in order, and n+1 calls in order |
| Processor.InvalidSourceFails | apps/export-processor/src/processor.ts:26-32 | the first unresolved segment k ends the job with "Segment k references invalid sourceIndex s", after k calls and k+2 writes, with no list |
| Processor.ConcatListLines | apps/export-processor/src/processor.ts:34-62 | the list has one line per segment, `file '<jobDir>/segment_i.mp4'` |
| Scheduler.PendingAmong | apps/export-processor/src/index.ts:20-29 | never longer than the listing, and holds only pending jobs |
| Scheduler.PendingAmongMembers | apps/export-processor/src/index.ts:20-29 | a job directory is selected iff it comes from a directory entry whose status reads "pending" |
| Scheduler.PendingAmongAppend | apps/export-processor/src/index.ts:20-29 | selection distributes over concatenated listings, keeping the listing order |
| Scheduler.FindPendingJobs | apps/export-processor/src/index.ts:15-35 | only pending jobs are returned |
| Scheduler.FindPendingJobsMembers | apps/export-processor/src/index.ts:15-35 | an unreadable directory gives no jobs; otherwise membership is exactly as in the loop |
| Scheduler.ProcessJob | apps/export-processor/src/index.ts:37-50 | the job runs iff its descriptor is present and parses, and then it runs exactly the descriptor parsed from its config.json; a missing file and a rejected descriptor are told apart, the latter with the schema's issue |
| Scheduler.ProcessAll | apps/export-processor/src/index.ts:67-69 | one report per selected job, in order, each that job's processing |
| Scheduler.AfterJob | apps/export-processor/src/status.ts:15-21 | after a job the store holds its last landed record's status; a job that never ran or landed nothing leaves the store as it was, and every other job is untouched |
| Scheduler.Poll | apps/export-processor/src/index.ts:60-70 | a poll processes exactly the pending list, each job once, in listing order, one report per job; jobs it did not process keep their status |
| Scheduler.ProcessAllFrame | apps/export-processor/src/index.ts:67-69 | a pass leaves the status of every job it did not process unchanged |
| Scheduler.LastLandedIsLast | apps/export-processor/src/status.ts:15-21 | when the final write lands, it is what is read back |
| Scheduler.RejectedJobStaysPending | apps/export-processor/src/index.ts:37-50 | a job whose descriptor is missing or invalid keeps its status and is selected again |
| Scheduler.FinishedStatus | apps/export-processor/src/processor.ts:90-109 | after a run that returned normally, the readable status is "completed" or "failed" as the run ended |
| Scheduler.FinishedJobNotReselected | apps/export-processor/src/index.ts:15-50 | a finished job's status is "completed" or "failed", and the next poll does not select it |
| Scheduler.RunFinalStatus | apps/export-processor/src/processor.ts:90-109 | a run that completes or fails lands its final record last, with status "completed" or "failed" accordingly |
| Scheduler.FinalNotReselected | apps/export-processor/src/index.ts:15-30 | a job whose last landed record is final is recorded under that status and is not in the next pending list |
| Multicam.FirstIndex | apps/web/src/core/managers/multicam-manager.ts:117-119 | the first index carrying the key, or none iff no element carries it |
| Multicam.Find | apps/web/src/core/managers/multicam-manager.ts:117-119 | an element of the list carrying the key, or none iff no element carries it |
| Multicam.FindFirst | apps/web/src/core/managers/multicam-manager.ts:117-119 | when an element carries the key and none before it does, `find` returns exactly that element |
| Multicam.FindCons | apps/web/src/core/managers/multicam-manager.ts:118 | `find` returns the head when it carries the key, and otherwise what it finds in the tail |
| Multicam.LastIndex | apps/web/src/core/managers/multicam-manager.ts:427-430 | the last index carrying the key: the map built by later angles overwriting earlier ones |
| Multicam.SortByTime | apps/web/src/core/managers/multicam-manager.ts:230-232 | the sort is a permutation of the switch points; with `SortByTimeSorted` and `SortByTimeStable`, a stable sorted permutation |
| Multicam.SortByTimeSorted | apps/web/src/core/managers/multicam-manager.ts:230-232 | the result is sorted by time |
| Multicam.SortByTimeOfSorted | apps/web/src/core/managers/multicam-manager.ts:433-435 | a sorted list is returned unchanged |
| Multicam.SortAppended | apps/web/src/core/managers/multicam-manager.ts:230-232 | sorting a sorted list with one point appended inserts that point after every point no later than it |
| Multicam.SortByTimeStable | apps/web/src/core/managers/multicam-manager.ts:230-232 | the sort is stable: for every time, the points at that time come out in their input order |
| Multicam.InsertStable | apps/web/src/core/managers/multicam-manager.ts:230-232 | an inserted point passes only later points, so it lands after every point of its own time |
| Multicam.AddPoint | apps/web/src/core/managers/multicam-manager.ts:219-233 | with a point within 0.001 of the time, only the first such point changes its angle; otherwise the list grows by exactly the new point |
| Multicam.AddPointSorted | apps/web/src/core/managers/multicam-manager.ts:219-233 | adding a point keeps the list sorted |
| Multicam.FarFrom | apps/web/src/core/managers/multicam-manager.ts:248-250 | keeps exactly the points at least 0.001 from the time |
| Multicam.RemovePoint | apps/web/src/core/managers/multicam-manager.ts:248-254 | the filtered list, unless it would be empty, in which case nothing changes |
| Multicam.RemovePointSorted | apps/web/src/core/managers/multicam-manager.ts:248-254 | removal keeps a list sorted and never empties a non-empty list |
| Multicam.RemovePointClears | apps/web/src/core/managers/multicam-manager.ts:248-254 | when removal happens, no point near the time is left |
| Multicam.FarFromAppend | apps/web/src/core/managers/multicam-manager.ts:248-250 | filtering distributes over concatenation |
| Multicam.AddThenRemove | apps/web/src/core/managers/multicam-manager.ts:207-255 | adding a point at an unused time and then removing it restores the original list |
| Multicam.ActiveIndex | apps/web/src/core/managers/multicam-manager.ts:267-274 | the walk stops at the last of the leading points not after the time, or stays on the first point |
| Multicam.ActiveIndexSorted | apps/web/src/core/managers/multicam-manager.ts:267-274 | on a sorted list the chosen point is the last one not after the time, or the first when every point is later |
| Multicam.ActiveAngleAt | apps/web/src/core/managers/multicam-manager.ts:257-277 | the angle named by the active point, if the clip has points and that angle exists |
| Multicam.ActiveAngleDefined | apps/web/src/core/managers/multicam-manager.ts:257-277 | a well-formed clip always has an active angle |
| Multicam.UpdateClip | apps/web/src/core/managers/multicam-manager.ts:547-562 | only clips with the identifier change, keeping identity and name; the flags are untouched |
| Multicam.GetClipAfterUpdate | apps/web/src/core/managers/multicam-manager.ts:547-562 | looking up after an update gives the updated clip, and every other clip as it was |
| Multicam.MaxDuration | apps/web/src/core/managers/multicam-manager.ts:78-83 | the largest of the media durations |
| Multicam.CreateClip | apps/web/src/core/managers/multicam-manager.ts:33-102 | fails iff there is no media; otherwise appends one clip with one angle per medium on its own track, named after the medium or its position, offset 0, one switch point at 0 on the first angle, as long as the longest medium, with the given name, sync method and creation time; the earlier clips, the active clip, the flags and the visible angle are unchanged |
| Multicam.CreateClipWellFormed | apps/web/src/core/managers/multicam-manager.ts:33-102 | a created clip is well-formed |
| Multicam.DeleteClip | apps/web/src/core/managers/multicam-manager.ts:104-115 | removes exactly the clips with the identifier, and leaves multicam mode if that clip was active; the live-switching and grid flags and the visible angle are unchanged |
| Multicam.DeleteClipIdempotent | apps/web/src/core/managers/multicam-manager.ts:104-115 | deleting twice is deleting once |
| Multicam.WithoutClipAppend | apps/web/src/core/managers/multicam-manager.ts:107 | the filter keeps the order: filtering a concatenation concatenates the filtered parts |
| Multicam.WithoutClipSnoc | apps/web/src/core/managers/multicam-manager.ts:107 | a clip appended to the list is appended to the filtered list iff it does not carry the identifier |
| Multicam.FindWithoutClip | apps/web/src/core/managers/multicam-manager.ts:104-119 | after filtering out one identifier, `find` on any other identifier returns what it returned before |
| Multicam.DeleteClipOthers | apps/web/src/core/managers/multicam-manager.ts:104-119 | deleting a clip leaves `getClip` of every other identifier unchanged |
| Multicam.DeleteActiveClipKeepsFlags | apps/web/src/core/managers/multicam-manager.ts:104-115 | deleting the active clip leaves the mode but leaves live switching and the grid on |
| Multicam.AddAngle | apps/web/src/core/managers/multicam-manager.ts:127-158 | no-op iff the clip is missing; otherwise appends the angle named by the caller, else after the medium or its position, with its offset; keeps every other field of the clip, and sets the duration to the larger of the old one and the medium plus offset; every other clip keeps its place and value, and the active clip, the live-switching and grid flags and the visible angle are unchanged |
| Multicam.AddAngleWellFormed | apps/web/src/core/managers/multicam-manager.ts:127-158 | adding an angle keeps a clip well-formed |
| Multicam.Retarget | apps/web/src/core/managers/multicam-manager.ts:172-177 | points on the removed angle move to the replacement; the times are kept |
| Multicam.RemoveAngle | apps/web/src/core/managers/multicam-manager.ts:160-184 | no-op for a missing clip or a clip with one angle; fails (reading a missing first angle) iff removal would leave none; otherwise the clip's angles lose the removed one, its points on that angle move to the first remaining angle, and the clip's other fields are unchanged; every other clip keeps its place and value, and the active clip, the live-switching and grid flags and the visible angle are unchanged |
| Multicam.WithoutAngleAppend | apps/web/src/core/managers/multicam-manager.ts:171 | the angle filter keeps the order of the remaining angles |
| Multicam.WithoutAngleFirst | apps/web/src/core/managers/multicam-manager.ts:171-172 | the first remaining angle, the one that takes over the points, is the first angle whose identifier differs |
| Multicam.RemoveAngleWellFormed | apps/web/src/core/managers/multicam-manager.ts:160-184 | removal keeps a clip well-formed, and the removed angle is gone |
| Multicam.RemoveAngleOthers | apps/web/src/core/managers/multicam-manager.ts:160-184 | removing an angle leaves every other clip as it was |
| Multicam.AddThenRemoveAngle | apps/web/src/core/managers/multicam-manager.ts:127-184 | adding a fresh angle and removing it restores the angles and switch points |
| Multicam.SetSyncOffset | apps/web/src/core/managers/multicam-manager.ts:186-203 | no-op for a missing clip; otherwise exactly the angles with the identifier take the new offset, and everything else in the clip is unchanged; every other clip keeps its place and value, and the active clip, the live-switching and grid flags and the visible angle are unchanged |
| Multicam.SetSyncOffsetWellFormed | apps/web/src/core/managers/multicam-manager.ts:186-203 | changing an offset keeps a clip well-formed |
| Multicam.AddSwitchPoint | apps/web/src/core/managers/multicam-manager.ts:207-236 | no-op for a missing clip; otherwise the clip's points become the added list; every other clip keeps its place and value, and the active clip, the live-switching and grid flags and the visible angle are unchanged |
| Multicam.AddSwitchPointWellFormed | apps/web/src/core/managers/multicam-manager.ts:207-236 | adding a point on one of the clip's angles keeps it well-formed |
| Multicam.RemoveSwitchPoint | apps/web/src/core/managers/multicam-manager.ts:238-255 | no-op for a missing clip or when every point is near the time; otherwise the filtered list; every other clip keeps its place and value, and the active clip, the live-switching and grid flags and the visible angle are unchanged |
| Multicam.RemoveSwitchPointWellFormed | apps/web/src/core/managers/multicam-manager.ts:238-255 | removal keeps a clip well-formed |
| Multicam.EnterMode | apps/web/src/core/managers/multicam-manager.ts:281-292 | for an existing clip: it becomes active, the grid shows and its first angle is the visible one; otherwise no-op |
| Multicam.ExitMode | apps/web/src/core/managers/multicam-manager.ts:294-303 | leaves the mode with live switching and the grid off and no visible angle; the clips stay |
| Multicam.EnterThenExit | apps/web/src/core/managers/multicam-manager.ts:281-303 | entering then exiting resets every flag and keeps the clips |
| Multicam.StartLiveSwitching | apps/web/src/core/managers/multicam-manager.ts:305-314 | without an active clip nothing changes; otherwise live switching is on and the clips, the active clip, the grid and the visible angle are unchanged |
| Multicam.StopLiveSwitching | apps/web/src/core/managers/multicam-manager.ts:316-325 | turns live switching and the grid off; the active clip, the clips and the visible angle stay |
| Multicam.StartThenStop | apps/web/src/core/managers/multicam-manager.ts:305-325 | starting then stopping live switching leaves it and the grid off, and the clips, active clip and visible angle as they were |
| Multicam.FlagsKeepActiveAngle | apps/web/src/core/managers/multicam-manager.ts:305-376 | starting or stopping live switching and showing or hiding the grid never change which angle is active at any time |
| Multicam.SwitchToAngle | apps/web/src/core/managers/multicam-manager.ts:327-335 | without an active clip nothing changes; otherwise the visible angle is the requested one, the active clip's points become those with a point on it added at the current time, every other clip keeps its place and value, and the mode flags are unchanged |
| Multicam.SwitchToAngleShows | apps/web/src/core/managers/multicam-manager.ts:327-335 | when no point lies within 0.001 of the current time, the switched-to angle of a sorted clip is the active angle at that time |
| Multicam.SwitchToAngleWellFormed | apps/web/src/core/managers/multicam-manager.ts:327-335 | switching to one of the active clip's angles keeps the clip well-formed |
| Multicam.InsertedIsActive | apps/web/src/core/managers/multicam-manager.ts:230-232 | in a sorted list, a point inserted at its time is the active point at that time |
| Multicam.ShowGrid | apps/web/src/core/managers/multicam-manager.ts:368-371 | the grid is shown; the clips, the active clip, live switching and the visible angle stay |
| Multicam.HideGrid | apps/web/src/core/managers/multicam-manager.ts:373-376 | the grid is hidden; the clips, the active clip, live switching and the visible angle stay |
| Multicam.GridLastCallWins | apps/web/src/core/managers/multicam-manager.ts:368-376 | of a sequence of grid calls the last one decides, and each is idempotent |
| Multicam.LoadClips | apps/web/src/core/managers/multicam-manager.ts:537-543 | the clips are replaced; the active clip, the flags and the visible angle stay |
| Multicam.LoadedClipFound | apps/web/src/core/managers/multicam-manager.ts:537-543 | after loading, looking up the identifier of a loaded clip that no earlier loaded clip carries gives that clip |
| Multicam.LoadOwnClips | apps/web/src/core/managers/multicam-manager.ts:537-543 | loading the clips already held changes nothing |
| Multicam.ActiveTrackId | apps/web/src/core/managers/multicam-manager.ts:345-352 | a reported track belongs to some angle of some clip, and a non-empty one is listed among the track identifiers; none with no active clip and no clips, or with an empty active identifier |
| Multicam.ActiveTrackIdInMode | apps/web/src/core/managers/multicam-manager.ts:345-352 | in multicam mode on a well-formed clip, the track of the angle active at that time |
| Multicam.ActiveTrackIdFallback | apps/web/src/core/managers/multicam-manager.ts:345-352 | outside the mode, the track of the first clip's angle active at that time |
| Multicam.TrackIds | apps/web/src/core/managers/multicam-manager.ts:354-362 | exactly the non-empty track identifiers of all angles |
| Multicam.TrackIdListed | apps/web/src/core/managers/multicam-manager.ts:354-362 | every non-empty track identifier of an angle of a clip is listed |
| MulticamExport.CutsFrom | apps/web/src/core/managers/multicam-manager.ts:437-455 | every cut comes from a switch point whose angle exists and whose span is positive |
| MulticamExport.CutsFromIncreasing | apps/web/src/core/managers/multicam-manager.ts:438-455 | cuts come in switch-point order |
| MulticamExport.CutsFromComplete | apps/web/src/core/managers/multicam-manager.ts:438-455 | every qualifying switch point yields a cut |
| MulticamExport.CutsEveryPoint | apps/web/src/core/managers/multicam-manager.ts:438-455 | when every point qualifies there is one cut per point, in order |
| MulticamExport.CutsOrdered | apps/web/src/core/managers/multicam-manager.ts:433-455 | every cut is a positive span on one of the clip's angles, and cuts never overlap |
| MulticamExport.CutsContiguous | apps/web/src/core/managers/multicam-manager.ts:433-455 | for strictly increasing points before the end, the cuts tile the clip from the first point to its duration |
| MulticamExport.ResolvedClipId | apps/web/src/core/managers/multicam-manager.ts:399-401 | the requested clip, else the active clip, else the first clip; none only when there is none of these |
| MulticamExport.SourceOf | apps/web/src/core/managers/multicam-manager.ts:410-424 | a source carries the medium's identifier, the angle's name, audio on, and as its file the asset's name, or the medium's identifier when no asset matches, under the base path (bare when the base path is empty); `SourceOfAsset` and `SourceOfNoAsset` state the size, duration and frame rate |
| MulticamExport.SourceOfAsset | apps/web/src/core/managers/multicam-manager.ts:410-424 | when the first asset with the angle's medium identifier is at index `i`, the source copies that asset's width, height, duration and frame rate |
| MulticamExport.SourceOfNoAsset | apps/web/src/core/managers/multicam-manager.ts:410-424 | when no asset has the angle's medium identifier, the width, height, duration and frame rate are all absent |
| MulticamExport.SegmentOf | apps/web/src/core/managers/multicam-manager.ts:448-454 | the segment starts at the cut plus the angle's offset and lasts as long as the cut; its source is the last angle carrying the cut angle's identifier, or 0 when none does |
| MulticamExport.SegmentsResolve | apps/web/src/core/managers/multicam-manager.ts:426-454 | every segment's source index is the position of the angle that was cut |
| MulticamExport.OutputOf | apps/web/src/core/managers/multicam-manager.ts:459-480 | the output is under the export's folder with stream copy, and uses the project's canvas and frame rate or 1920×1080 at 30 |
| MulticamExport.OutputFits | apps/web/src/core/managers/multicam-manager.ts:459-480 | the output section passes the output schema with the requested format and codec copy |
| MulticamExport.GenerateExportConfig | apps/web/src/core/managers/multicam-manager.ts:388-483 | none iff no clip resolves, it has no switch points, or no cut survives; otherwise version 1, status pending, one source per angle, one segment per cut shifted by the angle's offset |
| MulticamExport.GeneratedConfigParses | packages/export-config/src/schema.ts:38-48 | a descriptor built as generated passes the schema |
| MulticamExport.GeneratedConfigAccepted | apps/web/src/core/managers/multicam-manager.ts:388-483 | with non-negative start times, the generated descriptor passes the processor's schema and every segment resolves to a source |
| MulticamExport.SourcesFit | apps/web/src/core/managers/multicam-manager.ts:410-424 | every generated source passes the source schema |
| MulticamExport.SegmentsFit | apps/web/src/core/managers/multicam-manager.ts:437-455 | every generated segment passes the segment schema and names a source position |
| MulticamExport.ParsedResolves | apps/export-processor/src/processor.ts:27-28 | when every source index is a position, the processor finds every segment's source |
| MulticamExport.NegativeOffsetRejected | apps/web/src/core/managers/multicam-manager.ts:451 | an angle with offset −1 cut at time 0 yields a segment starting at −1, which the schema rejects |
| MulticamExport.NegativeStartRejected | packages/export-config/src/schema.ts:14-19 | a descriptor whose first segment starts below zero is refused |
| MulticamExport.FlattenToTimeline | apps/web/src/core/managers/multicam-manager.ts:487-533 | one element per cut, at the cut's time and length, trimmed at the start by the angle's offset and not at the end, on the angle's medium and named after the angle, with full opacity and the default transform |
| MulticamExport.FlattenMatchesExport | apps/web/src/core/managers/multicam-manager.ts:388-533 | with distinct angle identifiers, each flattened element covers exactly the media span of the export segment, on the same medium |
| MulticamPreview.GridLayout | apps/web/src/components/editor/panels/preview/multicam-preview.tsx:13-20 | 1×1 for one angle or fewer; at most 4 columns; enough cells and no empty row; beyond nine angles, 4 columns and as many rows as needed |
| MulticamPreview.GridShapeMonotone | apps/web/src/components/editor/panels/preview/multicam-preview.tsx:13-20 | more angles never shrink the grid, and it is no taller than wide up to nine angles |
| MulticamPreview.Letterbox | apps/web/src/components/editor/panels/preview/multicam-preview.tsx:65-84 | the frame spans the tile's width or its height |
| MulticamPreview.LetterboxFits | apps/web/src/components/editor/panels/preview/multicam-preview.tsx:65-84 | the frame lies inside the tile, keeps its aspect ratio and is centred |
| MulticamPreview.VideoTime | apps/web/src/components/editor/panels/preview/multicam-preview.tsx:44 | the playhead shifted by the offset, clamped at 0 |
| MulticamPreview.PreviewMatchesExport | apps/web/src/components/editor/panels/preview/multicam-preview.tsx:44 | inside a cut, the active tile samples the export segment's start plus the time into the cut, before the segment's end |
| Migration.MigrateElement | apps/web/src/services/storage/migrations/transformers/v6-to-v7.ts:79-102 | an old-shape text element loses backgroundColor and gains the default background with its colour (or "transparent"); every other key and every other value is untouched |
| Migration.MigrateElementDone | apps/web/src/services/storage/migrations/transformers/v6-to-v7.ts:79-102 | a migrated element needs no migration; migrating is idempotent, and changes an element iff it needed it |
| Migration.RewriteList | apps/web/src/services/storage/migrations/transformers/v6-to-v7.ts:62-77 | only the array under the key changes, item by item; a missing or non-array field leaves the record as it was |
| Migration.RewriteListIdempotent | apps/web/src/services/storage/migrations/transformers/v6-to-v7.ts:26-77 | rewriting with an idempotent function is idempotent |
| Migration.RewriteListUnchanged | apps/web/src/services/storage/migrations/transformers/v6-to-v7.ts:68-75 | the record is returned as it was iff no item changes |
| Migration.MigrateTrack | apps/web/src/services/storage/migrations/transformers/v6-to-v7.ts:62-77 | a non-record is returned as it is; a record keeps its keys and every field but `elements`, whose array is rewritten item by item in place; a track without an `elements` array is unchanged |
| Migration.MigrateTrackDone | apps/web/src/services/storage/migrations/transformers/v6-to-v7.ts:62-77 | after the track rewrite no element needs migrating; it is idempotent, and changes the track iff one did |
| Migration.MigrateScene | apps/web/src/services/storage/migrations/transformers/v6-to-v7.ts:45-60 | a non-record is returned as it is; a record keeps its keys and every field but `tracks`, whose array is rewritten track by track in place; a scene without a `tracks` array is unchanged |
| Migration.MigrateSceneDone | apps/web/src/services/storage/migrations/transformers/v6-to-v7.ts:45-60 | the same for a scene's tracks |
| Migration.MigrateProject | apps/web/src/services/storage/migrations/transformers/v6-to-v7.ts:26-43 | the project keeps its keys and every field but `scenes`, whose array is rewritten scene by scene in place; a project without a `scenes` array is unchanged |
| Migration.MigrateProjectDone | apps/web/src/services/storage/migrations/transformers/v6-to-v7.ts:26-43 | the same for a project's scenes |
| Migration.Transform | apps/web/src/services/storage/migrations/transformers/v6-to-v7.ts:4-24 | skips with "no project id" or "already v7"; otherwise sets version 7, puts the rewritten scenes in place, and keeps every other field |
| Migration.VersionGate | apps/web/src/services/storage/migrations/transformers/v6-to-v7.ts:104-106 | a project counts as migrated iff its version is a number of at least 7; a missing version or one stored as text does not |
| Migration.TransformTwice | apps/web/src/services/storage/migrations/transformers/v6-to-v7.ts:4-24 | a migrated project is skipped as already v7 and holds no old-shape text element |
| TextLayout.Ascent | apps/web/src/lib/text/layout.ts:17-25 | the measured ascent, or 0.8 of the font size |
| TextLayout.Descent | apps/web/src/lib/text/layout.ts:27-35 | the measured descent, or 0.2 of the font size |
| TextLayout.FallbackSpansFontSize | apps/web/src/lib/text/layout.ts:17-35 | with neither metric measured a line spans exactly one font size, split four to one about the baseline; each side depends only on its own metric |
| TextLayout.MeasureTextBlock | apps/web/src/lib/text/layout.ts:37-67 | none iff there are no lines; otherwise the block spans from the highest line top to the lowest line bottom, centred on their midpoint, as wide as the widest line |
| TextLayout.SingleLineBlock | apps/web/src/lib/text/layout.ts:37-67 | a single line is as tall as its ascent plus descent |
| TextLayout.TextRect | apps/web/src/lib/text/layout.ts:70-86 | the block's size, centred vertically on the anchor, with the left edge, centre or right edge on it by alignment |
| TextLayout.BackgroundRect | apps/web/src/lib/text/layout.ts:88-125 | none iff the colour is empty or "transparent"; otherwise the text rectangle grown by twice the scaled padding and its centre moved by the offset |
| TextLayout.BackgroundCoversText | apps/web/src/lib/text/layout.ts:96-125 | with no offset and non-negative padding, the background covers the text |
| TextLayout.VisualRect | apps/web/src/lib/text/layout.ts:127-167 | the text rectangle without a background; otherwise a rectangle covering both |
| TextLayout.VisualRectSmallest | apps/web/src/lib/text/layout.ts:127-167 | any rectangle covering the text and the background covers the visual rectangle |
| TextNode.ScaleFontSize | apps/web/src/services/renderer/nodes/text-node.ts:16-24 | proportional to the canvas height over the reference height, and the identity at the reference |
| TextNode.ScaleFontSizeLinear | apps/web/src/services/renderer/nodes/text-node.ts:16-24 | scaling is additive, homogeneous and, on a positive canvas, strictly monotone |
| TextNode.Escape | apps/web/src/services/renderer/nodes/text-node.ts:27 | one extra character per double quote |
| TextNode.QuoteFontFamily | apps/web/src/services/renderer/nodes/text-node.ts:26-28 | wrapped in double quotes, two characters plus one per inner quote longer |
| TextNode.EscapeRoundTrip | apps/web/src/services/renderer/nodes/text-node.ts:27 | undoing the added backslashes gives the family back |
| TextNode.QuoteRoundTrip | apps/web/src/services/renderer/nodes/text-node.ts:26-28 | stripping the quotes and the added backslashes gives the family back |
| TextNode.EscapedQuotesFollowBackslash | apps/web/src/services/renderer/nodes/text-node.ts:27 | every quote in the escaped text follows a backslash |
| TextNode.CssReadsEscaped | apps/web/src/services/renderer/nodes/text-node.ts:26-28 | for a family without backslashes, a CSS reading of the escaped text gives the family back and reaches the closing quote |
| TextNode.BackslashEndsCssString | apps/web/src/services/renderer/nodes/text-node.ts:27 | the family `a\"b` escapes to `a\\"b`, and a CSS reading ends the string before `b` |
| TextNode.Thickness | apps/web/src/services/renderer/nodes/text-node.ts:49 | at least 1 and at least 0.07 of the font size |
| TextNode.DecorationRect | apps/web/src/services/renderer/nodes/text-node.ts:30-66 | a rectangle iff the decoration is "underline" or "line-through", as wide as the line and as thick as the thickness, placed below the descent or at 0.35 of the glyph height |
| TextNode.DecorationUnderText | apps/web/src/services/renderer/nodes/text-node.ts:30-66 | under the widest line a decoration spans the text rectangle's columns |
| TextNode.UnderlineBelowGlyphs | apps/web/src/services/renderer/nodes/text-node.ts:57-60 | the underline starts at least one unit below the glyphs |
| TextNode.StrikeWithinGlyphs | apps/web/src/services/renderer/nodes/text-node.ts:62-65 | the strike line starts between the glyph top and the baseline |
| TextNode.IsInRange | apps/web/src/services/renderer/nodes/text-node.ts:75-80 | shown iff the time is at or after the start and before start plus duration, which needs a positive duration |
| TextNode.InRangeSplit | apps/web/src/services/renderer/nodes/text-node.ts:75-80 | splitting an element's window in two covers it without overlap |
| TextNode.EmptyRangeNeverShows | apps/web/src/services/renderer/nodes/text-node.ts:75-80 | an element with no positive duration never shows |
| TextProperties.Round | apps/web/src/components/editor/panels/properties/text-properties.tsx:36 | the nearest integer, halves up |
| TextProperties.ToDisplay | apps/web/src/components/editor/panels/properties/text-properties.tsx:36 | the scaled distance from the default, within half a step |
| TextProperties.FromDisplay | apps/web/src/components/editor/panels/properties/text-properties.tsx:37-40 | the default moved by the unscaled display value, raised to the minimum when there is one |
| TextProperties.DefaultIsZero | apps/web/src/components/editor/panels/properties/text-properties.tsx:35-41 | the default shows as 0, and 0 stores the default |
| TextProperties.DisplayRoundTrip | apps/web/src/components/editor/panels/properties/text-properties.tsx:35-41 | an integer that is not raised to the minimum shows again as itself |
| TextProperties.StoredRoundTrip | apps/web/src/components/editor/panels/properties/text-properties.tsx:35-41 | a stored value comes back within half a step, exactly iff it is a whole number of steps from the default |
| TextProperties.ParseFontSize | apps/web/src/components/editor/panels/properties/text-properties.tsx:116-120 | rejects NaN; clamps a number into the font-size range, keeping it when inside |
| TextProperties.ParseRounded | apps/web/src/components/editor/panels/properties/text-properties.tsx:212-214 | rejects NaN; otherwise the nearest integer |
| TextProperties.ParseCornerRadius | apps/web/src/components/editor/panels/properties/text-properties.tsx:293-295 | rejects NaN; otherwise the nearest integer, and 0 below −0.5 |
| TextProperties.ParseConverted | apps/web/src/components/editor/panels/properties/text-properties.tsx:225-227 | rejects NaN; otherwise the default moved by the rounded input over the scale, raised to the minimum when there is one |
| TextProperties.ParseConvertedShows | apps/web/src/components/editor/panels/properties/text-properties.tsx:224-227 | the stored value shows again as the rounded input unless the minimum raised it |
| TextProperties.RoundedCommitUnchanged | apps/web/src/components/editor/panels/properties/text-properties.tsx:211-214 | committing the shown integer leaves a rounded field unchanged |
| TextProperties.PaddingCommitUnchanged | apps/web/src/components/editor/panels/properties/text-properties.tsx:313-317 | committing the shown text leaves a padding a whole number of pixels from its default unchanged |

## Left out

- File system, process spawning, HTTP and console logging: the job directory, the status file, the transcoder and writes of the list are parameters (`Env`, `World`). Only whether each write lands and what each transcoder call reports is modelled.
- The polling loop's infinite repetition and its sleep (`apps/export-processor/src/index.ts:60-73`): the model covers one pass. `ensureExportsDir` and the process exit on a fatal error are left out.
- `readStatus` is an unchecked cast: the store keeps the `status` field as text, and an unreadable record is a missing entry.
- The exception thrown by `ExportConfigSchema.parse` and any error from reading the descriptor are the report's `ConfigUnreadable` / `ConfigInvalid` cases. The issue paths and messages zod builds are approximated.
- zod's `datetime` check is the parameter `isDateTime`.
- zod's structural checks: the `*Input` records of `ExportSchema` are already typed, so a value of the wrong JSON type (a string where a number belongs), a missing required field (`filePath`, `createdAt`, `output`, …) and the stripping of unknown keys are not modelled. Only checks on values of the right type are.
- `parseFloat`'s grammar: every parse closure takes its result, `None` standing for NaN.
- JSON serialisation: key order, number formatting (`String(seg.startTime)` is the parameter `showNumber`) and IEEE rounding. Numbers are mathematical reals.
- `generateUUID`, `new Date().toISOString()` and the playhead time are parameters.
- `multicam-manager.ts` side effects are not modelled: notifying subscribers, `syncClipsToProject`, adding tracks and elements to the timeline in `createClip`, inserting the flattened elements, and pausing and seeking playback.
- `utils` (`getProjectId`, `isRecord`), `constants/text-constants` (default background, font-size range, reference height, default line height) and `utils/math` (`clamp`) are not part of this model. The identifier and the constants are parameters, and `clamp` is taken as `min(max, max(min, v))`.
- Multicam.CreateClip: the sync method is a required parameter. The source's default `syncMethod = "manual"` (apps/web/src/core/managers/multicam-manager.ts:36) is not modelled; a caller that omits it corresponds to passing the manual method.
- Array `sort` is assumed stable, as engines guarantee since ES2019; `SortByTime` is an insertion sort and `SortByTimeStable` proves it stable, so the model does not cover an unstable engine.
- Canvas drawing calls (`fillText`, `fillRect`, `drawImage`), font loading, video frame decoding and React rendering are left out. Only the geometry they are given is modelled.
- MulticamPreview.Letterbox: requires positive tile and frame sizes. With a zero height the source's aspect ratios become Infinity or NaN, and so does the placement; the model has no such values.
- TextLayout.MeasureTextBlock: with no lines the source produces −∞ and NaN; the model returns `None` instead of those values.
- MulticamExport.GeneratedConfigAccepted: requires non-negative segment start times, because the source emits negative ones for a negative offset, as `NegativeOffsetRejected` shows.
- Processor.RunFFmpeg: the streamed progress echo to standard output is left out.
- TextNode.QuoteFontFamily: the source escapes double quotes but not backslashes, so a family with a backslash before a quote ends the CSS string early (`BackslashEndsCssString`). The model keeps that escaping. The CSS round trip is proved only for families without backslashes (`CssReadsEscaped`), and `CssRead` leaves out hexadecimal escapes and escaped newlines.

=== FILE: export_schema.dfy ===
/** The export job descriptor and its status record: the shapes a job's
    `config.json` and `status.json` must have, the validity conditions the
    schema enforces, and the defaults it fills in for omitted flags.

    A value arriving from JSON is an `...Input`: numbers are reals, optional and
    defaulted fields are `Option`s, and enumerations are still strings. Parsing
    turns an input into the validated shape with every default applied, or
    reports the first field that violates the schema. */
module ExportSchema {
  import opened Wrappers
  import TextUtil

  // ---------------------------------------------------------------------------
  // Enumerations
  // ---------------------------------------------------------------------------

  datatype Format = Mp4 | Webm
  datatype Codec = Copy | H264 | H265
  datatype JobStatus = Pending | Processing | Completed | Failed

  function FormatName(f: Format): string {
    match f
    case Mp4 => "mp4"
    case Webm => "webm"
  }

  function CodecName(c: Codec): string {
    match c
    case Copy => "copy"
    case H264 => "h264"
    case H265 => "h265"
  }

  function StatusName(s: JobStatus): string {
    match s
    case Pending => "pending"
    case Processing => "processing"
    case Completed => "completed"
    case Failed => "failed"
  }

  /** `z.enum(["mp4", "webm"])`. */
  function ParseFormat(s: string): (r: Option<Format>)
    ensures r.Some? <==> s == "mp4" || s == "webm"
    ensures r.Some? ==> FormatName(r.value) == s
  {
    if s == "mp4" then Some(Mp4) else if s == "webm" then Some(Webm) else None
  }

  /** `z.enum(["copy", "h264", "h265"])`. */
  function ParseCodec(s: string): (r: Option<Codec>)
    ensures r.Some? <==> s == "copy" || s == "h264" || s == "h265"
    ensures r.Some? ==> CodecName(r.value) == s
  {
    if s == "copy" then Some(Copy)
    else if s == "h264" then Some(H264)
    else if s == "h265" then Some(H265)
    else None
  }

  /** `z.enum(["pending", "processing", "completed", "failed"])`. */
  function ParseStatus(s: string): (r: Option<JobStatus>)
    ensures r.Some? <==> s == "pending" || s == "processing" || s == "completed" || s == "failed"
    ensures r.Some? ==> StatusName(r.value) == s
  {
    if s == "pending" then Some(Pending)
    else if s == "processing" then Some(Processing)
    else if s == "completed" then Some(Completed)
    else if s == "failed" then Some(Failed)
    else None
  }

  /** Every enumeration value survives printing and re-reading. */
  lemma EnumRoundTrip(f: Format, c: Codec, s: JobStatus)
    ensures ParseFormat(FormatName(f)) == Some(f)
    ensures ParseCodec(CodecName(c)) == Some(c)
    ensures ParseStatus(StatusName(s)) == Some(s)
  {
  }

  // ---------------------------------------------------------------------------
  // Numeric refinements
  // ---------------------------------------------------------------------------

  /** `z.number().int()`. */
  predicate IsInteger(x: real) {
    x.Floor as real == x
  }

  /** `z.number().int().positive().optional()`. */
  predicate OptPositiveInt(o: Option<real>) {
    o.None? || (IsInteger(o.value) && o.value > 0.0)
  }

  /** `z.number().nonnegative().optional()`. */
  predicate OptNonNegative(o: Option<real>) {
    o.None? || o.value >= 0.0
  }

  /** `z.number().positive().optional()`. */
  predicate OptPositive(o: Option<real>) {
    o.None? || o.value > 0.0
  }

  // ---------------------------------------------------------------------------
  // Validated shapes
  // ---------------------------------------------------------------------------

  datatype Source = Source(
    id: string, name: string, filePath: string,
    width: Option<real>, height: Option<real>, duration: Option<real>, fps: Option<real>,
    hasAudio: bool)

  datatype Segment = Segment(sourceIndex: nat, startTime: real, endTime: real, audioFromSource: bool)

  datatype Output = Output(
    filePath: string, format: Format,
    width: Option<real>, height: Option<real>, fps: Option<real>,
    codec: Codec, includeAudio: bool)

  datatype Config = Config(
    version: int, id: string, projectId: string, projectName: string, createdAt: string,
    sources: seq<Source>, segments: seq<Segment>, output: Output, status: JobStatus)

  datatype StatusFile = StatusFile(
    jobId: string, status: JobStatus, progress: real,
    message: Option<string>, error: Option<string>, downloadUrl: Option<string>)

  predicate ValidSource(s: Source) {
    OptPositiveInt(s.width) && OptPositiveInt(s.height) && OptNonNegative(s.duration) && OptPositive(s.fps)
  }

  /** A segment's times are non-negative. Nothing relates `endTime` to
      `startTime`, and nothing bounds `sourceIndex` by the number of sources. */
  predicate ValidSegment(s: Segment) {
    s.startTime >= 0.0 && s.endTime >= 0.0
  }

  predicate ValidOutput(o: Output) {
    OptPositiveInt(o.width) && OptPositiveInt(o.height) && OptPositive(o.fps)
  }

  /** What a parsed job descriptor satisfies; `isDateTime` is the ISO 8601
      check zod applies to `createdAt`, taken as given. */
  predicate ValidConfig(c: Config, isDateTime: string -> bool) {
    && c.version == 1
    && isDateTime(c.createdAt)
    && |c.sources| >= 1
    && |c.segments| >= 1
    && (forall k :: 0 <= k < |c.sources| ==> ValidSource(c.sources[k]))
    && (forall k :: 0 <= k < |c.segments| ==> ValidSegment(c.segments[k]))
    && ValidOutput(c.output)
  }

  predicate ValidStatusFile(f: StatusFile) {
    0.0 <= f.progress <= 1.0
  }

  // ---------------------------------------------------------------------------
  // Wire shapes
  // ---------------------------------------------------------------------------

  datatype SourceInput = SourceInput(
    id: string, name: string, filePath: string,
    width: Option<real>, height: Option<real>, duration: Option<real>, fps: Option<real>,
    hasAudio: Option<bool>)

  datatype SegmentInput = SegmentInput(
    sourceIndex: real, startTime: real, endTime: real, audioFromSource: Option<bool>)

  datatype OutputInput = OutputInput(
    filePath: string, format: Option<string>,
    width: Option<real>, height: Option<real>, fps: Option<real>,
    codec: Option<string>, includeAudio: Option<bool>)

  datatype ConfigInput = ConfigInput(
    version: real, id: string, projectId: string, projectName: string, createdAt: string,
    sources: seq<SourceInput>, segments: seq<SegmentInput>, output: OutputInput,
    status: Option<string>)

  datatype StatusFileInput = StatusFileInput(
    jobId: string, status: string, progress: Option<real>,
    message: Option<string>, error: Option<string>, downloadUrl: Option<string>)

  /** The dotted path of the first field that violates the schema. */
  datatype Issue = Issue(path: string)

  function Path(prefix: string, k: nat, field: string): string {
    prefix + "." + TextUtil.NatToString(k) + "." + field
  }

  // ---------------------------------------------------------------------------
  // Parsing with defaults
  // ---------------------------------------------------------------------------

  /** `ExportSourceSchema.parse`: checks width, height, duration and fps in
      declaration order; `hasAudio` defaults to true. */
  function ParseSource(x: SourceInput, k: nat): (r: Result<Source, Issue>)
    ensures r.Ok? <==> OptPositiveInt(x.width) && OptPositiveInt(x.height)
                       && OptNonNegative(x.duration) && OptPositive(x.fps)
    ensures r.Ok? ==> ValidSource(r.value)
    ensures r.Ok? ==> r.value.hasAudio == x.hasAudio.GetOr(true)
    ensures r.Ok? ==> r.value.id == x.id && r.value.name == x.name && r.value.filePath == x.filePath
                      && r.value.width == x.width && r.value.height == x.height
                      && r.value.duration == x.duration && r.value.fps == x.fps
  {
    if !OptPositiveInt(x.width) then Err(Issue(Path("sources", k, "width")))
    else if !OptPositiveInt(x.height) then Err(Issue(Path("sources", k, "height")))
    else if !OptNonNegative(x.duration) then Err(Issue(Path("sources", k, "duration")))
    else if !OptPositive(x.fps) then Err(Issue(Path("sources", k, "fps")))
    else Ok(Source(x.id, x.name, x.filePath, x.width, x.height, x.duration, x.fps, x.hasAudio.GetOr(true)))
  }

  /** `ExportSegmentSchema.parse`: `sourceIndex` must be a non-negative
      integer and both times non-negative; `audioFromSource` defaults to true. */
  function ParseSegment(x: SegmentInput, k: nat): (r: Result<Segment, Issue>)
    ensures r.Ok? <==> IsInteger(x.sourceIndex) && x.sourceIndex >= 0.0
                       && x.startTime >= 0.0 && x.endTime >= 0.0
    ensures r.Ok? ==> ValidSegment(r.value)
    ensures r.Ok? ==> r.value.sourceIndex as real == x.sourceIndex
                      && r.value.startTime == x.startTime && r.value.endTime == x.endTime
    ensures r.Ok? ==> r.value.audioFromSource == x.audioFromSource.GetOr(true)
  {
    if !(IsInteger(x.sourceIndex) && x.sourceIndex >= 0.0) then Err(Issue(Path("segments", k, "sourceIndex")))
    else if x.startTime < 0.0 then Err(Issue(Path("segments", k, "startTime")))
    else if x.endTime < 0.0 then Err(Issue(Path("segments", k, "endTime")))
    else Ok(Segment(x.sourceIndex.Floor as nat, x.startTime, x.endTime, x.audioFromSource.GetOr(true)))
  }

  /** `ExportOutputSchema.parse`: `format` defaults to mp4, `codec` to copy and
      `includeAudio` to true. */
  function ParseOutput(x: OutputInput): (r: Result<Output, Issue>)
    ensures r.Ok? <==> (x.format.None? || ParseFormat(x.format.value).Some?)
                       && OptPositiveInt(x.width) && OptPositiveInt(x.height) && OptPositive(x.fps)
                       && (x.codec.None? || ParseCodec(x.codec.value).Some?)
    ensures r.Ok? ==> ValidOutput(r.value)
    ensures r.Ok? ==> r.value.filePath == x.filePath
                      && r.value.width == x.width && r.value.height == x.height && r.value.fps == x.fps
    ensures r.Ok? ==> r.value.format == (if x.format.None? then Mp4 else ParseFormat(x.format.value).value)
    ensures r.Ok? ==> r.value.codec == (if x.codec.None? then Copy else ParseCodec(x.codec.value).value)
    ensures r.Ok? ==> r.value.includeAudio == x.includeAudio.GetOr(true)
  {
    var format := if x.format.None? then Some(Mp4) else ParseFormat(x.format.value);
    var codec := if x.codec.None? then Some(Copy) else ParseCodec(x.codec.value);
    if format.None? then Err(Issue("output.format"))
    else if !OptPositiveInt(x.width) then Err(Issue("output.width"))
    else if !OptPositiveInt(x.height) then Err(Issue("output.height"))
    else if !OptPositive(x.fps) then Err(Issue("output.fps"))
    else if codec.None? then Err(Issue("output.codec"))
    else Ok(Output(x.filePath, format.value, x.width, x.height, x.fps, codec.value, x.includeAudio.GetOr(true)))
  }

  /** Parses the list elements from index `k` on, stopping at the first failure. */
  function ParseSources(xs: seq<SourceInput>, k: nat): (r: Result<seq<Source>, Issue>)
    requires k <= |xs|
    decreases |xs| - k
    ensures r.Ok? <==> forall j :: k <= j < |xs| ==> ParseSource(xs[j], j).Ok?
    ensures r.Ok? ==> |r.value| == |xs| - k
                      && forall j :: k <= j < |xs| ==> r.value[j - k] == ParseSource(xs[j], j).value
    ensures r.Ok? ==> forall j :: 0 <= j < |r.value| ==> ValidSource(r.value[j])
  {
    if k == |xs| then Ok([])
    else
      match ParseSource(xs[k], k)
      case Err(e) => Err(e)
      case Ok(s) =>
        match ParseSources(xs, k + 1)
        case Err(e) => Err(e)
        case Ok(rest) => Ok([s] + rest)
  }

  function ParseSegments(xs: seq<SegmentInput>, k: nat): (r: Result<seq<Segment>, Issue>)
    requires k <= |xs|
    decreases |xs| - k
    ensures r.Ok? <==> forall j :: k <= j < |xs| ==> ParseSegment(xs[j], j).Ok?
    ensures r.Ok? ==> |r.value| == |xs| - k
                      && forall j :: k <= j < |xs| ==> r.value[j - k] == ParseSegment(xs[j], j).value
    ensures r.Ok? ==> forall j :: 0 <= j < |r.value| ==> ValidSegment(r.value[j])
  {
    if k == |xs| then Ok([])
    else
      match ParseSegment(xs[k], k)
      case Err(e) => Err(e)
      case Ok(s) =>
        match ParseSegments(xs, k + 1)
        case Err(e) => Err(e)
        case Ok(rest) => Ok([s] + rest)
  }

  /** `ExportConfigSchema.parse`: the fields are checked in declaration order
      and the first violation is reported. */
  function ParseConfig(x: ConfigInput, isDateTime: string -> bool): (r: Result<Config, Issue>)
    ensures r.Ok? <==> && x.version == 1.0
                       && isDateTime(x.createdAt)
                       && |x.sources| >= 1
                       && (forall j :: 0 <= j < |x.sources| ==> ParseSource(x.sources[j], j).Ok?)
                       && |x.segments| >= 1
                       && (forall j :: 0 <= j < |x.segments| ==> ParseSegment(x.segments[j], j).Ok?)
                       && ParseOutput(x.output).Ok?
                       && (x.status.None? || ParseStatus(x.status.value).Some?)
    ensures r.Ok? ==> ValidConfig(r.value, isDateTime)
    ensures r.Ok? ==> r.value.id == x.id && r.value.projectId == x.projectId
                      && r.value.projectName == x.projectName && r.value.createdAt == x.createdAt
                      && r.value.output == ParseOutput(x.output).value
    ensures r.Ok? ==> && r.value.sources == ParseSources(x.sources, 0).value
                      && r.value.segments == ParseSegments(x.segments, 0).value
                      && r.value.status == (if x.status.None? then Pending else ParseStatus(x.status.value).value)
  {
    var status := if x.status.None? then Some(Pending) else ParseStatus(x.status.value);
    if x.version != 1.0 then Err(Issue("version"))
    else if !isDateTime(x.createdAt) then Err(Issue("createdAt"))
    else if |x.sources| == 0 then Err(Issue("sources"))
    else
      match ParseSources(x.sources, 0)
      case Err(e) => Err(e)
      case Ok(sources) =>
        if |x.segments| == 0 then Err(Issue("segments"))
        else
          match ParseSegments(x.segments, 0)
          case Err(e) => Err(e)
          case Ok(segments) =>
            match ParseOutput(x.output)
            case Err(e) => Err(e)
            case Ok(output) =>
              if status.None? then Err(Issue("status"))
              else Ok(Config(1, x.id, x.projectId, x.projectName, x.createdAt,
                             sources, segments, output, status.value))
  }

  /** `ExportStatusFileSchema.parse`: progress defaults to 0 and must lie in [0, 1]. */
  function ParseStatusFile(x: StatusFileInput): (r: Result<StatusFile, Issue>)
    ensures r.Ok? <==> ParseStatus(x.status).Some? && 0.0 <= x.progress.GetOr(0.0) <= 1.0
    ensures r.Ok? ==> ValidStatusFile(r.value)
    ensures r.Ok? ==> r.value.progress == x.progress.GetOr(0.0)
                      && StatusName(r.value.status) == x.status
                      && r.value.jobId == x.jobId && r.value.message == x.message
                      && r.value.error == x.error && r.value.downloadUrl == x.downloadUrl
  {
    var status := ParseStatus(x.status);
    if status.None? then Err(Issue("status"))
    else if x.progress.GetOr(0.0) < 0.0 || x.progress.GetOr(0.0) > 1.0 then Err(Issue("progress"))
    else Ok(StatusFile(x.jobId, status.value, x.progress.GetOr(0.0), x.message, x.error, x.downloadUrl))
  }

  // ---------------------------------------------------------------------------
  // Serialisation: every field written out, defaults included
  // ---------------------------------------------------------------------------

  function EncodeSource(s: Source): SourceInput {
    SourceInput(s.id, s.name, s.filePath, s.width, s.height, s.duration, s.fps, Some(s.hasAudio))
  }

  function EncodeSegment(s: Segment): SegmentInput {
    SegmentInput(s.sourceIndex as real, s.startTime, s.endTime, Some(s.audioFromSource))
  }

  function EncodeOutput(o: Output): OutputInput {
    OutputInput(o.filePath, Some(FormatName(o.format)), o.width, o.height, o.fps,
                Some(CodecName(o.codec)), Some(o.includeAudio))
  }

  function EncodeConfig(c: Config): ConfigInput {
    ConfigInput(c.version as real, c.id, c.projectId, c.projectName, c.createdAt,
                seq(|c.sources|, k requires 0 <= k < |c.sources| => EncodeSource(c.sources[k])),
                seq(|c.segments|, k requires 0 <= k < |c.segments| => EncodeSegment(c.segments[k])),
                EncodeOutput(c.output), Some(StatusName(c.status)))
  }

  function EncodeStatusFile(f: StatusFile): StatusFileInput {
    StatusFileInput(f.jobId, StatusName(f.status), Some(f.progress), f.message, f.error, f.downloadUrl)
  }

  /** A valid descriptor survives serialisation and re-validation unchanged. */
  lemma ConfigRoundTrip(c: Config, isDateTime: string -> bool)
    requires ValidConfig(c, isDateTime)
    ensures ParseConfig(EncodeConfig(c), isDateTime) == Ok(c)
  {
    var x := EncodeConfig(c);
    var srcs := ParseSources(x.sources, 0);
    assert srcs.Ok? by {
      forall j | 0 <= j < |x.sources| ensures ParseSource(x.sources[j], j).Ok? {
        assert x.sources[j] == EncodeSource(c.sources[j]);
        assert ValidSource(c.sources[j]);
      }
    }
    assert srcs.value == c.sources by {
      forall j | 0 <= j < |c.sources| ensures srcs.value[j] == c.sources[j] {
        assert x.sources[j] == EncodeSource(c.sources[j]);
      }
    }
    var segs := ParseSegments(x.segments, 0);
    assert segs.Ok? by {
      forall j | 0 <= j < |x.segments| ensures ParseSegment(x.segments[j], j).Ok? {
        assert x.segments[j] == EncodeSegment(c.segments[j]);
        assert ValidSegment(c.segments[j]);
        assert IsInteger(c.segments[j].sourceIndex as real);
      }
    }
    assert segs.value == c.segments by {
      forall j | 0 <= j < |c.segments| ensures segs.value[j] == c.segments[j] {
        assert x.segments[j] == EncodeSegment(c.segments[j]);
        assert (c.segments[j].sourceIndex as real).Floor == c.segments[j].sourceIndex;
      }
    }
    EnumRoundTrip(c.output.format, c.output.codec, c.status);
  }

  /** Applying the defaults is idempotent: re-validating an already parsed
      descriptor gives the same descriptor. */
  lemma ParseIdempotent(x: ConfigInput, isDateTime: string -> bool)
    requires ParseConfig(x, isDateTime).Ok?
    ensures ParseConfig(EncodeConfig(ParseConfig(x, isDateTime).value), isDateTime) == ParseConfig(x, isDateTime)
  {
    ConfigRoundTrip(ParseConfig(x, isDateTime).value, isDateTime);
  }

  /** Acceptance needs version 1 and non-empty source and segment lists;
      omitted flags come back with their defaults. */
  lemma AcceptanceAndDefaults(x: ConfigInput, isDateTime: string -> bool)
    ensures ParseConfig(x, isDateTime).Ok? ==> x.version == 1.0 && |x.sources| >= 1 && |x.segments| >= 1
    ensures ParseConfig(x, isDateTime).Ok? ==>
              var c := ParseConfig(x, isDateTime).value;
              && |c.sources| == |x.sources| && |c.segments| == |x.segments|
              && (forall k :: 0 <= k < |x.sources| && x.sources[k].hasAudio.None? ==> c.sources[k].hasAudio)
              && (forall k :: 0 <= k < |x.segments| && x.segments[k].audioFromSource.None? ==> c.segments[k].audioFromSource)
              && (x.output.format.None? ==> c.output.format == Mp4)
              && (x.output.codec.None? ==> c.output.codec == Copy)
              && (x.output.includeAudio.None? ==> c.output.includeAudio)
              && (x.status.None? ==> c.status == Pending)
  {
    if ParseConfig(x, isDateTime).Ok? {
      var c := ParseConfig(x, isDateTime).value;
      var srcs := ParseSources(x.sources, 0).value;
      var segs := ParseSegments(x.segments, 0).value;
      assert c.sources == srcs && c.segments == segs;
      forall k | 0 <= k < |x.sources| && x.sources[k].hasAudio.None? ensures c.sources[k].hasAudio {
        assert srcs[k] == ParseSource(x.sources[k], k).value;
      }
      forall k | 0 <= k < |x.segments| && x.segments[k].audioFromSource.None? ensures c.segments[k].audioFromSource {
        assert segs[k] == ParseSegment(x.segments[k], k).value;
      }
    }
  }

  /** The schema relates neither `endTime` to `startTime` nor `sourceIndex` to
      the number of sources: a descriptor with a reversed range pointing past
      the only source is accepted. */
  lemma AcceptsUnresolvedIndexAndReversedRange(isDateTime: string -> bool)
    requires isDateTime("2024-01-01T00:00:00Z")
    ensures var x := ConfigInput(1.0, "job", "p", "P", "2024-01-01T00:00:00Z",
                                 [SourceInput("s", "S", "a.mp4", None, None, None, None, None)],
                                 [SegmentInput(5.0, 3.0, 1.0, None)],
                                 OutputInput("out.mp4", None, None, None, None, None, None), None);
            && ParseConfig(x, isDateTime).Ok?
            && ParseConfig(x, isDateTime).value.segments[0].sourceIndex >= |ParseConfig(x, isDateTime).value.sources|
  {
    var x := ConfigInput(1.0, "job", "p", "P", "2024-01-01T00:00:00Z",
                         [SourceInput("s", "S", "a.mp4", None, None, None, None, None)],
                         [SegmentInput(5.0, 3.0, 1.0, None)],
                         OutputInput("out.mp4", None, None, None, None, None, None), None);
    assert IsInteger(5.0) by { assert (5.0).Floor == 5; }
    assert ParseSegment(x.segments[0], 0).Ok?;
    assert ParseSource(x.sources[0], 0).Ok?;
  }

  /** A valid status record survives serialisation and re-validation. */
  lemma StatusFileRoundTrip(f: StatusFile)
    requires ValidStatusFile(f)
    ensures ParseStatusFile(EncodeStatusFile(f)) == Ok(f)
  {
    EnumRoundTrip(Mp4, Copy, f.status);
  }
}

=== FILE: migration.dfy ===
/** The storage migration from project format 6 to 7: text elements lose
    their flat `backgroundColor` and gain a `background` record with the
    colour and default corner radius, padding and offsets. The project is an
    untyped JSON tree; the rewrite walks project → scenes → tracks →
    elements and leaves every level it does not change as it was. */
module Migration {
  import opened Wrappers

  /** A JSON value. Objects are maps, so the order of keys is not modelled. */
  datatype Json =
    | JNull
    | JBool(b: bool)
    | JNum(n: real)
    | JStr(s: string)
    | JArr(items: seq<Json>)
    | JObj(fields: map<string, Json>)

  /** A stored project: a JSON object. */
  type ProjectRecord = map<string, Json>

  datatype MigrationResult = MigrationResult(project: ProjectRecord, skipped: bool, reason: Option<string>)

  const TargetVersion: real := 7.0

  /** `isRecord`: a JSON object. */
  predicate IsRecord(j: Json) {
    j.JObj?
  }

  /** The value stored under `key`, if any. */
  function Get(fields: map<string, Json>, key: string): Option<Json> {
    if key in fields then Some(fields[key]) else None
  }

  /** The `background` record written for a text element without one. */
  function DefaultBackground(color: string): Json {
    JObj(map["color" := JStr(color), "cornerRadius" := JNum(0.0), "paddingX" := JNum(8.0),
             "paddingY" := JNum(4.0), "offsetX" := JNum(0.0), "offsetY" := JNum(0.0)])
  }

  /** A text element still in the old shape: a record of type "text" whose
      `background` is missing or not a record. */
  predicate NeedsMigration(e: Json) {
    && e.JObj?
    && Get(e.fields, "type") == Some(JStr("text"))
    && !(Get(e.fields, "background").Some? && IsRecord(Get(e.fields, "background").value))
  }

  /** The colour a migrated element keeps: its `backgroundColor` when that is
      a string, "transparent" otherwise. */
  function OldColor(fields: map<string, Json>): string {
    match Get(fields, "backgroundColor")
    case Some(JStr(c)) => c
    case _ => "transparent"
  }

  /** `migrateTextElement`. */
  function MigrateElement(e: Json): (r: Json)
    ensures !NeedsMigration(e) ==> r == e
    ensures NeedsMigration(e) ==>
              && r.JObj?
              && "backgroundColor" !in r.fields
              && Get(r.fields, "background") == Some(DefaultBackground(OldColor(e.fields)))
              && forall k :: k != "background" && k != "backgroundColor" ==> Get(r.fields, k) == Get(e.fields, k)
  {
    if !NeedsMigration(e) then e
    else
      var rest := e.fields - {"backgroundColor"};
      JObj(rest["background" := DefaultBackground(OldColor(e.fields))])
  }

  /** Rewrites each item of the array stored under `key` with `f`; the record
      stays as it was when the key is missing, holds no array, or no item
      changes. */
  function RewriteList(fields: map<string, Json>, key: string, f: Json -> Json): (r: map<string, Json>)
    ensures r.Keys == fields.Keys
    ensures forall k :: k in fields && k != key ==> r[k] == fields[k]
    ensures key in fields && fields[key].JArr? ==>
              && r[key].JArr? && |r[key].items| == |fields[key].items|
              && forall i :: 0 <= i < |fields[key].items| ==> r[key].items[i] == f(fields[key].items[i])
    ensures !(key in fields && fields[key].JArr?) ==> r == fields
  {
    if key !in fields || !fields[key].JArr? then fields
    else
      var xs := fields[key].items;
      var ys := seq(|xs|, i requires 0 <= i < |xs| => f(xs[i]));
      if ys == xs then fields else fields[key := JArr(ys)]
  }

  /** `migrateTrackTextElements`. */
  function MigrateTrack(t: Json): (r: Json)
    ensures !IsRecord(t) ==> r == t
    ensures IsRecord(t) ==> r.JObj? && r.fields.Keys == t.fields.Keys
                            && forall k :: k in t.fields && k != "elements" ==> r.fields[k] == t.fields[k]
    ensures IsRecord(t) && "elements" in t.fields && t.fields["elements"].JArr? ==>
              var es := t.fields["elements"].items;
              && r.fields["elements"].JArr? && |r.fields["elements"].items| == |es|
              && forall i :: 0 <= i < |es| ==> r.fields["elements"].items[i] == MigrateElement(es[i])
    ensures IsRecord(t) && !("elements" in t.fields && t.fields["elements"].JArr?) ==> r == t
  {
    if !IsRecord(t) then t else JObj(RewriteList(t.fields, "elements", MigrateElement))
  }

  /** `migrateSceneTextElements`. */
  function MigrateScene(s: Json): (r: Json)
    ensures !IsRecord(s) ==> r == s
    ensures IsRecord(s) ==> r.JObj? && r.fields.Keys == s.fields.Keys
                            && forall k :: k in s.fields && k != "tracks" ==> r.fields[k] == s.fields[k]
    ensures IsRecord(s) && "tracks" in s.fields && s.fields["tracks"].JArr? ==>
              var ts := s.fields["tracks"].items;
              && r.fields["tracks"].JArr? && |r.fields["tracks"].items| == |ts|
              && forall i :: 0 <= i < |ts| ==> r.fields["tracks"].items[i] == MigrateTrack(ts[i])
    ensures IsRecord(s) && !("tracks" in s.fields && s.fields["tracks"].JArr?) ==> r == s
  {
    if !IsRecord(s) then s else JObj(RewriteList(s.fields, "tracks", MigrateTrack))
  }

  /** `migrateProjectTextElements`. */
  function MigrateProject(p: ProjectRecord): (r: ProjectRecord)
    ensures r.Keys == p.Keys
    ensures forall k :: k in p && k != "scenes" ==> r[k] == p[k]
    ensures "scenes" in p && p["scenes"].JArr? ==>
              var ss := p["scenes"].items;
              && r["scenes"].JArr? && |r["scenes"].items| == |ss|
              && forall i :: 0 <= i < |ss| ==> r["scenes"].items[i] == MigrateScene(ss[i])
    ensures !("scenes" in p && p["scenes"].JArr?) ==> r == p
  {
    RewriteList(p, "scenes", MigrateScene)
  }

  /** `isV7Project`: a numeric version of at least 7. */
  predicate IsV7(p: ProjectRecord) {
    "version" in p && p["version"].JNum? && p["version"].n >= TargetVersion
  }

  /** Only a numeric `version` of at least 7 marks a project as migrated: a
      missing version, or one stored as text such as "7", does not. */
  lemma VersionGate(p: ProjectRecord, v: real, s: string)
    ensures IsV7(p["version" := JNum(v)]) <==> v >= 7.0
    ensures !IsV7(p["version" := JStr(s)])
    ensures "version" !in p ==> !IsV7(p)
  {
  }

  /** `transformProjectV6ToV7`. The project's identifier comes from
      `getProjectId`, whose definition is outside this model; an absent or
      empty identifier skips the project. */
  function Transform(p: ProjectRecord, projectId: Option<string>): (r: MigrationResult)
    ensures !(projectId.Some? && projectId.value != "") ==> r == MigrationResult(p, true, Some("no project id"))
    ensures projectId.Some? && projectId.value != "" && IsV7(p) ==> r == MigrationResult(p, true, Some("already v7"))
    ensures projectId.Some? && projectId.value != "" && !IsV7(p) ==>
              && !r.skipped && r.reason.None?
              && r.project.Keys == p.Keys + {"version"}
              && r.project["version"] == JNum(TargetVersion)
              && ("scenes" in p ==> r.project["scenes"] == MigrateProject(p)["scenes"])
              && forall k :: k in p && k != "version" && k != "scenes" ==> r.project[k] == p[k]
  {
    if !(projectId.Some? && projectId.value != "") then MigrationResult(p, true, Some("no project id"))
    else if IsV7(p) then MigrationResult(p, true, Some("already v7"))
    else MigrationResult(MigrateProject(p)["version" := JNum(TargetVersion)], false, None)
  }

  // ---------------------------------------------------------------------------
  // Properties
  // ---------------------------------------------------------------------------

  /** A migrated element is in the new shape, and migrating is idempotent. */
  lemma MigrateElementDone(e: Json)
    ensures !NeedsMigration(MigrateElement(e))
    ensures MigrateElement(MigrateElement(e)) == MigrateElement(e)
    ensures MigrateElement(e) == e <==> !NeedsMigration(e)
  {
    if NeedsMigration(e) {
      var r := MigrateElement(e);
      assert Get(r.fields, "background") == Some(DefaultBackground(OldColor(e.fields)));
      assert r != e;
    }
  }

  /** A rewrite whose function is idempotent is idempotent. */
  lemma RewriteListIdempotent(fields: map<string, Json>, key: string, f: Json -> Json)
    requires forall x :: f(f(x)) == f(x)
    ensures RewriteList(RewriteList(fields, key, f), key, f) == RewriteList(fields, key, f)
  {
    var r := RewriteList(fields, key, f);
    if key in fields && fields[key].JArr? {
      var r2 := RewriteList(r, key, f);
      assert r2[key].items == r[key].items;
      assert r2.Keys == r.Keys;
      assert forall k :: k in r ==> r2[k] == r[k];
    }
  }

  /** A rewrite leaves the record as it was exactly when no item changes. */
  lemma RewriteListUnchanged(fields: map<string, Json>, key: string, f: Json -> Json)
    requires key in fields && fields[key].JArr?
    ensures RewriteList(fields, key, f) == fields <==>
              forall i :: 0 <= i < |fields[key].items| ==> f(fields[key].items[i]) == fields[key].items[i]
  {
    var xs := fields[key].items;
    if forall i :: 0 <= i < |xs| ==> f(xs[i]) == xs[i] {
      var r := RewriteList(fields, key, f);
      assert r[key].items == xs;
      assert forall k :: k in fields ==> r[k] == fields[k];
    }
  }

  /** Every item of the array under `key` (when there is one) is `Done`. */
  ghost predicate ItemsDone(fields: map<string, Json>, key: string, done: Json -> bool) {
    key in fields && fields[key].JArr? ==>
      forall i :: 0 <= i < |fields[key].items| ==> done(fields[key].items[i])
  }

  /** A track none of whose elements needs migrating. */
  ghost predicate TrackDone(t: Json) {
    IsRecord(t) ==> ItemsDone(t.fields, "elements", e => !NeedsMigration(e))
  }

  ghost predicate SceneDone(s: Json) {
    IsRecord(s) ==> ItemsDone(s.fields, "tracks", TrackDone)
  }

  /** No text element anywhere in the project's scenes needs migrating. */
  ghost predicate ProjectDone(p: ProjectRecord) {
    ItemsDone(p, "scenes", SceneDone)
  }

  lemma MigrateTrackDone(t: Json)
    ensures TrackDone(MigrateTrack(t))
    ensures MigrateTrack(MigrateTrack(t)) == MigrateTrack(t)
    ensures MigrateTrack(t) == t <==> TrackDone(t)
  {
    forall e ensures MigrateElement(MigrateElement(e)) == MigrateElement(e) && !NeedsMigration(MigrateElement(e))
                     && (MigrateElement(e) == e <==> !NeedsMigration(e)) {
      MigrateElementDone(e);
    }
    if IsRecord(t) {
      RewriteListIdempotent(t.fields, "elements", MigrateElement);
      if "elements" in t.fields && t.fields["elements"].JArr? {
        RewriteListUnchanged(t.fields, "elements", MigrateElement);
      }
    }
  }

  lemma MigrateSceneDone(s: Json)
    ensures SceneDone(MigrateScene(s))
    ensures MigrateScene(MigrateScene(s)) == MigrateScene(s)
    ensures MigrateScene(s) == s <==> SceneDone(s)
  {
    forall t ensures MigrateTrack(MigrateTrack(t)) == MigrateTrack(t) && TrackDone(MigrateTrack(t))
                     && (MigrateTrack(t) == t <==> TrackDone(t)) {
      MigrateTrackDone(t);
    }
    if IsRecord(s) {
      RewriteListIdempotent(s.fields, "tracks", MigrateTrack);
      if "tracks" in s.fields && s.fields["tracks"].JArr? {
        RewriteListUnchanged(s.fields, "tracks", MigrateTrack);
      }
    }
  }

  /** After the rewrite no text element needs migrating; the rewrite is
      idempotent; and it changes the project exactly when some text element
      needed migrating. */
  lemma MigrateProjectDone(p: ProjectRecord)
    ensures ProjectDone(MigrateProject(p))
    ensures MigrateProject(MigrateProject(p)) == MigrateProject(p)
    ensures MigrateProject(p) == p <==> ProjectDone(p)
  {
    forall s ensures MigrateScene(MigrateScene(s)) == MigrateScene(s) && SceneDone(MigrateScene(s))
                     && (MigrateScene(s) == s <==> SceneDone(s)) {
      MigrateSceneDone(s);
    }
    RewriteListIdempotent(p, "scenes", MigrateScene);
    if "scenes" in p && p["scenes"].JArr? {
      RewriteListUnchanged(p, "scenes", MigrateScene);
    }
  }

  /** Running the transform on its own output skips the project as already
      migrated, and a migrated project holds no text element in the old
      shape. */
  lemma TransformTwice(p: ProjectRecord, projectId: Option<string>)
    requires projectId.Some? && projectId.value != "" && !IsV7(p)
    ensures var r := Transform(p, projectId);
            && Transform(r.project, projectId) == MigrationResult(r.project, true, Some("already v7"))
            && ProjectDone(r.project)
  {
    var m := MigrateProject(p);
    MigrateProjectDone(p);
    var q := m["version" := JNum(TargetVersion)];
    if "scenes" in q && q["scenes"].JArr? {
      assert q["scenes"] == m["scenes"];
    }
  }
}

=== FILE: multicam.dfy ===
/** Multi-camera clips: several synchronised camera angles of one scene and an
    ordered list of switch points, each naming the angle shown from its time
    on. This module holds the clip data, the switch-point list algebra (insert
    or replace within a tolerance, remove, the active angle at a time), angle
    management, clip creation and deletion, and the manager's mode flags.

    Clip and angle identifiers, track identifiers and creation times come in
    as parameters; listener notification, project synchronisation, timeline
    insertion and playback control are effects outside this model. */
module Multicam {
  import opened Wrappers
  import TextUtil

  datatype SyncMethod = Audio | Manual | Timecode

  datatype Angle = Angle(id: string, name: string, mediaId: string, syncOffset: real, trackId: Option<string>)

  datatype SwitchPoint = SwitchPoint(time: real, angleId: string)

  datatype Clip = Clip(
    id: string, name: string,
    angles: seq<Angle>, switchPoints: seq<SwitchPoint>,
    duration: real, syncMethod: SyncMethod, createdAt: int)

  datatype State = State(clips: seq<Clip>, activeClipId: Option<string>, isLiveSwitching: bool, showGrid: bool)

  /** The manager: its state plus the angle last made visible. */
  datatype Manager = Manager(state: State, lastVisibleAngleId: Option<string>)

  /** The part of a media asset the manager reads. */
  datatype MediaAsset = MediaAsset(
    id: string, name: string,
    duration: Option<real>, width: Option<real>, height: Option<real>, fps: Option<real>)

  const Initial: Manager := Manager(State([], None, false, false), None)

  /** Switch points closer than this are the same point. */
  const Tolerance: real := 0.001

  /** JavaScript truthiness of an optional string: present and not empty. */
  predicate Truthy(o: Option<string>) {
    o.Some? && o.value != ""
  }

  function Abs(x: real): real {
    if x < 0.0 then -x else x
  }

  function MaxReal(a: real, b: real): real {
    if a >= b then a else b
  }

  predicate Near(a: real, b: real) {
    Abs(a - b) < Tolerance
  }

  // ---------------------------------------------------------------------------
  // Lookup by identifier (`Array.prototype.find` / `findIndex`)
  // ---------------------------------------------------------------------------

  function ClipKey(c: Clip): string { c.id }
  function AngleKey(a: Angle): string { a.id }
  function AssetKey(m: MediaAsset): string { m.id }

  /** The first index at or after `from` whose key is `k`. */
  function FirstIndexFrom<T>(xs: seq<T>, key: T -> string, k: string, from: nat): (r: Option<nat>)
    decreases |xs| - from
    ensures r.Some? ==> from <= r.value < |xs| && key(xs[r.value]) == k
    ensures r.Some? ==> forall j :: from <= j < r.value ==> key(xs[j]) != k
    ensures r.None? ==> forall j :: from <= j < |xs| ==> key(xs[j]) != k
  {
    if from >= |xs| then None
    else if key(xs[from]) == k then Some(from)
    else FirstIndexFrom(xs, key, k, from + 1)
  }

  function FirstIndex<T>(xs: seq<T>, key: T -> string, k: string): (r: Option<nat>)
    ensures r.Some? ==> r.value < |xs| && key(xs[r.value]) == k
    ensures r.Some? ==> forall j :: 0 <= j < r.value ==> key(xs[j]) != k
    ensures r.None? <==> forall j :: 0 <= j < |xs| ==> key(xs[j]) != k
  {
    FirstIndexFrom(xs, key, k, 0)
  }

  /** `xs.find(x => key(x) === k)`. */
  function Find<T>(xs: seq<T>, key: T -> string, k: string): (r: Option<T>)
    ensures r.Some? ==> r.value in xs && key(r.value) == k
    ensures r.None? <==> forall j :: 0 <= j < |xs| ==> key(xs[j]) != k
  {
    match FirstIndex(xs, key, k)
    case None => None
    case Some(i) => Some(xs[i])
  }

  /** When `xs[i]` is the first element carrying the key, `find` returns it. */
  lemma FindFirst<T>(xs: seq<T>, key: T -> string, k: string, i: nat)
    requires i < |xs| && key(xs[i]) == k
    requires forall j :: 0 <= j < i ==> key(xs[j]) != k
    ensures Find(xs, key, k) == Some(xs[i])
  {
  }

  /** The last index whose key is `k`: what a `Map` keyed by `k` ends up
      holding when it is filled by `set` in index order. */
  function LastIndex<T>(xs: seq<T>, key: T -> string, k: string): (r: Option<nat>)
    ensures r.Some? ==> r.value < |xs| && key(xs[r.value]) == k
    ensures r.Some? ==> forall j :: r.value < j < |xs| ==> key(xs[j]) != k
    ensures r.None? <==> forall j :: 0 <= j < |xs| ==> key(xs[j]) != k
  {
    if |xs| == 0 then None
    else if key(xs[|xs| - 1]) == k then Some(|xs| - 1)
    else LastIndex(xs[..|xs| - 1], key, k)
  }

  /** `getClip`. */
  function GetClip(s: State, clipId: string): Option<Clip> {
    Find(s.clips, ClipKey, clipId)
  }

  // ---------------------------------------------------------------------------
  // Ordering switch points by time (a stable sort)
  // ---------------------------------------------------------------------------

  ghost predicate Sorted(ps: seq<SwitchPoint>) {
    forall i, j :: 0 <= i < j < |ps| ==> ps[i].time <= ps[j].time
  }

  /** Places `x` after every element whose time is not later than its own,
      which is where a stable sort puts an element that comes last. */
  function Insert(ps: seq<SwitchPoint>, x: SwitchPoint): (r: seq<SwitchPoint>)
    ensures |r| == |ps| + 1
    ensures multiset(r) == multiset(ps) + multiset{x}
  {
    if |ps| == 0 then [x]
    else if ps[|ps| - 1].time <= x.time then ps + [x]
    else
      var init := ps[..|ps| - 1];
      assert ps == init + [ps[|ps| - 1]];
      Insert(init, x) + [ps[|ps| - 1]]
  }

  /** `[...ps].sort((a, b) => a.time - b.time)`, assuming a stable sort. */
  function SortByTime(ps: seq<SwitchPoint>): (r: seq<SwitchPoint>)
    ensures |r| == |ps|
    ensures multiset(r) == multiset(ps)
  {
    if |ps| == 0 then []
    else
      assert ps == ps[..|ps| - 1] + [ps[|ps| - 1]];
      Insert(SortByTime(ps[..|ps| - 1]), ps[|ps| - 1])
  }

  lemma SortedSnoc(ps: seq<SwitchPoint>, y: SwitchPoint)
    requires Sorted(ps)
    requires forall k :: 0 <= k < |ps| ==> ps[k].time <= y.time
    ensures Sorted(ps + [y])
  {
  }

  lemma {:induction false} InsertSorted(ps: seq<SwitchPoint>, x: SwitchPoint)
    requires Sorted(ps)
    ensures Sorted(Insert(ps, x))
  {
    if |ps| > 0 && ps[|ps| - 1].time > x.time {
      var init := ps[..|ps| - 1];
      var last := ps[|ps| - 1];
      InsertSorted(init, x);
      var r := Insert(init, x);
      forall k | 0 <= k < |r| ensures r[k].time <= last.time {
        assert r[k] in multiset(r);
        if r[k] != x {
          assert r[k] in multiset(init);
          var j :| 0 <= j < |init| && init[j] == r[k];
          assert init[j] == ps[j];
        }
      }
      SortedSnoc(r, last);
    } else if |ps| > 0 {
      SortedSnoc(ps, x);
    }
  }

  lemma {:induction false} SortByTimeSorted(ps: seq<SwitchPoint>)
    ensures Sorted(SortByTime(ps))
  {
    if |ps| > 0 {
      SortByTimeSorted(ps[..|ps| - 1]);
      InsertSorted(SortByTime(ps[..|ps| - 1]), ps[|ps| - 1]);
    }
  }

  /** Sorting an already sorted list changes nothing. */
  lemma {:induction false} SortByTimeOfSorted(ps: seq<SwitchPoint>)
    requires Sorted(ps)
    ensures SortByTime(ps) == ps
  {
    if |ps| > 0 {
      var init, last := ps[..|ps| - 1], ps[|ps| - 1];
      SortedInit(ps);
      SortByTimeOfSorted(init);
      SortByTimeLast(init, last);
      SnocSplit(ps);
    }
  }

  lemma SnocSplit<T>(s: seq<T>)
    requires |s| > 0
    ensures s[..|s| - 1] + [s[|s| - 1]] == s
  {
  }

  lemma SortedInit(ps: seq<SwitchPoint>)
    requires Sorted(ps) && |ps| > 0
    ensures Sorted(ps[..|ps| - 1])
    ensures |ps| > 1 ==> ps[|ps| - 2].time <= ps[|ps| - 1].time
  {
    var init := ps[..|ps| - 1];
    forall i, j | 0 <= i < j < |init| ensures init[i].time <= init[j].time {
      assert init[i] == ps[i] && init[j] == ps[j];
    }
  }

  /** The step of `SortByTimeOfSorted`: a list fixed by the sort, followed by
      a point not earlier than its last one. */
  lemma SortByTimeLast(init: seq<SwitchPoint>, last: SwitchPoint)
    requires SortByTime(init) == init
    requires |init| == 0 || init[|init| - 1].time <= last.time
    ensures SortByTime(init + [last]) == init + [last]
  {
    SortByTimeSnoc(init, last);
    InsertAtEnd(init, last);
  }

  lemma SortByTimeSnoc(init: seq<SwitchPoint>, last: SwitchPoint)
    ensures SortByTime(init + [last]) == Insert(SortByTime(init), last)
  {
    SortByTimeUnroll(init + [last]);
    assert (init + [last])[..|init|] == init;
  }

  lemma SortByTimeUnroll(ps: seq<SwitchPoint>)
    requires |ps| > 0
    ensures SortByTime(ps) == Insert(SortByTime(ps[..|ps| - 1]), ps[|ps| - 1])
  {
  }

  lemma InsertAtEnd(ps: seq<SwitchPoint>, x: SwitchPoint)
    requires |ps| == 0 || ps[|ps| - 1].time <= x.time
    ensures Insert(ps, x) == ps + [x]
  {
  }

  /** Sorting a sorted list with one point appended inserts that point. */
  lemma SortAppended(ps: seq<SwitchPoint>, x: SwitchPoint)
    requires Sorted(ps)
    ensures SortByTime(ps + [x]) == Insert(ps, x)
  {
    assert (ps + [x])[..|ps|] == ps;
    SortByTimeOfSorted(ps);
  }

  /** The points of `ps` at time `t`, in list order. */
  function AtTime(ps: seq<SwitchPoint>, t: real): (r: seq<SwitchPoint>)
    ensures |r| <= |ps|
    ensures forall k :: 0 <= k < |r| ==> r[k].time == t
  {
    if |ps| == 0 then []
    else AtTime(ps[..|ps| - 1], t) + (if ps[|ps| - 1].time == t then [ps[|ps| - 1]] else [])
  }

  lemma AtTimeSnoc(ps: seq<SwitchPoint>, y: SwitchPoint, t: real)
    ensures AtTime(ps + [y], t) == AtTime(ps, t) + (if y.time == t then [y] else [])
  {
    assert (ps + [y])[..|ps|] == ps;
  }

  /** Inserting a point passes over only later points, so among the points
      of any one time it lands last. */
  lemma {:induction false} InsertStable(ps: seq<SwitchPoint>, x: SwitchPoint, t: real)
    ensures AtTime(Insert(ps, x), t) == AtTime(ps, t) + (if x.time == t then [x] else [])
  {
    if |ps| == 0 {
      AtTimeSnoc([], x, t);
    } else if ps[|ps| - 1].time <= x.time {
      AtTimeSnoc(ps, x, t);
    } else {
      var init, last := ps[..|ps| - 1], ps[|ps| - 1];
      assert ps == init + [last];
      InsertStable(init, x, t);
      AtTimeSnoc(Insert(init, x), last, t);
      AtTimeSnoc(init, last, t);
    }
  }

  /** The sort is stable: the points of any one time keep their input order. */
  lemma {:induction false} SortByTimeStable(ps: seq<SwitchPoint>, t: real)
    ensures AtTime(SortByTime(ps), t) == AtTime(ps, t)
  {
    if |ps| > 0 {
      var init, last := ps[..|ps| - 1], ps[|ps| - 1];
      assert ps == init + [last];
      SortByTimeStable(init, t);
      SortByTimeUnroll(ps);
      InsertStable(SortByTime(init), last, t);
      AtTimeSnoc(init, last, t);
    }
  }

  // ---------------------------------------------------------------------------
  // The switch-point list algebra
  // ---------------------------------------------------------------------------

  /** The index of the first point within the tolerance of `t`. */
  function NearIndexFrom(ps: seq<SwitchPoint>, t: real, from: nat): (r: Option<nat>)
    decreases |ps| - from
    ensures r.Some? ==> from <= r.value < |ps| && Near(ps[r.value].time, t)
    ensures r.Some? ==> forall j :: from <= j < r.value ==> !Near(ps[j].time, t)
    ensures r.None? ==> forall j :: from <= j < |ps| ==> !Near(ps[j].time, t)
  {
    if from >= |ps| then None
    else if Near(ps[from].time, t) then Some(from)
    else NearIndexFrom(ps, t, from + 1)
  }

  /** The list after `addSwitchPoint(t, angleId)`: a point within the
      tolerance of `t` is retargeted (the first such point), otherwise the new
      point joins the list and the list is sorted. */
  function AddPoint(ps: seq<SwitchPoint>, t: real, angleId: string): (r: seq<SwitchPoint>)
    ensures NearIndexFrom(ps, t, 0).Some? ==>
              var i := NearIndexFrom(ps, t, 0).value;
              && |r| == |ps|
              && (forall k :: 0 <= k < |ps| ==> r[k].time == ps[k].time)
              && r[i].angleId == angleId
              && (forall k :: 0 <= k < |ps| && k != i ==> r[k] == ps[k])
    ensures NearIndexFrom(ps, t, 0).None? ==>
              && |r| == |ps| + 1
              && multiset(r) == multiset(ps) + multiset{SwitchPoint(t, angleId)}
  {
    match NearIndexFrom(ps, t, 0)
    case Some(i) => ps[i := ps[i].(angleId := angleId)]
    case None => SortByTime(ps + [SwitchPoint(t, angleId)])
  }

  /** The list after `removeSwitchPoint(t)` when something remains: every
      point away from `t`, in order. */
  function FarFrom(ps: seq<SwitchPoint>, t: real): (r: seq<SwitchPoint>)
    ensures |r| <= |ps|
    ensures forall k :: 0 <= k < |r| ==> !Near(r[k].time, t) && r[k] in ps
    ensures forall p :: p in ps && !Near(p.time, t) ==> p in r
  {
    if |ps| == 0 then []
    else
      var rest := FarFrom(ps[1..], t);
      if Near(ps[0].time, t) then rest else [ps[0]] + rest
  }

  function RemovePoint(ps: seq<SwitchPoint>, t: real): (r: seq<SwitchPoint>)
    ensures |FarFrom(ps, t)| == 0 ==> r == ps
    ensures |FarFrom(ps, t)| > 0 ==> r == FarFrom(ps, t)
  {
    var filtered := FarFrom(ps, t);
    if |filtered| == 0 then ps else filtered
  }

  /** Both operations keep a sorted list sorted. */
  lemma AddPointSorted(ps: seq<SwitchPoint>, t: real, angleId: string)
    requires Sorted(ps)
    ensures Sorted(AddPoint(ps, t, angleId))
    ensures NearIndexFrom(ps, t, 0).None? ==> AddPoint(ps, t, angleId) == Insert(ps, SwitchPoint(t, angleId))
  {
    if NearIndexFrom(ps, t, 0).None? {
      SortAppended(ps, SwitchPoint(t, angleId));
      InsertSorted(ps, SwitchPoint(t, angleId));
    }
  }

  /** Filtering keeps relative order, so a sorted list stays sorted. */
  lemma {:induction false} FarFromSorted(ps: seq<SwitchPoint>, t: real)
    requires Sorted(ps)
    ensures Sorted(FarFrom(ps, t))
    ensures forall k :: 0 <= k < |FarFrom(ps, t)| ==> ps[0].time <= FarFrom(ps, t)[k].time
  {
    if |ps| > 0 {
      assert Sorted(ps[1..]);
      FarFromSorted(ps[1..], t);
      var rest := FarFrom(ps[1..], t);
      forall k | 0 <= k < |rest| ensures ps[0].time <= rest[k].time {
        var j :| 0 <= j < |ps[1..]| && ps[1..][j] == rest[k];
        assert ps[1..][j] == ps[j + 1];
      }
      if !Near(ps[0].time, t) {
        SortedCons(ps[0], rest);
      }
    }
  }

  lemma SortedCons(x: SwitchPoint, ps: seq<SwitchPoint>)
    requires Sorted(ps)
    requires forall k :: 0 <= k < |ps| ==> x.time <= ps[k].time
    ensures Sorted([x] + ps)
  {
    var r := [x] + ps;
    forall i, j | 0 <= i < j < |r| ensures r[i].time <= r[j].time {
      assert r[j] == ps[j - 1];
      if i > 0 {
        assert r[i] == ps[i - 1];
      }
    }
  }

  lemma RemovePointSorted(ps: seq<SwitchPoint>, t: real)
    requires Sorted(ps)
    ensures Sorted(RemovePoint(ps, t))
    ensures |ps| > 0 ==> |RemovePoint(ps, t)| > 0
  {
    FarFromSorted(ps, t);
  }

  /** After a removal that applies, no point is left within the tolerance. */
  lemma RemovePointClears(ps: seq<SwitchPoint>, t: real)
    requires |FarFrom(ps, t)| > 0
    ensures forall k :: 0 <= k < |RemovePoint(ps, t)| ==> !Near(RemovePoint(ps, t)[k].time, t)
  {
  }

  lemma FarFromSingle(y: SwitchPoint, t: real)
    ensures FarFrom([y], t) == (if Near(y.time, t) then [] else [y])
  {
    assert [y][1..] == [];
  }

  /** Removing a point right after adding it where none was near restores
      the original sorted list. */
  lemma FarFromInsert(ps: seq<SwitchPoint>, x: SwitchPoint)
    requires forall k :: 0 <= k < |ps| ==> !Near(ps[k].time, x.time)
    ensures FarFrom(Insert(ps, x), x.time) == ps
  {
    var i := InsertAt(ps, x);
    FarFromSplitAt(ps, i, x);
  }

  lemma FarFromSplitAt(ps: seq<SwitchPoint>, i: nat, x: SwitchPoint)
    requires i <= |ps|
    requires forall k :: 0 <= k < |ps| ==> !Near(ps[k].time, x.time)
    ensures FarFrom(ps[..i] + [x] + ps[i..], x.time) == ps
  {
    var front, back := ps[..i], ps[i..];
    forall k | 0 <= k < |front| ensures !Near(front[k].time, x.time) {
      assert front[k] == ps[k];
    }
    forall k | 0 <= k < |back| ensures !Near(back[k].time, x.time) {
      assert back[k] == ps[i + k];
    }
    FarFromAround(front, x, back);
    assert front + back == ps;
  }

  /** Filtering out `x` from between points far from it leaves those points. */
  lemma FarFromAround(front: seq<SwitchPoint>, x: SwitchPoint, back: seq<SwitchPoint>)
    requires forall k :: 0 <= k < |front| ==> !Near(front[k].time, x.time)
    requires forall k :: 0 <= k < |back| ==> !Near(back[k].time, x.time)
    ensures FarFrom(front + [x] + back, x.time) == front + back
  {
    FarFromAppend(front + [x], back, x.time);
    FarFromAppend(front, [x], x.time);
    FarFromAll(front, x.time);
    FarFromAll(back, x.time);
    FarFromSingle(x, x.time);
    assert FarFrom(front + [x], x.time) == front;
  }

  lemma {:induction false} FarFromAppend(xs: seq<SwitchPoint>, ys: seq<SwitchPoint>, t: real)
    ensures FarFrom(xs + ys, t) == FarFrom(xs, t) + FarFrom(ys, t)
  {
    if |xs| == 0 {
      assert xs + ys == ys;
    } else {
      assert (xs + ys)[0] == xs[0];
      assert (xs + ys)[1..] == xs[1..] + ys;
      FarFromAppend(xs[1..], ys, t);
    }
  }

  lemma {:induction false} FarFromAll(ps: seq<SwitchPoint>, t: real)
    requires forall k :: 0 <= k < |ps| ==> !Near(ps[k].time, t)
    ensures FarFrom(ps, t) == ps
  {
    if |ps| > 0 {
      FarFromAll(ps[1..], t);
      assert [ps[0]] + ps[1..] == ps;
    }
  }

  lemma AddThenRemove(ps: seq<SwitchPoint>, t: real, angleId: string)
    requires Sorted(ps) && |ps| > 0
    requires forall k :: 0 <= k < |ps| ==> !Near(ps[k].time, t)
    ensures RemovePoint(AddPoint(ps, t, angleId), t) == ps
  {
    AddPointSorted(ps, t, angleId);
    FarFromInsert(ps, SwitchPoint(t, angleId));
  }

  // ---------------------------------------------------------------------------
  // The active angle at a time
  // ---------------------------------------------------------------------------

  /** The walk of `getActiveAngleAtTime` once point `cur` (and every point
      before it) is known not to be later than `t`: advance while the next
      point is not later either. */
  function WalkFrom(ps: seq<SwitchPoint>, t: real, cur: nat): (r: nat)
    requires cur < |ps|
    requires forall j :: 0 <= j <= cur ==> ps[j].time <= t
    decreases |ps| - cur
    ensures cur <= r < |ps|
    ensures forall j :: 0 <= j <= r ==> ps[j].time <= t
    ensures r + 1 < |ps| ==> ps[r + 1].time > t
  {
    if cur + 1 < |ps| && ps[cur + 1].time <= t then WalkFrom(ps, t, cur + 1)
    else cur
  }

  /** The index of the active point. The source starts from the first point
      and stops at the first point later than `t`; the first point therefore
      stays active when it is itself later than `t`. */
  function ActiveIndex(ps: seq<SwitchPoint>, t: real): (r: nat)
    requires |ps| > 0
    ensures r < |ps|
    ensures ps[0].time > t ==> r == 0
    ensures ps[0].time <= t ==> (&& (forall j :: 0 <= j <= r ==> ps[j].time <= t)
                                 && (r + 1 < |ps| ==> ps[r + 1].time > t))
  {
    if ps[0].time > t then 0 else WalkFrom(ps, t, 0)
  }

  /** On a sorted list the active point is the last point not later than
      `t`, or the first point when every point is later. */
  lemma ActiveIndexSorted(ps: seq<SwitchPoint>, t: real)
    requires |ps| > 0 && Sorted(ps)
    ensures var r := ActiveIndex(ps, t);
            && (ps[0].time <= t ==> ps[r].time <= t && forall j :: r < j < |ps| ==> ps[j].time > t)
            && (ps[0].time > t ==> r == 0 && forall j :: 0 <= j < |ps| ==> ps[j].time > t)
  {
  }

  /** `getActiveAngleAtTime`: none for a missing clip, a clip without
      points, or a point naming an unknown angle. */
  function ActiveAngleAt(s: State, clipId: string, t: real): (r: Option<Angle>)
    ensures r.Some? ==> GetClip(s, clipId).Some? && |GetClip(s, clipId).value.switchPoints| > 0
    ensures r.Some? ==>
              var c := GetClip(s, clipId).value;
              r.value in c.angles && r.value.id == c.switchPoints[ActiveIndex(c.switchPoints, t)].angleId
  {
    match GetClip(s, clipId)
    case None => None
    case Some(c) =>
      if |c.switchPoints| == 0 then None
      else Find(c.angles, AngleKey, c.switchPoints[ActiveIndex(c.switchPoints, t)].angleId)
  }

  // ---------------------------------------------------------------------------
  // Updating clips
  // ---------------------------------------------------------------------------

  /** The fields a partial update may carry. */
  datatype ClipUpdate = ClipUpdate(
    angles: Option<seq<Angle>>, switchPoints: Option<seq<SwitchPoint>>, duration: Option<real>)

  function ApplyUpdate(c: Clip, u: ClipUpdate): Clip {
    c.(angles := u.angles.GetOr(c.angles),
       switchPoints := u.switchPoints.GetOr(c.switchPoints),
       duration := u.duration.GetOr(c.duration))
  }

  /** `updateClip`: every clip carrying the identifier takes the update. */
  function UpdateClip(s: State, clipId: string, u: ClipUpdate): (r: State)
    ensures r.activeClipId == s.activeClipId && r.isLiveSwitching == s.isLiveSwitching
    ensures r.showGrid == s.showGrid
    ensures |r.clips| == |s.clips|
    ensures forall k :: 0 <= k < |s.clips| ==>
              && r.clips[k].id == s.clips[k].id
              && r.clips[k].name == s.clips[k].name
              && (s.clips[k].id != clipId ==> r.clips[k] == s.clips[k])
  {
    s.(clips := seq(|s.clips|, k requires 0 <= k < |s.clips| =>
                      if s.clips[k].id == clipId then ApplyUpdate(s.clips[k], u) else s.clips[k]))
  }

  /** `r` is `m` with at most the clips carrying `clipId` changed: every clip
      keeps its place and identifier, every other clip keeps its value, and
      the mode flags and the visible angle stay, as `{...this.state, clips:
      updateClip(…)}` keeps them. */
  ghost predicate OnlyClipChanges(m: Manager, r: Manager, clipId: string) {
    && |r.state.clips| == |m.state.clips|
    && (forall k :: 0 <= k < |m.state.clips| ==> r.state.clips[k].id == m.state.clips[k].id)
    && (forall k :: 0 <= k < |m.state.clips| && m.state.clips[k].id != clipId ==> r.state.clips[k] == m.state.clips[k])
    && r.state.activeClipId == m.state.activeClipId
    && r.state.isLiveSwitching == m.state.isLiveSwitching
    && r.state.showGrid == m.state.showGrid
    && r.lastVisibleAngleId == m.lastVisibleAngleId
  }

  /** The clip found after an update is the updated clip found before. */
  lemma GetClipAfterUpdate(s: State, clipId: string, u: ClipUpdate, other: string)
    ensures GetClip(UpdateClip(s, clipId, u), other).Some? <==> GetClip(s, other).Some?
    ensures GetClip(s, other).Some? ==>
              GetClip(UpdateClip(s, clipId, u), other).value
              == (if other == clipId then ApplyUpdate(GetClip(s, other).value, u) else GetClip(s, other).value)
  {
    var r := UpdateClip(s, clipId, u);
    var i := FirstIndex(s.clips, ClipKey, other);
    var i' := FirstIndex(r.clips, ClipKey, other);
    assert forall k :: 0 <= k < |s.clips| ==> ClipKey(r.clips[k]) == ClipKey(s.clips[k]);
    if i.Some? {
      assert i'.Some?;
      assert i'.value == i.value;
    } else {
      assert i'.None?;
    }
  }

  // ---------------------------------------------------------------------------
  // Manager operations
  // ---------------------------------------------------------------------------

  function AssetDuration(assets: seq<MediaAsset>, mediaId: string): real {
    match Find(assets, AssetKey, mediaId)
    case Some(a) => a.duration.GetOr(0.0)
    case None => 0.0
  }

  function FallbackAngleName(n: nat): string {
    "Angle " + TextUtil.NatToString(n)
  }

  /** `Math.max(...durations)` of the media's durations, for a non-empty list. */
  function MaxDuration(mediaIds: seq<string>, assets: seq<MediaAsset>): (r: real)
    requires |mediaIds| > 0
    ensures forall k :: 0 <= k < |mediaIds| ==> AssetDuration(assets, mediaIds[k]) <= r
    ensures exists k :: 0 <= k < |mediaIds| && AssetDuration(assets, mediaIds[k]) == r
  {
    if |mediaIds| == 1 then AssetDuration(assets, mediaIds[0])
    else
      var rest := MaxDuration(mediaIds[1..], assets);
      assert forall k :: 1 <= k < |mediaIds| ==> mediaIds[k] == mediaIds[1..][k - 1];
      MaxReal(AssetDuration(assets, mediaIds[0]), rest)
  }

  /** The asset's name, else "Angle <position>". */
  function MediaName(assets: seq<MediaAsset>, mediaId: string, position: nat): string {
    match Find(assets, AssetKey, mediaId)
    case Some(a) => a.name
    case None => FallbackAngleName(position)
  }

  /** Angle `i` of a new clip. */
  function NewAngle(i: nat, mediaId: string, assets: seq<MediaAsset>, angleId: string, trackId: string): Angle {
    Angle(angleId, MediaName(assets, mediaId, i + 1), mediaId, 0.0, Some(trackId))
  }

  /** `createClip`: one angle per medium (on a new track), a first switch
      point at time 0 on the first angle, and the longest medium's duration.
      An empty media list makes the source read `angles[0].id` of an empty
      array and throw, which is `None` here. */
  function CreateClip(m: Manager, name: string, mediaIds: seq<string>, syncMethod: SyncMethod,
                      assets: seq<MediaAsset>, angleIds: seq<string>, trackIds: seq<string>,
                      clipId: string, createdAt: int): (r: Option<(Manager, string)>)
    requires |angleIds| == |mediaIds| && |trackIds| == |mediaIds|
    ensures r.None? <==> |mediaIds| == 0
    ensures r.Some? ==> |r.value.0.state.clips| == |m.state.clips| + 1
    ensures r.Some? ==>
              var (m', id) := r.value;
              var c := m'.state.clips[|m'.state.clips| - 1];
              && id == clipId
              && m'.state.clips[..|m'.state.clips| - 1] == m.state.clips
              && m'.state.activeClipId == m.state.activeClipId
              && m'.lastVisibleAngleId == m.lastVisibleAngleId
              && m'.state.isLiveSwitching == m.state.isLiveSwitching && m'.state.showGrid == m.state.showGrid
              && c.id == clipId && c.name == name && c.syncMethod == syncMethod && c.createdAt == createdAt
              && |c.angles| == |mediaIds|
              && (forall k :: 0 <= k < |mediaIds| ==>
                    && c.angles[k].id == angleIds[k] && c.angles[k].mediaId == mediaIds[k]
                    && c.angles[k].syncOffset == 0.0 && c.angles[k].trackId == Some(trackIds[k])
                    && c.angles[k].name == MediaName(assets, mediaIds[k], k + 1)
                    && AssetDuration(assets, mediaIds[k]) <= c.duration)
              && (exists k :: 0 <= k < |mediaIds| && AssetDuration(assets, mediaIds[k]) == c.duration)
              && c.switchPoints == [SwitchPoint(0.0, angleIds[0])]
  {
    if |mediaIds| == 0 then None
    else
      var angles := seq(|mediaIds|, i requires 0 <= i < |mediaIds| =>
                          NewAngle(i, mediaIds[i], assets, angleIds[i], trackIds[i]));
      var clip := Clip(clipId, name, angles, [SwitchPoint(0.0, angles[0].id)],
                       MaxDuration(mediaIds, assets), syncMethod, createdAt);
      var clips := m.state.clips + [clip];
      assert clips[..|clips| - 1] == m.state.clips;
      Some((m.(state := m.state.(clips := clips)), clipId))
  }

  /** `deleteClip`: drop every clip with the identifier, and leave multicam
      mode's active clip if it was that one. */
  function DeleteClip(m: Manager, clipId: string): (r: Manager)
    ensures forall c :: c in r.state.clips <==> c in m.state.clips && c.id != clipId
    ensures r.state.activeClipId == (if m.state.activeClipId == Some(clipId) then None else m.state.activeClipId)
    ensures r.state.isLiveSwitching == m.state.isLiveSwitching && r.state.showGrid == m.state.showGrid
    ensures r.lastVisibleAngleId == m.lastVisibleAngleId
    ensures GetClip(r.state, clipId).None?
  {
    var kept := WithoutClip(m.state.clips, clipId);
    var active := if m.state.activeClipId == Some(clipId) then None else m.state.activeClipId;
    m.(state := m.state.(clips := kept, activeClipId := active))
  }

  function WithoutClip(cs: seq<Clip>, clipId: string): (r: seq<Clip>)
    ensures |r| <= |cs|
    ensures forall c :: c in r <==> c in cs && c.id != clipId
  {
    if |cs| == 0 then []
    else
      var rest := WithoutClip(cs[1..], clipId);
      assert forall c :: c in cs <==> c == cs[0] || c in cs[1..];
      if cs[0].id == clipId then rest else [cs[0]] + rest
  }

  /** Deleting keeps the order of the other clips: filtering a concatenation
      filters each part. */
  lemma {:induction false} WithoutClipAppend(a: seq<Clip>, b: seq<Clip>, clipId: string)
    ensures WithoutClip(a + b, clipId) == WithoutClip(a, clipId) + WithoutClip(b, clipId)
  {
    if |a| == 0 {
      assert a + b == b;
    } else {
      assert (a + b)[0] == a[0] && (a + b)[1..] == a[1..] + b;
      WithoutClipAppend(a[1..], b, clipId);
    }
  }

  /** Appending a clip to the list appends it to the filtered list, unless it
      carries the deleted identifier. */
  lemma WithoutClipSnoc(cs: seq<Clip>, c: Clip, clipId: string)
    ensures WithoutClip(cs + [c], clipId) == WithoutClip(cs, clipId) + (if c.id == clipId then [] else [c])
  {
    WithoutClipAppend(cs, [c], clipId);
    assert WithoutClip([c], clipId) == (if c.id == clipId then [] else [c]) by {
      assert [c][1..] == [];
    }
  }

  /** `find` on a non-empty list looks at the head first. */
  lemma FindCons<T>(xs: seq<T>, key: T -> string, k: string)
    requires |xs| > 0
    ensures Find(xs, key, k) == if key(xs[0]) == k then Some(xs[0]) else Find(xs[1..], key, k)
  {
    if key(xs[0]) != k {
      match FirstIndex(xs[1..], key, k)
      case None =>
      case Some(i) =>
        assert xs[1..][i] == xs[i + 1];
        forall j | 0 <= j < i + 1 ensures key(xs[j]) != k {
          if j > 0 { assert xs[j] == xs[1..][j - 1]; }
        }
    }
  }

  lemma {:induction false} FindWithoutClip(cs: seq<Clip>, clipId: string, other: string)
    requires other != clipId
    ensures Find(WithoutClip(cs, clipId), ClipKey, other) == Find(cs, ClipKey, other)
  {
    if |cs| > 0 {
      FindWithoutClip(cs[1..], clipId, other);
      FindCons(cs, ClipKey, other);
      var rest := WithoutClip(cs[1..], clipId);
      if cs[0].id != clipId {
        assert ([cs[0]] + rest)[1..] == rest;
        FindCons([cs[0]] + rest, ClipKey, other);
      }
    }
  }

  /** Deleting a clip leaves every other clip where `getClip` finds it. */
  lemma DeleteClipOthers(m: Manager, clipId: string, other: string)
    requires other != clipId
    ensures GetClip(DeleteClip(m, clipId).state, other) == GetClip(m.state, other)
  {
    FindWithoutClip(m.state.clips, clipId, other);
  }

  /** Deleting is idempotent. */
  lemma DeleteClipIdempotent(m: Manager, clipId: string)
    ensures DeleteClip(DeleteClip(m, clipId), clipId) == DeleteClip(m, clipId)
  {
    WithoutClipIdempotent(m.state.clips, clipId);
  }

  lemma {:induction false} WithoutClipIdempotent(cs: seq<Clip>, clipId: string)
    ensures WithoutClip(WithoutClip(cs, clipId), clipId) == WithoutClip(cs, clipId)
  {
    if |cs| > 0 {
      WithoutClipIdempotent(cs[1..], clipId);
      var rest := WithoutClip(cs[1..], clipId);
      if cs[0].id != clipId {
        assert ([cs[0]] + rest)[1..] == rest;
      }
    }
  }

  /** `addAngle`: append an angle (named by the caller, else by its medium,
      else by its position) to the clip, and stretch the clip to cover the
      medium shifted by the offset. `None` when the clip does not exist. */
  function AddAngle(m: Manager, clipId: string, mediaId: string, name: Option<string>, syncOffset: real,
                    assets: seq<MediaAsset>, angleId: string): (r: (Manager, Option<string>))
    ensures r.1.None? <==> GetClip(m.state, clipId).None?
    ensures r.1.None? ==> r.0 == m
    ensures r.1.Some? ==> GetClip(r.0.state, clipId).Some? && OnlyClipChanges(m, r.0, clipId)
    ensures r.1.Some? ==>
              var c := GetClip(m.state, clipId).value;
              var c' := GetClip(r.0.state, clipId).value;
              && r.1 == Some(angleId)
              && |c'.angles| == |c.angles| + 1
              && c'.angles[..|c.angles|] == c.angles
              && c'.angles[|c.angles|] == Angle(angleId, name.GetOr(MediaName(assets, mediaId, |c.angles| + 1)),
                                                mediaId, syncOffset, None)
              && c'.(angles := c.angles, duration := c.duration) == c
              && c'.duration >= c.duration
              && c'.duration >= AssetDuration(assets, mediaId) + syncOffset
              && (c'.duration == c.duration || c'.duration == AssetDuration(assets, mediaId) + syncOffset)
  {
    match GetClip(m.state, clipId)
    case None => (m, None)
    case Some(c) =>
      var angleName := name.GetOr(MediaName(assets, mediaId, |c.angles| + 1));
      var angle := Angle(angleId, angleName, mediaId, syncOffset, None);
      var u := ClipUpdate(Some(c.angles + [angle]), None,
                          Some(MaxReal(c.duration, AssetDuration(assets, mediaId) + syncOffset)));
      GetClipAfterUpdate(m.state, clipId, u, clipId);
      assert (c.angles + [angle])[..|c.angles|] == c.angles;
      (m.(state := UpdateClip(m.state, clipId, u)), Some(angleId))
  }

  /** Every point of `ps` whose angle is `from` now names `to`. */
  function Retarget(ps: seq<SwitchPoint>, from: string, to: string): (r: seq<SwitchPoint>)
    ensures |r| == |ps|
    ensures forall k :: 0 <= k < |ps| ==> r[k].time == ps[k].time
    ensures forall k :: 0 <= k < |ps| ==> r[k].angleId == (if ps[k].angleId == from then to else ps[k].angleId)
  {
    seq(|ps|, k requires 0 <= k < |ps| => if ps[k].angleId == from then ps[k].(angleId := to) else ps[k])
  }

  function WithoutAngle(as_: seq<Angle>, angleId: string): (r: seq<Angle>)
    ensures |r| <= |as_|
    ensures forall a :: a in r <==> a in as_ && a.id != angleId
  {
    if |as_| == 0 then []
    else
      var rest := WithoutAngle(as_[1..], angleId);
      assert forall a :: a in as_ <==> a == as_[0] || a in as_[1..];
      if as_[0].id == angleId then rest else [as_[0]] + rest
  }

  /** Removing an angle keeps the order of the others. */
  lemma {:induction false} WithoutAngleAppend(a: seq<Angle>, b: seq<Angle>, angleId: string)
    ensures WithoutAngle(a + b, angleId) == WithoutAngle(a, angleId) + WithoutAngle(b, angleId)
  {
    if |a| == 0 {
      assert a + b == b;
    } else {
      assert (a + b)[0] == a[0] && (a + b)[1..] == a[1..] + b;
      WithoutAngleAppend(a[1..], b, angleId);
    }
  }

  /** The first remaining angle is the first angle whose identifier differs:
      the one whose points `removeAngle` moves to. */
  lemma {:induction false} WithoutAngleFirst(as_: seq<Angle>, angleId: string, j: nat)
    requires j < |as_| && as_[j].id != angleId
    requires forall i :: 0 <= i < j ==> as_[i].id == angleId
    ensures |WithoutAngle(as_, angleId)| > 0 && WithoutAngle(as_, angleId)[0] == as_[j]
  {
    if j > 0 {
      forall i | 0 <= i < j - 1 ensures as_[1..][i].id == angleId {
        assert as_[1..][i] == as_[i + 1];
      }
      WithoutAngleFirst(as_[1..], angleId, j - 1);
    }
  }

  /** `removeAngle`: nothing for a missing clip or a clip with at most one
      angle; otherwise the angle goes and its points move to the first
      remaining angle. When every angle carries the removed identifier there
      is no first remaining angle and the source throws: `None`. */
  function RemoveAngle(m: Manager, clipId: string, angleId: string): (r: Option<Manager>)
    ensures GetClip(m.state, clipId).None? || |GetClip(m.state, clipId).value.angles| <= 1 ==> r == Some(m)
    ensures r.None? <==> GetClip(m.state, clipId).Some? && |GetClip(m.state, clipId).value.angles| > 1
                          && |WithoutAngle(GetClip(m.state, clipId).value.angles, angleId)| == 0
    ensures r.Some? ==> OnlyClipChanges(m, r.value, clipId)
    ensures r.Some? && GetClip(m.state, clipId).Some? && |GetClip(m.state, clipId).value.angles| > 1 ==>
              var c := GetClip(m.state, clipId).value;
              var rest := WithoutAngle(c.angles, angleId);
              && |rest| > 0
              && GetClip(r.value.state, clipId)
                 == Some(c.(angles := rest, switchPoints := Retarget(c.switchPoints, angleId, rest[0].id)))
              && r.value.lastVisibleAngleId == m.lastVisibleAngleId
              && r.value.state.activeClipId == m.state.activeClipId
              && r.value.state.isLiveSwitching == m.state.isLiveSwitching
              && r.value.state.showGrid == m.state.showGrid
  {
    match GetClip(m.state, clipId)
    case None => Some(m)
    case Some(c) =>
      if |c.angles| <= 1 then Some(m)
      else
        var remaining := WithoutAngle(c.angles, angleId);
        if |remaining| == 0 then None
        else
          var u := ClipUpdate(Some(remaining), Some(Retarget(c.switchPoints, angleId, remaining[0].id)), None);
          GetClipAfterUpdate(m.state, clipId, u, clipId);
          Some(m.(state := UpdateClip(m.state, clipId, u)))
  }

  /** `updateAngleSyncOffset`: the angle's offset changes, nothing else. */
  function SetSyncOffset(m: Manager, clipId: string, angleId: string, syncOffset: real): (r: Manager)
    ensures GetClip(m.state, clipId).None? ==> r == m
    ensures OnlyClipChanges(m, r, clipId)
    ensures GetClip(m.state, clipId).Some? ==>
              var c := GetClip(m.state, clipId).value;
              && GetClip(r.state, clipId).Some?
              && var c' := GetClip(r.state, clipId).value;
              && c'.(angles := c.angles) == c
              && |c'.angles| == |c.angles|
              && forall k :: 0 <= k < |c.angles| ==>
                   && c'.angles[k].(syncOffset := c.angles[k].syncOffset) == c.angles[k]
                   && c'.angles[k].syncOffset == (if c.angles[k].id == angleId then syncOffset else c.angles[k].syncOffset)
  {
    match GetClip(m.state, clipId)
    case None => m
    case Some(c) =>
      var angles := seq(|c.angles|, k requires 0 <= k < |c.angles| =>
                          if c.angles[k].id == angleId then c.angles[k].(syncOffset := syncOffset) else c.angles[k]);
      var u := ClipUpdate(Some(angles), None, None);
      GetClipAfterUpdate(m.state, clipId, u, clipId);
      m.(state := UpdateClip(m.state, clipId, u))
  }

  /** `addSwitchPoint` on the manager. */
  function AddSwitchPoint(m: Manager, clipId: string, t: real, angleId: string): (r: Manager)
    ensures GetClip(m.state, clipId).None? ==> r == m
    ensures OnlyClipChanges(m, r, clipId)
    ensures GetClip(m.state, clipId).Some? ==>
              GetClip(r.state, clipId) == Some(GetClip(m.state, clipId).value.(switchPoints :=
                AddPoint(GetClip(m.state, clipId).value.switchPoints, t, angleId)))
  {
    match GetClip(m.state, clipId)
    case None => m
    case Some(c) =>
      var u := ClipUpdate(None, Some(AddPoint(c.switchPoints, t, angleId)), None);
      GetClipAfterUpdate(m.state, clipId, u, clipId);
      m.(state := UpdateClip(m.state, clipId, u))
  }

  /** `removeSwitchPoint` on the manager: nothing happens when every point
      would go. */
  function RemoveSwitchPoint(m: Manager, clipId: string, t: real): (r: Manager)
    ensures GetClip(m.state, clipId).None? ==> r == m
    ensures OnlyClipChanges(m, r, clipId)
    ensures GetClip(m.state, clipId).Some? && |FarFrom(GetClip(m.state, clipId).value.switchPoints, t)| == 0 ==> r == m
    ensures GetClip(m.state, clipId).Some? ==>
              GetClip(r.state, clipId) == Some(GetClip(m.state, clipId).value.(switchPoints :=
                RemovePoint(GetClip(m.state, clipId).value.switchPoints, t)))
  {
    match GetClip(m.state, clipId)
    case None => m
    case Some(c) =>
      var filtered := FarFrom(c.switchPoints, t);
      if |filtered| == 0 then m
      else
        var u := ClipUpdate(None, Some(filtered), None);
        GetClipAfterUpdate(m.state, clipId, u, clipId);
        m.(state := UpdateClip(m.state, clipId, u))
  }

  // ---------------------------------------------------------------------------
  // Mode flags
  // ---------------------------------------------------------------------------

  /** `enterMulticamMode`: make the clip active, show the grid, remember its
      first angle. */
  function EnterMode(m: Manager, clipId: string): (r: Manager)
    ensures GetClip(m.state, clipId).None? ==> r == m
    ensures GetClip(m.state, clipId).Some? ==>
              && r.state.activeClipId == Some(clipId) && r.state.showGrid
              && r.state.clips == m.state.clips && r.state.isLiveSwitching == m.state.isLiveSwitching
    ensures GetClip(m.state, clipId).Some? ==>
              var c := GetClip(m.state, clipId).value;
              r.lastVisibleAngleId == (if |c.angles| > 0 then Some(c.angles[0].id) else None)
  {
    match GetClip(m.state, clipId)
    case None => m
    case Some(c) =>
      var first := if |c.angles| > 0 then Some(c.angles[0].id) else None;
      Manager(m.state.(activeClipId := Some(clipId), showGrid := true), first)
  }

  /** `exitMulticamMode`. */
  function ExitMode(m: Manager): (r: Manager)
    ensures !IsInMode(r) && !r.state.isLiveSwitching && !r.state.showGrid
    ensures r.state.clips == m.state.clips && r.lastVisibleAngleId.None?
  {
    Manager(m.state.(activeClipId := None, isLiveSwitching := false, showGrid := false), None)
  }

  /** `startLiveSwitching`: only with an active clip; only the flag moves. */
  function StartLiveSwitching(m: Manager): (r: Manager)
    ensures !Truthy(m.state.activeClipId) ==> r == m
    ensures r.state.isLiveSwitching <==> Truthy(m.state.activeClipId) || m.state.isLiveSwitching
    ensures r.state.clips == m.state.clips && r.state.activeClipId == m.state.activeClipId
    ensures r.state.showGrid == m.state.showGrid && r.lastVisibleAngleId == m.lastVisibleAngleId
  {
    if !Truthy(m.state.activeClipId) then m
    else m.(state := m.state.(isLiveSwitching := true))
  }

  /** `stopLiveSwitching`: stop and hide the grid (playback is paused and
      rewound outside this model). */
  function StopLiveSwitching(m: Manager): (r: Manager)
    ensures !r.state.isLiveSwitching && !r.state.showGrid
    ensures r.state.activeClipId == m.state.activeClipId && r.state.clips == m.state.clips
    ensures r.lastVisibleAngleId == m.lastVisibleAngleId
  {
    m.(state := m.state.(isLiveSwitching := false, showGrid := false))
  }

  /** `switchToAngle` at playback time `now`: remember the angle and switch
      the active clip to it from `now` on. The flags stay as they were. */
  function SwitchToAngle(m: Manager, angleId: string, now: real): (r: Manager)
    ensures !Truthy(m.state.activeClipId) ==> r == m
    ensures Truthy(m.state.activeClipId) ==> r.lastVisibleAngleId == Some(angleId)
    ensures r.state.activeClipId == m.state.activeClipId && r.state.isLiveSwitching == m.state.isLiveSwitching
    ensures r.state.showGrid == m.state.showGrid
    ensures Truthy(m.state.activeClipId) ==>
              OnlyClipChanges(m.(lastVisibleAngleId := Some(angleId)), r, m.state.activeClipId.value)
    ensures Truthy(m.state.activeClipId) && GetClip(m.state, m.state.activeClipId.value).None? ==>
              r.state == m.state
    ensures Truthy(m.state.activeClipId) && GetClip(m.state, m.state.activeClipId.value).Some? ==>
              var c := GetClip(m.state, m.state.activeClipId.value).value;
              GetClip(r.state, m.state.activeClipId.value) == Some(c.(switchPoints := AddPoint(c.switchPoints, now, angleId)))
  {
    if !Truthy(m.state.activeClipId) then m
    else AddSwitchPoint(m.(lastVisibleAngleId := Some(angleId)), m.state.activeClipId.value, now, angleId)
  }

  predicate IsInMode(m: Manager) {
    m.state.activeClipId.Some?
  }

  /** `showGridView`: only the grid flag moves. */
  function ShowGrid(m: Manager): (r: Manager)
    ensures r.state.showGrid && r.state.clips == m.state.clips
    ensures r.state.activeClipId == m.state.activeClipId && r.state.isLiveSwitching == m.state.isLiveSwitching
    ensures r.lastVisibleAngleId == m.lastVisibleAngleId
  {
    m.(state := m.state.(showGrid := true))
  }

  /** `hideGridView`: only the grid flag moves. */
  function HideGrid(m: Manager): (r: Manager)
    ensures !r.state.showGrid && r.state.clips == m.state.clips
    ensures r.state.activeClipId == m.state.activeClipId && r.state.isLiveSwitching == m.state.isLiveSwitching
    ensures r.lastVisibleAngleId == m.lastVisibleAngleId
  {
    m.(state := m.state.(showGrid := false))
  }

  /** `loadClips`: the clip list is replaced, the flags stay. */
  function LoadClips(m: Manager, clips: seq<Clip>): (r: Manager)
    ensures r.state.clips == clips && r.state.activeClipId == m.state.activeClipId
    ensures r.state.isLiveSwitching == m.state.isLiveSwitching && r.state.showGrid == m.state.showGrid
    ensures r.lastVisibleAngleId == m.lastVisibleAngleId
  {
    m.(state := m.state.(clips := clips))
  }

  /** `getActiveTrackId`: the active clip, else the first clip, decides. */
  function ActiveTrackId(s: State, t: real): (r: Option<string>)
    ensures r.Some? ==> exists c :: c in s.clips && exists a :: a in c.angles && a.trackId == r
    ensures r.Some? && r.value != "" ==> r.value in TrackIds(s)
    ensures s.activeClipId.None? && |s.clips| == 0 ==> r.None?
    ensures s.activeClipId == Some("") ==> r.None?
  {
    var clipId := if s.activeClipId.Some? then s.activeClipId
                  else if |s.clips| > 0 then Some(s.clips[0].id) else None;
    if !Truthy(clipId) then None
    else
      match ActiveAngleAt(s, clipId.value, t)
      case None => None
      case Some(a) =>
        var c := GetClip(s, clipId.value).value;
        assert c in s.clips && a in c.angles;
        TrackIdListed(s, c, a);
        a.trackId
  }

  lemma TrackIdListed(s: State, c: Clip, a: Angle)
    requires c in s.clips && a in c.angles
    ensures a.trackId.Some? && a.trackId.value != "" ==> a.trackId.value in TrackIds(s)
  {
    var k :| 0 <= k < |s.clips| && s.clips[k] == c;
    var j :| 0 <= j < |c.angles| && c.angles[j] == a;
    assert s.clips[k].angles[j] == a;
  }

  /** `getMulticamTrackIds`: every non-empty track identifier of every angle. */
  function TrackIds(s: State): (r: set<string>)
    ensures forall id :: id in r <==>
              id != "" && exists k, j :: 0 <= k < |s.clips| && 0 <= j < |s.clips[k].angles|
                                         && s.clips[k].angles[j].trackId == Some(id)
  {
    set k, j | 0 <= k < |s.clips| && 0 <= j < |s.clips[k].angles|
               && s.clips[k].angles[j].trackId.Some? && s.clips[k].angles[j].trackId.value != ""
             :: s.clips[k].angles[j].trackId.value
  }

  // ---------------------------------------------------------------------------
  // Properties across operations
  // ---------------------------------------------------------------------------

  /** Deleting the active clip leaves live switching and the grid as they
      were, so the manager can be live-switching with no clip in multicam
      mode. */
  lemma DeleteActiveClipKeepsFlags(m: Manager, clipId: string)
    requires m.state.activeClipId == Some(clipId) && m.state.isLiveSwitching && m.state.showGrid
    ensures !IsInMode(DeleteClip(m, clipId))
    ensures DeleteClip(m, clipId).state.isLiveSwitching && DeleteClip(m, clipId).state.showGrid
  {
  }

  /** Entering and then leaving multicam mode returns the flags to rest and
      keeps the clips. */
  lemma EnterThenExit(m: Manager, clipId: string)
    requires GetClip(m.state, clipId).Some?
    ensures IsInMode(EnterMode(m, clipId))
    ensures ExitMode(EnterMode(m, clipId)).state == State(m.state.clips, None, false, false)
  {
  }

  /** Starting and then stopping live switching leaves it off with the grid
      hidden, and the clips, the active clip and the last angle as they were. */
  lemma StartThenStop(m: Manager)
    ensures var r := StopLiveSwitching(StartLiveSwitching(m));
            && !r.state.isLiveSwitching && !r.state.showGrid
            && r.state.clips == m.state.clips && r.state.activeClipId == m.state.activeClipId
            && r.lastVisibleAngleId == m.lastVisibleAngleId
  {
  }

  /** The flag operations touch no clip, so every clip shows the same angle
      at every time afterwards. */
  lemma FlagsKeepActiveAngle(m: Manager, clipId: string, t: real)
    ensures ActiveAngleAt(StartLiveSwitching(m).state, clipId, t) == ActiveAngleAt(m.state, clipId, t)
    ensures ActiveAngleAt(StopLiveSwitching(m).state, clipId, t) == ActiveAngleAt(m.state, clipId, t)
    ensures ActiveAngleAt(ShowGrid(m).state, clipId, t) == ActiveAngleAt(m.state, clipId, t)
    ensures ActiveAngleAt(HideGrid(m).state, clipId, t) == ActiveAngleAt(m.state, clipId, t)
  {
  }

  /** Of several grid calls the last one decides. */
  lemma GridLastCallWins(m: Manager)
    ensures HideGrid(ShowGrid(m)) == HideGrid(m)
    ensures ShowGrid(HideGrid(m)) == ShowGrid(m)
    ensures ShowGrid(ShowGrid(m)) == ShowGrid(m) && HideGrid(HideGrid(m)) == HideGrid(m)
  {
  }

  /** After loading, a clip whose identifier no earlier clip carries is the
      clip found under that identifier. */
  lemma LoadedClipFound(m: Manager, clips: seq<Clip>, k: nat)
    requires k < |clips|
    requires forall j :: 0 <= j < k ==> clips[j].id != clips[k].id
    ensures GetClip(LoadClips(m, clips).state, clips[k].id) == Some(clips[k])
  {
    var i := FirstIndex(clips, ClipKey, clips[k].id);
    assert ClipKey(clips[k]) == clips[k].id;
    assert forall j :: 0 <= j < k ==> ClipKey(clips[j]) != clips[k].id;
    assert i.Some? && i.value == k;
  }

  /** Loading the clips already held changes nothing. */
  lemma LoadOwnClips(m: Manager)
    ensures LoadClips(m, m.state.clips) == m
  {
  }

  /** Where `Insert` puts `x`: before every point later than it, after the
      rest. */
  lemma {:induction false} InsertAt(ps: seq<SwitchPoint>, x: SwitchPoint) returns (i: nat)
    ensures i <= |ps| && Insert(ps, x) == ps[..i] + [x] + ps[i..]
    ensures forall j :: i <= j < |ps| ==> ps[j].time > x.time
  {
    if |ps| == 0 {
      i := 0;
    } else if ps[|ps| - 1].time <= x.time {
      i := |ps|;
      assert ps[..i] == ps && ps[i..] == [];
    } else {
      var init := ps[..|ps| - 1];
      var last := ps[|ps| - 1];
      i := InsertAt(init, x);
      assert Insert(ps, x) == Insert(init, x) + [last];
      SplitSnoc(ps, x, i);
      forall j | i <= j < |ps| ensures ps[j].time > x.time {
        if j < |ps| - 1 {
          assert ps[j] == init[j];
        }
      }
    }
  }

  lemma SplitSnoc(ps: seq<SwitchPoint>, x: SwitchPoint, i: nat)
    requires i < |ps|
    ensures var init := ps[..|ps| - 1];
            (init[..i] + [x] + init[i..]) + [ps[|ps| - 1]] == ps[..i] + [x] + ps[i..]
  {
    var init := ps[..|ps| - 1];
    var lhs := (init[..i] + [x] + init[i..]) + [ps[|ps| - 1]];
    var rhs := ps[..i] + [x] + ps[i..];
    assert |lhs| == |rhs|;
    forall k | 0 <= k < |lhs| ensures lhs[k] == rhs[k] {
      if k > i && k < |lhs| - 1 {
        assert lhs[k] == init[k - 1] == ps[k - 1];
      }
    }
  }

  /** In a sorted list, a point just inserted is the active point at its own
      time. */
  lemma InsertedIsActive(ps: seq<SwitchPoint>, x: SwitchPoint)
    requires Sorted(ps)
    ensures var r := Insert(ps, x); r[ActiveIndex(r, x.time)] == x
  {
    var r := Insert(ps, x);
    var i := InsertAt(ps, x);
    InsertSorted(ps, x);
    assert r[i] == x;
    assert r[0].time <= r[i].time;
    ActiveIndexSorted(r, x.time);
    var a := ActiveIndex(r, x.time);
    forall j | i < j < |r| ensures r[j].time > x.time {
      assert r[j] == ps[j - 1];
    }
    assert a == i;
  }

  /** Switching to an angle of the active clip at a time with no switch point
      within the tolerance makes that angle the one shown from then on. With a
      point within the tolerance that point is retargeted instead, and it may
      lie after `now`. */
  lemma SwitchToAngleShows(m: Manager, angleId: string, now: real)
    requires Truthy(m.state.activeClipId)
    requires GetClip(m.state, m.state.activeClipId.value).Some?
    requires var c := GetClip(m.state, m.state.activeClipId.value).value;
             && Sorted(c.switchPoints) && angleId in AngleIds(c)
             && forall k :: 0 <= k < |c.switchPoints| ==> !Near(c.switchPoints[k].time, now)
    ensures var a := ActiveAngleAt(SwitchToAngle(m, angleId, now).state, m.state.activeClipId.value, now);
            a.Some? && a.value.id == angleId
  {
    var id := m.state.activeClipId.value;
    var c := GetClip(m.state, id).value;
    var x := SwitchPoint(now, angleId);
    assert NearIndexFrom(c.switchPoints, now, 0).None?;
    AddPointSorted(c.switchPoints, now, angleId);
    InsertedIsActive(c.switchPoints, x);
    var a :| a in c.angles && a.id == angleId;
    var j :| 0 <= j < |c.angles| && c.angles[j] == a;
    assert AngleKey(c.angles[j]) == angleId;
  }

  /** Which track is active: with a well-formed clip in multicam mode, the
      track of the angle that clip shows at `t`. */
  lemma ActiveTrackIdInMode(s: State, t: real)
    requires Truthy(s.activeClipId)
    requires GetClip(s, s.activeClipId.value).Some? && WellFormed(GetClip(s, s.activeClipId.value).value)
    ensures ActiveTrackId(s, t) == ActiveAngleAt(s, s.activeClipId.value, t).value.trackId
  {
    ActiveAngleDefined(s, s.activeClipId.value, t);
  }

  /** Out of multicam mode the first clip decides. */
  lemma ActiveTrackIdFallback(s: State, t: real)
    requires s.activeClipId.None? && |s.clips| > 0 && s.clips[0].id != ""
    requires WellFormed(s.clips[0])
    ensures ActiveTrackId(s, t) == ActiveAngleAt(s, s.clips[0].id, t).value.trackId
  {
    assert ClipKey(s.clips[0]) == s.clips[0].id;
    assert GetClip(s, s.clips[0].id) == Some(s.clips[0]);
    ActiveAngleDefined(s, s.clips[0].id, t);
  }

  // ---------------------------------------------------------------------------
  // A well-formed clip stays well-formed
  // ---------------------------------------------------------------------------

  function AngleIds(c: Clip): set<string> {
    set a | a in c.angles :: a.id
  }

  /** A clip with angles, a sorted non-empty switch list, and every switch
      point naming one of its angles: what the manager's operations keep. */
  ghost predicate WellFormed(c: Clip) {
    && |c.angles| > 0
    && |c.switchPoints| > 0
    && Sorted(c.switchPoints)
    && forall k :: 0 <= k < |c.switchPoints| ==> c.switchPoints[k].angleId in AngleIds(c)
  }

  /** A well-formed clip always shows an angle, the one named by the last
      point not later than `t` (the first point before every point). */
  lemma ActiveAngleDefined(s: State, clipId: string, t: real)
    requires GetClip(s, clipId).Some? && WellFormed(GetClip(s, clipId).value)
    ensures ActiveAngleAt(s, clipId, t).Some?
  {
    var c := GetClip(s, clipId).value;
    var id := c.switchPoints[ActiveIndex(c.switchPoints, t)].angleId;
    assert id in AngleIds(c);
    var a :| a in c.angles && a.id == id;
    var j :| 0 <= j < |c.angles| && c.angles[j] == a;
    assert AngleKey(c.angles[j]) == id;
  }

  lemma CreateClipWellFormed(m: Manager, name: string, mediaIds: seq<string>, syncMethod: SyncMethod,
                             assets: seq<MediaAsset>, angleIds: seq<string>, trackIds: seq<string>,
                             clipId: string, createdAt: int)
    requires |angleIds| == |mediaIds| && |trackIds| == |mediaIds| && |mediaIds| > 0
    ensures var m' := CreateClip(m, name, mediaIds, syncMethod, assets, angleIds, trackIds, clipId, createdAt).value.0;
            WellFormed(m'.state.clips[|m'.state.clips| - 1])
  {
    var m' := CreateClip(m, name, mediaIds, syncMethod, assets, angleIds, trackIds, clipId, createdAt).value.0;
    var c := m'.state.clips[|m'.state.clips| - 1];
    assert c.angles[0] in c.angles;
  }

  lemma AddAngleWellFormed(m: Manager, clipId: string, mediaId: string, name: Option<string>, syncOffset: real,
                           assets: seq<MediaAsset>, angleId: string)
    requires GetClip(m.state, clipId).Some? && WellFormed(GetClip(m.state, clipId).value)
    ensures WellFormed(GetClip(AddAngle(m, clipId, mediaId, name, syncOffset, assets, angleId).0.state, clipId).value)
  {
    var c := GetClip(m.state, clipId).value;
    var c' := GetClip(AddAngle(m, clipId, mediaId, name, syncOffset, assets, angleId).0.state, clipId).value;
    forall a | a in c.angles ensures a in c'.angles {
      var j :| 0 <= j < |c.angles| && c.angles[j] == a;
      assert c'.angles[..|c.angles|][j] == a;
    }
    assert AngleIds(c) <= AngleIds(c');
  }

  lemma AddSwitchPointWellFormed(m: Manager, clipId: string, t: real, angleId: string)
    requires GetClip(m.state, clipId).Some? && WellFormed(GetClip(m.state, clipId).value)
    requires angleId in AngleIds(GetClip(m.state, clipId).value)
    ensures WellFormed(GetClip(AddSwitchPoint(m, clipId, t, angleId).state, clipId).value)
  {
    var c := GetClip(m.state, clipId).value;
    var ps := c.switchPoints;
    var ps' := AddPoint(ps, t, angleId);
    AddPointSorted(ps, t, angleId);
    if NearIndexFrom(ps, t, 0).None? {
      forall k | 0 <= k < |ps'| ensures ps'[k].angleId in AngleIds(c) {
        assert ps'[k] in multiset(ps');
        if ps'[k] != SwitchPoint(t, angleId) {
          assert ps'[k] in multiset(ps);
          var j :| 0 <= j < |ps| && ps[j] == ps'[k];
        }
      }
    }
  }

  lemma RemoveSwitchPointWellFormed(m: Manager, clipId: string, t: real)
    requires GetClip(m.state, clipId).Some? && WellFormed(GetClip(m.state, clipId).value)
    ensures WellFormed(GetClip(RemoveSwitchPoint(m, clipId, t).state, clipId).value)
  {
    var c := GetClip(m.state, clipId).value;
    var ps := c.switchPoints;
    RemovePointSorted(ps, t);
    var ps' := RemovePoint(ps, t);
    forall k | 0 <= k < |ps'| ensures ps'[k].angleId in AngleIds(c) {
      assert ps'[k] in ps;
      var j :| 0 <= j < |ps| && ps[j] == ps'[k];
    }
  }

  lemma RemoveAngleWellFormed(m: Manager, clipId: string, angleId: string)
    requires GetClip(m.state, clipId).Some? && WellFormed(GetClip(m.state, clipId).value)
    requires RemoveAngle(m, clipId, angleId).Some?
    ensures var m' := RemoveAngle(m, clipId, angleId).value;
            && GetClip(m'.state, clipId).Some? && WellFormed(GetClip(m'.state, clipId).value)
            && (|GetClip(m.state, clipId).value.angles| > 1 ==> angleId !in AngleIds(GetClip(m'.state, clipId).value))
  {
    var c := GetClip(m.state, clipId).value;
    if |c.angles| > 1 {
      var remaining := WithoutAngle(c.angles, angleId);
      var ps := Retarget(c.switchPoints, angleId, remaining[0].id);
      var u := ClipUpdate(Some(remaining), Some(ps), None);
      GetClipAfterUpdate(m.state, clipId, u, clipId);
      var c' := ApplyUpdate(c, u);
      assert remaining[0] in remaining;
      assert Sorted(ps);
      forall k | 0 <= k < |ps| ensures ps[k].angleId in AngleIds(c') {
        if c.switchPoints[k].angleId != angleId {
          assert c.switchPoints[k].angleId in AngleIds(c);
          var a :| a in c.angles && a.id == c.switchPoints[k].angleId;
          assert a in remaining;
        }
      }
    }
  }

  /** Removing an angle leaves every other clip as it was. */
  lemma RemoveAngleOthers(m: Manager, clipId: string, angleId: string, other: string)
    requires RemoveAngle(m, clipId, angleId).Some? && other != clipId
    ensures GetClip(RemoveAngle(m, clipId, angleId).value.state, other) == GetClip(m.state, other)
  {
    match GetClip(m.state, clipId)
    case None =>
    case Some(c) =>
      if |c.angles| > 1 {
        var remaining := WithoutAngle(c.angles, angleId);
        var u := ClipUpdate(Some(remaining), Some(Retarget(c.switchPoints, angleId, remaining[0].id)), None);
        GetClipAfterUpdate(m.state, clipId, u, other);
      }
  }

  /** Switching keeps the active clip well-formed when the angle is one of
      its own. */
  lemma SwitchToAngleWellFormed(m: Manager, angleId: string, now: real)
    requires Truthy(m.state.activeClipId)
    requires GetClip(m.state, m.state.activeClipId.value).Some?
    requires WellFormed(GetClip(m.state, m.state.activeClipId.value).value)
    requires angleId in AngleIds(GetClip(m.state, m.state.activeClipId.value).value)
    ensures WellFormed(GetClip(SwitchToAngle(m, angleId, now).state, m.state.activeClipId.value).value)
  {
    AddSwitchPointWellFormed(m.(lastVisibleAngleId := Some(angleId)), m.state.activeClipId.value, now, angleId);
  }

  lemma SetSyncOffsetWellFormed(m: Manager, clipId: string, angleId: string, syncOffset: real)
    requires GetClip(m.state, clipId).Some? && WellFormed(GetClip(m.state, clipId).value)
    ensures WellFormed(GetClip(SetSyncOffset(m, clipId, angleId, syncOffset).state, clipId).value)
  {
    var c := GetClip(m.state, clipId).value;
    var angles := seq(|c.angles|, k requires 0 <= k < |c.angles| =>
                        if c.angles[k].id == angleId then c.angles[k].(syncOffset := syncOffset) else c.angles[k]);
    var u := ClipUpdate(Some(angles), None, None);
    GetClipAfterUpdate(m.state, clipId, u, clipId);
    var c' := ApplyUpdate(c, u);
    forall a | a in c.angles ensures a.id in AngleIds(c') {
      var j :| 0 <= j < |c.angles| && c.angles[j] == a;
      assert angles[j] in c'.angles;
    }
  }

  /** Adding an angle with a fresh identifier and then removing it gives
      back the clip's angles and switch points. */
  lemma AddThenRemoveAngle(m: Manager, clipId: string, mediaId: string, name: Option<string>, syncOffset: real,
                           assets: seq<MediaAsset>, angleId: string)
    requires GetClip(m.state, clipId).Some? && WellFormed(GetClip(m.state, clipId).value)
    requires angleId !in AngleIds(GetClip(m.state, clipId).value)
    ensures var m1 := AddAngle(m, clipId, mediaId, name, syncOffset, assets, angleId).0;
            var m2 := RemoveAngle(m1, clipId, angleId);
            && m2.Some?
            && GetClip(m2.value.state, clipId).Some?
            && GetClip(m2.value.state, clipId).value.angles == GetClip(m.state, clipId).value.angles
            && GetClip(m2.value.state, clipId).value.switchPoints == GetClip(m.state, clipId).value.switchPoints
  {
    var c := GetClip(m.state, clipId).value;
    var m1 := AddAngle(m, clipId, mediaId, name, syncOffset, assets, angleId).0;
    var c1 := GetClip(m1.state, clipId).value;
    assert c1.angles == c.angles + [c1.angles[|c.angles|]];
    forall k | 0 <= k < |c.angles| ensures c.angles[k].id != angleId {
      assert c.angles[k] in c.angles;
    }
    WithoutFreshAngle(c.angles, c1.angles[|c.angles|]);
    var remaining := WithoutAngle(c1.angles, angleId);
    forall k | 0 <= k < |c.switchPoints| ensures c.switchPoints[k].angleId != angleId {
      assert c.switchPoints[k].angleId in AngleIds(c);
    }
    var ps := Retarget(c1.switchPoints, angleId, remaining[0].id);
    assert ps == c.switchPoints;
    var u := ClipUpdate(Some(remaining), Some(ps), None);
    GetClipAfterUpdate(m1.state, clipId, u, clipId);
  }

  lemma {:induction false} WithoutFreshAngle(as_: seq<Angle>, a: Angle)
    requires forall k :: 0 <= k < |as_| ==> as_[k].id != a.id
    ensures WithoutAngle(as_ + [a], a.id) == as_
  {
    if |as_| == 0 {
      assert [a][1..] == [];
    } else {
      assert (as_ + [a])[1..] == as_[1..] + [a];
      WithoutFreshAngle(as_[1..], a);
      assert [as_[0]] + as_[1..] == as_;
    }
  }
}

=== FILE: multicam_export.dfy ===
/** Turning a multi-camera clip into a cut list: one cut per switch point
    (in time order) whose angle exists and whose span, up to the next point
    or the clip's end, is positive. The cut list feeds both the job
    descriptor for the export worker and the flattening of the clip into
    plain timeline elements. */
module MulticamExport {
  import opened Wrappers
  import opened Multicam
  import ExportSchema
  import Processor

  /** One cut: the switch point (by index in the time-ordered list), the
      angle it shows, and its span on the clip's time line. */
  datatype Cut = Cut(point: nat, angle: Angle, start: real, end: real)

  /** Where the span of point `i` ends: at the next point, or at the clip's
      end for the last point. */
  function EndOf(ps: seq<SwitchPoint>, duration: real, i: nat): real
    requires i < |ps|
  {
    if i + 1 < |ps| then ps[i + 1].time else duration
  }

  /** Point `i` yields a cut: its angle exists and its span is positive. */
  predicate Qualifies(angles: seq<Angle>, ps: seq<SwitchPoint>, duration: real, i: nat)
    requires i < |ps|
  {
    && Find(angles, AngleKey, ps[i].angleId).Some?
    && EndOf(ps, duration, i) - ps[i].time > 0.0
  }

  /** The cut of a qualifying point. */
  predicate IsCutOf(angles: seq<Angle>, ps: seq<SwitchPoint>, duration: real, x: Cut)
  {
    && x.point < |ps|
    && Qualifies(angles, ps, duration, x.point)
    && x.angle == Find(angles, AngleKey, ps[x.point].angleId).value
    && x.start == ps[x.point].time
    && x.end == EndOf(ps, duration, x.point)
  }

  /** The loop over the time-ordered points from index `i`, with its two
      `continue`s. */
  function CutsFrom(angles: seq<Angle>, ps: seq<SwitchPoint>, duration: real, i: nat): (r: seq<Cut>)
    requires i <= |ps|
    decreases |ps| - i
    ensures |r| <= |ps| - i
    ensures forall k :: 0 <= k < |r| ==> IsCutOf(angles, ps, duration, r[k]) && i <= r[k].point
  {
    if i == |ps| then []
    else
      var rest := CutsFrom(angles, ps, duration, i + 1);
      if Qualifies(angles, ps, duration, i) then
        [Cut(i, Find(angles, AngleKey, ps[i].angleId).value, ps[i].time, EndOf(ps, duration, i))] + rest
      else rest
  }

  /** The cuts keep the points' order. */
  lemma {:induction false} CutsFromIncreasing(angles: seq<Angle>, ps: seq<SwitchPoint>, duration: real, i: nat)
    requires i <= |ps|
    decreases |ps| - i
    ensures Increasing(CutsFrom(angles, ps, duration, i))
  {
    if i < |ps| {
      CutsFromIncreasing(angles, ps, duration, i + 1);
      if Qualifies(angles, ps, duration, i) {
        var rest := CutsFrom(angles, ps, duration, i + 1);
        var r := CutsFrom(angles, ps, duration, i);
        CutsFromStep(angles, ps, duration, i);
        IncreasingCons(r, rest, i);
      }
    }
  }

  /** A cut at point `i` put before increasing cuts at later points keeps
      them increasing. */
  lemma IncreasingCons(r: seq<Cut>, rest: seq<Cut>, i: nat)
    requires |r| == |rest| + 1 && r[1..] == rest && r[0].point == i
    requires Increasing(rest) && forall k :: 0 <= k < |rest| ==> i < rest[k].point
    ensures Increasing(r)
  {
    forall k, j | 0 <= k < j < |r| ensures r[k].point < r[j].point {
      assert r[j] == rest[j - 1];
      if k > 0 {
        assert r[k] == rest[k - 1];
      }
    }
  }

  ghost predicate Increasing(cs: seq<Cut>) {
    forall k, j :: 0 <= k < j < |cs| ==> cs[k].point < cs[j].point
  }

  ghost predicate HasCutAt(cs: seq<Cut>, j: nat) {
    exists k :: 0 <= k < |cs| && cs[k].point == j
  }

  /** One step of the loop. */
  lemma CutsFromStep(angles: seq<Angle>, ps: seq<SwitchPoint>, duration: real, i: nat)
    requires i < |ps|
    ensures Qualifies(angles, ps, duration, i) ==>
              && |CutsFrom(angles, ps, duration, i)| == |CutsFrom(angles, ps, duration, i + 1)| + 1
              && CutsFrom(angles, ps, duration, i)[0].point == i
              && CutsFrom(angles, ps, duration, i)[1..] == CutsFrom(angles, ps, duration, i + 1)
    ensures !Qualifies(angles, ps, duration, i) ==>
              CutsFrom(angles, ps, duration, i) == CutsFrom(angles, ps, duration, i + 1)
  {
  }

  /** Every qualifying point has its cut. */
  lemma {:induction false} CutsFromComplete(angles: seq<Angle>, ps: seq<SwitchPoint>, duration: real, i: nat, j: nat)
    requires i <= j < |ps| && Qualifies(angles, ps, duration, j)
    decreases |ps| - i
    ensures HasCutAt(CutsFrom(angles, ps, duration, i), j)
  {
    var r := CutsFrom(angles, ps, duration, i);
    CutsFromStep(angles, ps, duration, i);
    if i == j {
      assert r[0].point == j;
    } else {
      CutsFromComplete(angles, ps, duration, i + 1, j);
      if Qualifies(angles, ps, duration, i) {
        HasCutCons(r, CutsFrom(angles, ps, duration, i + 1), j);
      }
    }
  }

  lemma HasCutCons(r: seq<Cut>, rest: seq<Cut>, j: nat)
    requires |r| == |rest| + 1 && r[1..] == rest && HasCutAt(rest, j)
    ensures HasCutAt(r, j)
  {
    var k :| 0 <= k < |rest| && rest[k].point == j;
    assert r[k + 1] == rest[k];
  }

  /** The cuts of a clip. */
  function Cuts(c: Clip): seq<Cut> {
    CutsFrom(c.angles, SortByTime(c.switchPoints), c.duration, 0)
  }

  /** Every cut is a positive span, and cuts follow one another without
      overlapping. */
  lemma CutsOrdered(c: Clip)
    ensures var ps := SortByTime(c.switchPoints);
            var cs := Cuts(c);
            && (forall k :: 0 <= k < |cs| ==> cs[k].start < cs[k].end && cs[k].angle in c.angles)
            && (forall k, j :: 0 <= k < j < |cs| ==> cs[k].end <= cs[j].start)
  {
    var ps := SortByTime(c.switchPoints);
    var cs := Cuts(c);
    SortByTimeSorted(c.switchPoints);
    CutsFromIncreasing(c.angles, ps, c.duration, 0);
    forall k, j | 0 <= k < j < |cs| ensures cs[k].end <= cs[j].start {
      assert cs[k].point < cs[j].point;
      assert ps[cs[k].point + 1].time <= ps[cs[j].point].time;
    }
  }

  /** When every point qualifies there is a cut per point, and each cut
      ends where the next begins. */
  lemma {:induction false} CutsEveryPoint(angles: seq<Angle>, ps: seq<SwitchPoint>, duration: real, i: nat)
    requires i <= |ps|
    requires forall j :: i <= j < |ps| ==> Qualifies(angles, ps, duration, j)
    decreases |ps| - i
    ensures var cs := CutsFrom(angles, ps, duration, i);
            && |cs| == |ps| - i
            && (forall k :: 0 <= k < |cs| ==> cs[k].point == i + k)
  {
    if i < |ps| {
      CutsEveryPoint(angles, ps, duration, i + 1);
    }
  }

  /** A well-formed clip whose points are strictly increasing in time and
      start before its end plays without gaps: the cuts run contiguously
      from the first point to the clip's end. */
  lemma CutsContiguous(c: Clip)
    requires WellFormed(c)
    requires forall k :: 0 <= k < |c.switchPoints| - 1 ==> c.switchPoints[k].time < c.switchPoints[k + 1].time
    requires c.switchPoints[|c.switchPoints| - 1].time < c.duration
    ensures var cs := Cuts(c);
            && |cs| == |c.switchPoints|
            && cs[0].start == c.switchPoints[0].time
            && cs[|cs| - 1].end == c.duration
            && (forall k :: 0 <= k < |cs| - 1 ==> cs[k].end == cs[k + 1].start)
  {
    SortByTimeOfSorted(c.switchPoints);
    assert Cuts(c) == CutsFrom(c.angles, c.switchPoints, c.duration, 0);
    PointsQualify(c);
    ContiguousFrom(c.angles, c.switchPoints, c.duration);
  }

  /** In a well-formed clip, strictly increasing points whose last comes
      before the end all qualify. */
  lemma PointsQualify(c: Clip)
    requires WellFormed(c)
    requires forall k :: 0 <= k < |c.switchPoints| - 1 ==> c.switchPoints[k].time < c.switchPoints[k + 1].time
    requires c.switchPoints[|c.switchPoints| - 1].time < c.duration
    ensures forall j :: 0 <= j < |c.switchPoints| ==> Qualifies(c.angles, c.switchPoints, c.duration, j)
  {
    var ps := c.switchPoints;
    forall j | 0 <= j < |ps| ensures Qualifies(c.angles, ps, c.duration, j) {
      assert ps[j].angleId in AngleIds(c);
      var a :| a in c.angles && a.id == ps[j].angleId;
      var i :| 0 <= i < |c.angles| && c.angles[i] == a;
      assert AngleKey(c.angles[i]) == ps[j].angleId;
    }
  }

  /** When every point qualifies, the cuts run from the first point to the
      end, each ending where the next begins. */
  lemma ContiguousFrom(angles: seq<Angle>, ps: seq<SwitchPoint>, duration: real)
    requires |ps| > 0
    requires forall j :: 0 <= j < |ps| ==> Qualifies(angles, ps, duration, j)
    ensures var cs := CutsFrom(angles, ps, duration, 0);
            && |cs| == |ps|
            && cs[0].start == ps[0].time
            && cs[|cs| - 1].end == duration
            && (forall k :: 0 <= k < |cs| - 1 ==> cs[k].end == cs[k + 1].start)
  {
    CutsEveryPoint(angles, ps, duration, 0);
  }

  // ---------------------------------------------------------------------------
  // The job descriptor
  // ---------------------------------------------------------------------------

  /** The active project's settings the descriptor reads. */
  datatype Project = Project(id: string, name: string, width: real, height: real, fps: real)

  /** The options of `generateExportConfig`. */
  datatype ExportOptions = ExportOptions(
    clipId: Option<string>, format: ExportSchema.Format, includeAudio: bool, mediaBasePath: string)

  const DefaultWidth: real := 1920.0
  const DefaultHeight: real := 1080.0
  const DefaultFps: real := 30.0

  /** The clip an export is for: the one asked for, else the active one, else
      the first; `??` only skips absent values. */
  function ResolvedClipId(s: State, requested: Option<string>): (r: Option<string>)
    ensures r.None? <==> requested.None? && s.activeClipId.None? && |s.clips| == 0
    ensures requested.Some? ==> r == requested
    ensures requested.None? && s.activeClipId.Some? ==> r == s.activeClipId
    ensures r.Some? && r != requested && r != s.activeClipId ==> |s.clips| > 0 && r == Some(s.clips[0].id)
  {
    if requested.Some? then requested
    else if s.activeClipId.Some? then s.activeClipId
    else if |s.clips| > 0 then Some(s.clips[0].id)
    else None
  }

  /** The asset's name, or the medium's identifier when no asset matches. */
  function MediaFileName(assets: seq<MediaAsset>, mediaId: string): string {
    match Find(assets, AssetKey, mediaId)
    case Some(a) => a.name
    case None => mediaId
  }

  /** The source entry of an angle: the medium's file under the base path,
      with the asset's dimensions. */
  function SourceOf(a: Angle, assets: seq<MediaAsset>, base: string): (r: ExportSchema.SourceInput)
    ensures r.id == a.mediaId && r.hasAudio == Some(true)
    ensures base != "" ==> r.filePath == base + "/" + MediaFileName(assets, a.mediaId)
    ensures base == "" ==> r.filePath == MediaFileName(assets, a.mediaId)
    ensures r.name == a.name
  {
    var asset := Find(assets, AssetKey, a.mediaId);
    var file := MediaFileName(assets, a.mediaId);
    ExportSchema.SourceInput(
      a.mediaId, a.name, if base != "" then base + "/" + file else file,
      if asset.Some? then asset.value.width else None,
      if asset.Some? then asset.value.height else None,
      if asset.Some? then asset.value.duration else None,
      if asset.Some? then asset.value.fps else None,
      Some(true))
  }

  /** The segment of a cut: the source of the last angle carrying the point's
      identifier, the span shifted by the angle's sync offset. */
  function SegmentOf(x: Cut, angles: seq<Angle>, includeAudio: bool): (r: ExportSchema.SegmentInput)
    ensures r.startTime == x.start + x.angle.syncOffset && r.endTime - r.startTime == x.end - x.start
    ensures r.audioFromSource == Some(includeAudio)
    ensures (forall k :: 0 <= k < |angles| ==> angles[k].id != x.angle.id) ==> r.sourceIndex == 0.0
    ensures (exists k :: 0 <= k < |angles| && angles[k].id == x.angle.id) ==>
              exists k :: 0 <= k < |angles| && angles[k].id == x.angle.id && r.sourceIndex == k as real
                          && forall j :: k < j < |angles| ==> angles[j].id != x.angle.id
  {
    var index := LastIndex(angles, AngleKey, x.angle.id).GetOr(0);
    assert forall k :: 0 <= k < |angles| ==> AngleKey(angles[k]) == angles[k].id;
    ExportSchema.SegmentInput(index as real, x.start + x.angle.syncOffset, x.end + x.angle.syncOffset, Some(includeAudio))
  }

  function OutputPath(exportId: string, format: ExportSchema.Format): string {
    "exports/" + exportId + "/output." + ExportSchema.FormatName(format)
  }

  /** The output section: the project's canvas and frame rate (1920 by 1080
      at 30 without a project), stream copy, under the export's folder. */
  function OutputOf(project: Option<Project>, opts: ExportOptions, exportId: string): (r: ExportSchema.OutputInput)
    ensures r.filePath == OutputPath(exportId, opts.format) && r.codec == Some("copy")
    ensures r.format == Some(ExportSchema.FormatName(opts.format)) && r.includeAudio == Some(opts.includeAudio)
    ensures project.None? ==> r.width == Some(DefaultWidth) && r.height == Some(DefaultHeight) && r.fps == Some(DefaultFps)
    ensures project.Some? ==> r.width == Some(project.value.width) && r.height == Some(project.value.height)
                              && r.fps == Some(project.value.fps)
  {
    var width := if project.Some? then project.value.width else DefaultWidth;
    var height := if project.Some? then project.value.height else DefaultHeight;
    var fps := if project.Some? then project.value.fps else DefaultFps;
    ExportSchema.OutputInput(OutputPath(exportId, opts.format), Some(ExportSchema.FormatName(opts.format)),
                             Some(width), Some(height), Some(fps), Some("copy"), Some(opts.includeAudio))
  }

  /** The output section passes validation when the project's settings are
      in range; the defaults always are. */
  lemma OutputFits(project: Option<Project>, opts: ExportOptions, exportId: string)
    requires project.Some? ==> ProjectFits(project.value)
    ensures ExportSchema.ParseOutput(OutputOf(project, opts, exportId)).Ok?
    ensures ExportSchema.ParseOutput(OutputOf(project, opts, exportId)).value.format == opts.format
    ensures ExportSchema.ParseOutput(OutputOf(project, opts, exportId)).value.codec == ExportSchema.Copy
  {
    ExportSchema.EnumRoundTrip(opts.format, ExportSchema.Copy, ExportSchema.Pending);
    assert ExportSchema.IsInteger(DefaultWidth) && ExportSchema.IsInteger(DefaultHeight);
  }

  /** `generateExportConfig`: `None` when no clip resolves, the clip has no
      switch points, or no cut survives. The export identifier's random part
      and the creation time are parameters. */
  function GenerateExportConfig(s: State, opts: ExportOptions, project: Option<Project>,
                                assets: seq<MediaAsset>, uuid: string, now: string): (r: Option<ExportSchema.ConfigInput>)
    ensures r.Some? ==> ResolvedClipId(s, opts.clipId).Some? && GetClip(s, ResolvedClipId(s, opts.clipId).value).Some?
    ensures r.Some? ==>
              var c := GetClip(s, ResolvedClipId(s, opts.clipId).value).value;
              var x := r.value;
              && x.version == 1.0 && x.id == "export-" + uuid && x.createdAt == now
              && x.status == Some("pending")
              && |x.sources| == |c.angles|
              && |x.segments| == |Cuts(c)| > 0
              && (forall k :: 0 <= k < |c.angles| ==> x.sources[k] == SourceOf(c.angles[k], assets, opts.mediaBasePath))
              && (forall k :: 0 <= k < |Cuts(c)| ==> x.segments[k] == SegmentOf(Cuts(c)[k], c.angles, opts.includeAudio))
              && x.output == OutputOf(project, opts, x.id)
              && x.projectId == (if project.Some? then project.value.id else "")
              && x.projectName == (if project.Some? then project.value.name else "Untitled")
    ensures r.None? <==> !Truthy(ResolvedClipId(s, opts.clipId))
                         || GetClip(s, ResolvedClipId(s, opts.clipId).value).None?
                         || |GetClip(s, ResolvedClipId(s, opts.clipId).value).value.switchPoints| == 0
                         || |Cuts(GetClip(s, ResolvedClipId(s, opts.clipId).value).value)| == 0
  {
    var resolved := ResolvedClipId(s, opts.clipId);
    if !Truthy(resolved) then None
    else
      match GetClip(s, resolved.value)
      case None => None
      case Some(c) =>
        if |c.switchPoints| == 0 then None
        else
          var cuts := Cuts(c);
          if |cuts| == 0 then None
          else Some(ConfigOf(c.angles, cuts, opts, project, assets, uuid, now))
  }

  /** The descriptor of a clip whose angles and cuts are known. */
  function ConfigOf(angles: seq<Angle>, cuts: seq<Cut>, opts: ExportOptions, project: Option<Project>,
                    assets: seq<MediaAsset>, uuid: string, now: string): (x: ExportSchema.ConfigInput)
    ensures && x.version == 1.0 && x.id == "export-" + uuid && x.createdAt == now
            && x.status == Some("pending")
            && |x.sources| == |angles|
            && |x.segments| == |cuts|
            && (forall k :: 0 <= k < |angles| ==> x.sources[k] == SourceOf(angles[k], assets, opts.mediaBasePath))
            && (forall k :: 0 <= k < |cuts| ==> x.segments[k] == SegmentOf(cuts[k], angles, opts.includeAudio))
            && x.output == OutputOf(project, opts, x.id)
            && x.projectId == (if project.Some? then project.value.id else "")
            && x.projectName == (if project.Some? then project.value.name else "Untitled")
  {
    var sources := seq(|angles|, k requires 0 <= k < |angles| => SourceOf(angles[k], assets, opts.mediaBasePath));
    var segments := seq(|cuts|, k requires 0 <= k < |cuts| => SegmentOf(cuts[k], angles, opts.includeAudio));
    var exportId := "export-" + uuid;
    ExportSchema.ConfigInput(1.0, exportId,
                             if project.Some? then project.value.id else "",
                             if project.Some? then project.value.name else "Untitled",
                             now, sources, segments, OutputOf(project, opts, exportId), Some("pending"))
  }

  /** A source copies the size, duration and frame rate of the first asset
      of its medium, and has none of them when no asset matches. */
  lemma SourceOfAsset(a: Angle, assets: seq<MediaAsset>, base: string, i: nat)
    requires i < |assets| && assets[i].id == a.mediaId
    requires forall j :: 0 <= j < i ==> assets[j].id != a.mediaId
    ensures var r := SourceOf(a, assets, base);
            && r.width == assets[i].width && r.height == assets[i].height
            && r.duration == assets[i].duration && r.fps == assets[i].fps
  {
    FindFirst(assets, AssetKey, a.mediaId, i);
  }

  lemma SourceOfNoAsset(a: Angle, assets: seq<MediaAsset>, base: string)
    requires forall j :: 0 <= j < |assets| ==> assets[j].id != a.mediaId
    ensures var r := SourceOf(a, assets, base);
            r.width.None? && r.height.None? && r.duration.None? && r.fps.None?
  {
  }

  /** `index` is a position of a list of length `n`. */
  predicate IsPosition(index: real, n: nat) {
    ExportSchema.IsInteger(index) && 0.0 <= index < n as real
  }

  /** Every segment of a generated descriptor names the source of an angle
      that carries the cut's angle identifier: the index is in range. */
  lemma SegmentsResolve(c: Clip, includeAudio: bool)
    ensures forall k :: 0 <= k < |Cuts(c)| ==>
              var i := SegmentOf(Cuts(c)[k], c.angles, includeAudio).sourceIndex;
              IsPosition(i, |c.angles|) && c.angles[i.Floor].id == Cuts(c)[k].angle.id
  {
    forall k | 0 <= k < |Cuts(c)|
      ensures var i := SegmentOf(Cuts(c)[k], c.angles, includeAudio).sourceIndex;
              IsPosition(i, |c.angles|) && c.angles[i.Floor].id == Cuts(c)[k].angle.id
    {
      var x := Cuts(c)[k];
      assert x.angle in c.angles;
      var j0 :| 0 <= j0 < |c.angles| && c.angles[j0] == x.angle;
      assert AngleKey(c.angles[j0]) == x.angle.id;
      var j := LastIndex(c.angles, AngleKey, x.angle.id).value;
      assert c.angles[j].id == x.angle.id;
      assert (j as real).Floor == j;
    }
  }

  /** The assets a descriptor copies dimensions from satisfy the source
      schema. */
  predicate AssetFits(m: MediaAsset) {
    && ExportSchema.OptPositiveInt(m.width) && ExportSchema.OptPositiveInt(m.height)
    && ExportSchema.OptNonNegative(m.duration) && ExportSchema.OptPositive(m.fps)
  }

  predicate ProjectFits(p: Project) {
    ExportSchema.IsInteger(p.width) && p.width > 0.0 && ExportSchema.IsInteger(p.height) && p.height > 0.0 && p.fps > 0.0
  }

  /** A generated descriptor passes the export route's validation when the
      time stamp is a date, the assets and project settings are in range,
      and no cut starts before its angle's media (start plus sync offset is
      not negative); the job it describes then never stops on an unresolved
      source index. */
  lemma GeneratedConfigAccepted(s: State, opts: ExportOptions, project: Option<Project>,
                                assets: seq<MediaAsset>, uuid: string, now: string, isDateTime: string -> bool)
    requires GenerateExportConfig(s, opts, project, assets, uuid, now).Some?
    requires isDateTime(now)
    requires forall k :: 0 <= k < |assets| ==> AssetFits(assets[k])
    requires project.Some? ==> ProjectFits(project.value)
    requires var c := GetClip(s, ResolvedClipId(s, opts.clipId).value).value;
             forall k :: 0 <= k < |Cuts(c)| ==> Cuts(c)[k].start + Cuts(c)[k].angle.syncOffset >= 0.0
    ensures var x := GenerateExportConfig(s, opts, project, assets, uuid, now).value;
            && ExportSchema.ParseConfig(x, isDateTime).Ok?
            && forall i :: 0 <= i < |ExportSchema.ParseConfig(x, isDateTime).value.segments| ==>
                 Processor.Resolves(ExportSchema.ParseConfig(x, isDateTime).value, i)
  {
    var c := GetClip(s, ResolvedClipId(s, opts.clipId).value).value;
    var x := GenerateExportConfig(s, opts, project, assets, uuid, now).value;
    GeneratedConfigParses(c, x, opts, project, assets, isDateTime);
    GeneratedConfigResolves(c, x, opts.includeAudio, isDateTime);
  }

  /** The field-by-field half of `GeneratedConfigAccepted`. */
  lemma GeneratedConfigParses(c: Clip, x: ExportSchema.ConfigInput, opts: ExportOptions, project: Option<Project>,
                              assets: seq<MediaAsset>, isDateTime: string -> bool)
    requires x.version == 1.0 && isDateTime(x.createdAt) && x.status == Some("pending")
    requires |x.sources| == |c.angles| && |x.segments| == |Cuts(c)| > 0
    requires forall k :: 0 <= k < |c.angles| ==> x.sources[k] == SourceOf(c.angles[k], assets, opts.mediaBasePath)
    requires forall k :: 0 <= k < |Cuts(c)| ==> x.segments[k] == SegmentOf(Cuts(c)[k], c.angles, opts.includeAudio)
    requires x.output == OutputOf(project, opts, x.id)
    requires forall k :: 0 <= k < |assets| ==> AssetFits(assets[k])
    requires project.Some? ==> ProjectFits(project.value)
    requires forall k :: 0 <= k < |Cuts(c)| ==> Cuts(c)[k].start + Cuts(c)[k].angle.syncOffset >= 0.0
    ensures ExportSchema.ParseConfig(x, isDateTime).Ok?
  {
    SourcesParse(c, x, assets, opts.mediaBasePath);
    SegmentsParse(c, x, opts.includeAudio);
    OutputFits(project, opts, x.id);
    CutsOrdered(c);
    assert Cuts(c)[0].angle in c.angles;
    assert ExportSchema.ParseStatus("pending").Some?;
  }

  /** The resolution half of `GeneratedConfigAccepted`. */
  lemma GeneratedConfigResolves(c: Clip, x: ExportSchema.ConfigInput, includeAudio: bool, isDateTime: string -> bool)
    requires ExportSchema.ParseConfig(x, isDateTime).Ok?
    requires |x.sources| == |c.angles| && |x.segments| == |Cuts(c)|
    requires forall k :: 0 <= k < |Cuts(c)| ==> x.segments[k] == SegmentOf(Cuts(c)[k], c.angles, includeAudio)
    requires forall k :: 0 <= k < |Cuts(c)| ==> Cuts(c)[k].start + Cuts(c)[k].angle.syncOffset >= 0.0
    ensures forall i :: 0 <= i < |ExportSchema.ParseConfig(x, isDateTime).value.segments| ==>
              Processor.Resolves(ExportSchema.ParseConfig(x, isDateTime).value, i)
  {
    SegmentsFit(c, includeAudio);
    ParsedResolves(x, isDateTime);
  }

  lemma SourcesParse(c: Clip, x: ExportSchema.ConfigInput, assets: seq<MediaAsset>, base: string)
    requires |x.sources| == |c.angles|
    requires forall k :: 0 <= k < |c.angles| ==> x.sources[k] == SourceOf(c.angles[k], assets, base)
    requires forall k :: 0 <= k < |assets| ==> AssetFits(assets[k])
    ensures forall j :: 0 <= j < |x.sources| ==> ExportSchema.ParseSource(x.sources[j], j).Ok?
  {
    SourcesFit(c.angles, assets, base);
  }

  lemma SegmentsParse(c: Clip, x: ExportSchema.ConfigInput, includeAudio: bool)
    requires |x.segments| == |Cuts(c)|
    requires forall k :: 0 <= k < |Cuts(c)| ==> x.segments[k] == SegmentOf(Cuts(c)[k], c.angles, includeAudio)
    requires forall k :: 0 <= k < |Cuts(c)| ==> Cuts(c)[k].start + Cuts(c)[k].angle.syncOffset >= 0.0
    ensures forall j :: 0 <= j < |x.segments| ==> ExportSchema.ParseSegment(x.segments[j], j).Ok?
  {
    SegmentsFit(c, includeAudio);
  }

  lemma SourcesFit(angles: seq<Angle>, assets: seq<MediaAsset>, base: string)
    requires forall k :: 0 <= k < |assets| ==> AssetFits(assets[k])
    ensures forall j :: 0 <= j < |angles| ==> ExportSchema.ParseSource(SourceOf(angles[j], assets, base), j).Ok?
  {
    forall j | 0 <= j < |angles| ensures ExportSchema.ParseSource(SourceOf(angles[j], assets, base), j).Ok? {
      var asset := Find(assets, AssetKey, angles[j].mediaId);
      if asset.Some? {
        var i :| 0 <= i < |assets| && assets[i] == asset.value;
        assert AssetFits(assets[i]);
      }
    }
  }

  lemma SegmentsFit(c: Clip, includeAudio: bool)
    requires forall k :: 0 <= k < |Cuts(c)| ==> Cuts(c)[k].start + Cuts(c)[k].angle.syncOffset >= 0.0
    ensures forall j :: 0 <= j < |Cuts(c)| ==>
              && ExportSchema.ParseSegment(SegmentOf(Cuts(c)[j], c.angles, includeAudio), j).Ok?
              && IsPosition(SegmentOf(Cuts(c)[j], c.angles, includeAudio).sourceIndex, |c.angles|)
  {
    SegmentsResolve(c, includeAudio);
    CutsOrdered(c);
  }

  /** A descriptor whose segment indexes are positions of its sources parses
      into a job whose every segment resolves. */
  lemma ParsedResolves(x: ExportSchema.ConfigInput, isDateTime: string -> bool)
    requires ExportSchema.ParseConfig(x, isDateTime).Ok?
    requires forall k :: 0 <= k < |x.segments| ==> IsPosition(x.segments[k].sourceIndex, |x.sources|)
    ensures var c := ExportSchema.ParseConfig(x, isDateTime).value;
            forall i :: 0 <= i < |c.segments| ==> Processor.Resolves(c, i)
  {
    var c := ExportSchema.ParseConfig(x, isDateTime).value;
    var parsed := ExportSchema.ParseSegments(x.segments, 0).value;
    var sources := ExportSchema.ParseSources(x.sources, 0).value;
    assert c.segments == parsed && c.sources == sources;
    forall i | 0 <= i < |c.segments| ensures Processor.Resolves(c, i) {
      assert parsed[i - 0] == ExportSchema.ParseSegment(x.segments[i], i).value;
      assert parsed[i].sourceIndex as real == x.segments[i].sourceIndex;
    }
  }

  /** A negative sync offset on the angle shown from time 0 makes the
      descriptor fail validation at the first segment's start time. */
  lemma NegativeOffsetRejected(uuid: string, now: string, isDateTime: string -> bool)
    ensures var a := Angle("a", "A", "m", -1.0, None);
            var c := Clip("c", "C", [a], [SwitchPoint(0.0, "a")], 5.0, Manual, 0);
            var s := State([c], None, false, false);
            var x := GenerateExportConfig(s, ExportOptions(Some("c"), ExportSchema.Mp4, true, ""), None, [], uuid, now);
            && x.Some?
            && x.value.segments[0].startTime == -1.0
            && ExportSchema.ParseConfig(x.value, isDateTime).Err?
  {
    var a := Angle("a", "A", "m", -1.0, None);
    var c := Clip("c", "C", [a], [SwitchPoint(0.0, "a")], 5.0, Manual, 0);
    SortByTimeOfSorted(c.switchPoints);
    assert Qualifies(c.angles, c.switchPoints, c.duration, 0);
    assert Cuts(c)[0].point == 0;
    var x := GenerateExportConfig(State([c], None, false, false),
                                  ExportOptions(Some("c"), ExportSchema.Mp4, true, ""), None, [], uuid, now);
    NegativeStartRejected(x.value, isDateTime);
  }

  /** A descriptor whose first segment starts before zero is refused. */
  lemma NegativeStartRejected(x: ExportSchema.ConfigInput, isDateTime: string -> bool)
    requires |x.segments| > 0 && x.segments[0].startTime < 0.0
    ensures ExportSchema.ParseConfig(x, isDateTime).Err?
  {
    assert ExportSchema.ParseSegment(x.segments[0], 0).Err?;
  }

  // ---------------------------------------------------------------------------
  // Flattening to timeline elements
  // ---------------------------------------------------------------------------

  datatype Transform = Transform(scale: real, x: real, y: real, rotate: real)

  const DefaultTransform := Transform(1.0, 0.0, 0.0, 0.0)

  /** A plain video element on the timeline, tagged with the clip and angle
      it came from. */
  datatype Element = Element(
    id: string, name: string, mediaId: string,
    startTime: real, duration: real, trimStart: real, trimEnd: real,
    transform: Transform, opacity: real,
    multicamClipId: string, multicamAngleId: string)

  /** `flattenToTimeline`: one element per cut, placed at the cut's start,
      trimmed into the angle's media by the sync offset. `newId(k)` is the
      identifier generated for the `k`-th element; the elements are handed to
      the timeline in this order. */
  function FlattenToTimeline(s: State, clipId: string, newId: nat -> string): (r: seq<Element>)
    ensures GetClip(s, clipId).None? ==> r == []
    ensures GetClip(s, clipId).Some? ==>
              var c := GetClip(s, clipId).value;
              && |r| == |Cuts(c)|
              && forall k :: 0 <= k < |r| ==>
                   && r[k].id == newId(k)
                   && r[k].startTime == Cuts(c)[k].start
                   && r[k].duration == Cuts(c)[k].end - Cuts(c)[k].start > 0.0
                   && r[k].trimStart == Cuts(c)[k].start + Cuts(c)[k].angle.syncOffset
                   && r[k].multicamClipId == clipId && r[k].multicamAngleId == Cuts(c)[k].angle.id
                   && r[k].mediaId == Cuts(c)[k].angle.mediaId && r[k].name == Cuts(c)[k].angle.name
                   && r[k].trimEnd == 0.0 && r[k].transform == DefaultTransform && r[k].opacity == 1.0
  {
    match GetClip(s, clipId)
    case None => []
    case Some(c) =>
      if |c.switchPoints| == 0 then []
      else
        var cuts := Cuts(c);
        seq(|cuts|, k requires 0 <= k < |cuts| =>
              var x := cuts[k];
              Element(newId(k), x.angle.name, x.angle.mediaId,
                      x.start, x.end - x.start, x.start + x.angle.syncOffset, 0.0,
                      DefaultTransform, 1.0, clipId, x.angle.id))
  }

  /** Flattening and exporting cut a clip the same way: element `k` covers
      segment `k`'s span, shifted back by the angle's offset, and (with
      distinct angle identifiers) comes from segment `k`'s source medium. */
  lemma FlattenMatchesExport(s: State, opts: ExportOptions, project: Option<Project>,
                             assets: seq<MediaAsset>, uuid: string, now: string, newId: nat -> string)
    requires GenerateExportConfig(s, opts, project, assets, uuid, now).Some?
    requires var c := GetClip(s, ResolvedClipId(s, opts.clipId).value).value;
             forall i, j :: 0 <= i < j < |c.angles| ==> c.angles[i].id != c.angles[j].id
    ensures var id := ResolvedClipId(s, opts.clipId).value;
            var x := GenerateExportConfig(s, opts, project, assets, uuid, now).value;
            var es := FlattenToTimeline(s, id, newId);
            && |es| == |x.segments|
            && forall k :: 0 <= k < |es| ==>
                 && es[k].trimStart == x.segments[k].startTime
                 && es[k].trimStart + es[k].duration == x.segments[k].endTime
                 && IsPosition(x.segments[k].sourceIndex, |x.sources|)
                 && x.sources[x.segments[k].sourceIndex.Floor].id == es[k].mediaId
  {
    var id := ResolvedClipId(s, opts.clipId).value;
    var c := GetClip(s, id).value;
    var x := GenerateExportConfig(s, opts, project, assets, uuid, now).value;
    ElementsMatchSegments(c, x, FlattenToTimeline(s, id, newId), opts.includeAudio);
  }

  /** The elements of a clip's cuts against the segments of the same cuts. */
  lemma ElementsMatchSegments(c: Clip, x: ExportSchema.ConfigInput, es: seq<Element>, includeAudio: bool)
    requires forall i, j :: 0 <= i < j < |c.angles| ==> c.angles[i].id != c.angles[j].id
    requires |x.sources| == |c.angles| && |x.segments| == |Cuts(c)| == |es|
    requires forall k :: 0 <= k < |c.angles| ==> x.sources[k].id == c.angles[k].mediaId
    requires forall k :: 0 <= k < |Cuts(c)| ==> x.segments[k] == SegmentOf(Cuts(c)[k], c.angles, includeAudio)
    requires forall k :: 0 <= k < |es| ==>
               && es[k].duration == Cuts(c)[k].end - Cuts(c)[k].start
               && es[k].trimStart == Cuts(c)[k].start + Cuts(c)[k].angle.syncOffset
               && es[k].mediaId == Cuts(c)[k].angle.mediaId
    ensures forall k :: 0 <= k < |es| ==>
              && es[k].trimStart == x.segments[k].startTime
              && es[k].trimStart + es[k].duration == x.segments[k].endTime
              && IsPosition(x.segments[k].sourceIndex, |x.sources|)
              && x.sources[x.segments[k].sourceIndex.Floor].id == es[k].mediaId
  {
    SegmentsResolve(c, includeAudio);
    forall k | 0 <= k < |es|
      ensures x.sources[x.segments[k].sourceIndex.Floor].id == es[k].mediaId
    {
      var cut := Cuts(c)[k];
      var j := x.segments[k].sourceIndex.Floor;
      assert c.angles[j].id == cut.angle.id;
      assert cut.angle in c.angles;
      var j0 :| 0 <= j0 < |c.angles| && c.angles[j0] == cut.angle;
      assert j0 == j;
    }
  }
}

=== FILE: multicam_preview.dfy ===
/** The multicam preview panel: the grid the angles are tiled in, the
    letterboxed placement of each angle's frame in its tile, and the source
    time each tile samples. */
module MulticamPreview {
  import Multicam
  import MulticamExport

  datatype Grid = Grid(cols: nat, rows: nat)

  /** `getGridLayout`: a fixed table up to nine angles, then four columns and
      as many rows as needed. */
  function GridLayout(count: int): (g: Grid)
    ensures count <= 1 ==> g == Grid(1, 1)
    ensures 1 <= g.cols <= 4 && 1 <= g.rows
    ensures g.cols * g.rows >= count
    ensures count >= 1 ==> g.cols * (g.rows - 1) < count
    ensures count > 9 ==> g.cols == 4 && 4 * g.rows >= count > 4 * (g.rows - 1)
  {
    if count <= 1 then Grid(1, 1)
    else if count <= 2 then Grid(2, 1)
    else if count <= 4 then Grid(2, 2)
    else if count <= 6 then Grid(3, 2)
    else if count <= 9 then Grid(3, 3)
    else Grid(4, (count + 3) / 4)
  }

  /** The grid is never taller than it is wide, and adding angles never
      shrinks it. */
  lemma GridShapeMonotone(count: int, more: int)
    requires count <= more
    ensures GridLayout(count).rows <= GridLayout(count).cols
            || (count > 9 && GridLayout(count).rows > 4)
    ensures GridLayout(count).cols <= GridLayout(more).cols
    ensures GridLayout(count).rows <= GridLayout(more).rows
  {
    if count > 9 {
      DivMonotone(count + 3, more + 3);
    } else if more > 9 {
      assert (more + 3) / 4 >= 3;
    }
  }

  lemma DivMonotone(a: int, b: int)
    requires 0 <= a <= b
    ensures a / 4 <= b / 4
  {
  }

  // ---------------------------------------------------------------------------
  // Letterbox
  // ---------------------------------------------------------------------------

  datatype Placement = Placement(x: real, y: real, w: real, h: real)

  /** The placement of a `srcW` × `srcH` frame in a `canvasW` × `canvasH`
      tile: a frame wider than the tile spans its width and is centred
      vertically; any other spans its height and is centred horizontally.
      Every size is positive: the tile is a fixed 480 × 270 canvas and a
      decoded frame has pixels. */
  function Letterbox(srcW: real, srcH: real, canvasW: real, canvasH: real): (p: Placement)
    requires srcW > 0.0 && srcH > 0.0 && canvasW > 0.0 && canvasH > 0.0
    ensures p.w == canvasW || p.h == canvasH
  {
    var videoAspect := srcW / srcH;
    var canvasAspect := canvasW / canvasH;
    if videoAspect > canvasAspect then
      var drawH := canvasW / videoAspect;
      Placement(0.0, (canvasH - drawH) / 2.0, canvasW, drawH)
    else
      var drawW := canvasH * videoAspect;
      Placement((canvasW - drawW) / 2.0, 0.0, drawW, canvasH)
  }

  /** The frame fits the tile, keeps its aspect ratio, fills one dimension
      and is centred in the other. */
  lemma LetterboxFits(srcW: real, srcH: real, canvasW: real, canvasH: real)
    requires srcW > 0.0 && srcH > 0.0 && canvasW > 0.0 && canvasH > 0.0
    ensures var p := Letterbox(srcW, srcH, canvasW, canvasH);
            && 0.0 <= p.x && 0.0 <= p.y && 0.0 < p.w && 0.0 < p.h
            && p.x + p.w <= canvasW && p.y + p.h <= canvasH
            && p.w * srcH == p.h * srcW
            && p.x + p.w / 2.0 == canvasW / 2.0 && p.y + p.h / 2.0 == canvasH / 2.0
  {
    var p := Letterbox(srcW, srcH, canvasW, canvasH);
    var va := srcW / srcH;
    assert va * srcH == srcW;
    if va > canvasW / canvasH {
      CrossMultiply(srcW, srcH, canvasW, canvasH);
      assert srcW * canvasH > canvasW * srcH;
      assert p.h == canvasW * srcH / srcW;
      assert p.h * srcW == canvasW * srcH;
      ScaledBelow(canvasW * srcH, srcW, canvasH);
    } else {
      CrossMultiply(canvasW, canvasH, srcW, srcH);
      assert canvasW * srcH >= srcW * canvasH;
      assert p.w == canvasH * srcW / srcH;
      assert p.w * srcH == canvasH * srcW;
      ScaledAtMost(canvasH * srcW, srcH, canvasW);
    }
  }

  /** `a / b > c / d` exactly when `a·d > c·b`, for positive denominators. */
  lemma CrossMultiply(a: real, b: real, c: real, d: real)
    requires b > 0.0 && d > 0.0
    ensures a / b > c / d <==> a * d > c * b
  {
    assert a / b - c / d == (a * d - c * b) / (b * d);
  }

  lemma ScaledBelow(x: real, s: real, bound: real)
    requires s > 0.0 && x < bound * s
    ensures x / s < bound
  {
    assert bound - x / s == (bound * s - x) / s;
  }

  lemma ScaledAtMost(x: real, s: real, bound: real)
    requires s > 0.0 && x <= bound * s
    ensures x / s <= bound
  {
    assert bound - x / s == (bound * s - x) / s;
  }

  // ---------------------------------------------------------------------------
  // Sampled time
  // ---------------------------------------------------------------------------

  /** The time in an angle's media a tile samples at the playhead: shifted by
      the angle's sync offset and never before the media's start. */
  function VideoTime(currentTime: real, syncOffset: real): (r: real)
    ensures r >= 0.0
    ensures r >= currentTime + syncOffset
    ensures currentTime + syncOffset >= 0.0 ==> r == currentTime + syncOffset
    ensures currentTime + syncOffset < 0.0 ==> r == 0.0
  {
    if 0.0 >= currentTime + syncOffset then 0.0 else currentTime + syncOffset
  }

  /** Inside a cut, the active angle's tile shows the same media time as the
      export segment for that cut: its start plus the time into the cut. */
  lemma PreviewMatchesExport(x: MulticamExport.Cut, angles: seq<Multicam.Angle>, includeAudio: bool, t: real)
    requires x.start <= t < x.end
    requires x.start + x.angle.syncOffset >= 0.0
    ensures VideoTime(t, x.angle.syncOffset)
            == MulticamExport.SegmentOf(x, angles, includeAudio).startTime + (t - x.start)
    ensures VideoTime(t, x.angle.syncOffset) < MulticamExport.SegmentOf(x, angles, includeAudio).endTime
  {
  }
}

=== FILE: processor.dfy ===
/** One export job run: cut every segment out of its source with a stream
    copy, write the concatenation list, join the cuts into the output file,
    remove the temporary files, and keep the job's status record up to date
    after every phase.

    The run is a pure function of the validated descriptor, the job directory
    and an environment `Env` that stands for everything outside the worker:
    how each transcoder process ends, whether each file write lands, and how
    JavaScript prints a number. Its result records every status write attempted
    (in order, with whether it landed), every transcoder argument vector passed,
    the concatenation-list text, the files removed during cleanup, and how the
    run ended. */
module Processor {
  import opened Wrappers
  import opened ExportSchema
  import TextUtil

  // ---------------------------------------------------------------------------
  // The transcoder executor
  // ---------------------------------------------------------------------------

  /** How one transcoder process ended: an exit code (`None` when the process
      was killed by a signal and Node reports `null`) with everything written to
      its diagnostic stream, or a failure to start it at all. */
  datatype ProcResult = Exited(code: Option<int>, stderr: string) | SpawnFailed(message: string)

  /** At most this many trailing diagnostic lines go into an error message. */
  const TailLines: nat := 5

  /** `stderr.trim().split("\n").slice(-5).join("\n")`. */
  function DiagnosticTail(stderr: string): string {
    TextUtil.Join(TextUtil.LastN(TextUtil.Split(TextUtil.Trim(stderr), '\n'), TailLines), '\n')
  }

  function CodeText(code: Option<int>): string {
    match code
    case None => "null"
    case Some(k) => TextUtil.IntToString(k)
  }

  const SpawnPrefix: string := "Failed to spawn FFmpeg: "
  const ExitPrefix: string := "FFmpeg exited with code "

  /** `runFFmpeg`: resolves exactly when the process exits with code 0; a
      non-zero (or missing) code rejects with the code and the diagnostic tail;
      a failure to start rejects with the spawn error. */
  function RunFFmpeg(p: ProcResult): (r: Outcome<string>)
    ensures r.Pass? <==> p.Exited? && p.code == Some(0)
  {
    match p
    case SpawnFailed(m) => Fail(SpawnPrefix + m)
    case Exited(code, stderr) =>
      if code == Some(0) then Pass
      else Fail(ExitPrefix + CodeText(code) + ":\n" + DiagnosticTail(stderr))
  }

  /** The diagnostic tail is a suffix of the trimmed output of at most five
      lines, and it is the whole trimmed output when that has five lines or fewer. */
  lemma DiagnosticTailShape(stderr: string)
    ensures var t := TextUtil.Trim(stderr);
            var tail := DiagnosticTail(stderr);
            && |tail| <= |t| && tail == t[|t| - |tail|..]
            && |TextUtil.Split(tail, '\n')| <= TailLines
            && (|TextUtil.Split(t, '\n')| <= TailLines ==> tail == t)
  {
    var t := TextUtil.Trim(stderr);
    var parts := TextUtil.Split(t, '\n');
    TextUtil.JoinSplit(t, '\n');
    TailOfJoin(parts, TailLines, '\n');
    TailLinesKept(parts, TailLines, '\n');
  }

  /** A failure to start reports the spawn error; any other failure names
      the exit code and ends with at most five trailing lines of the trimmed
      diagnostics, all of them when there are no more than five. */
  lemma RunFFmpegErrors(p: ProcResult)
    ensures p.SpawnFailed? ==> RunFFmpeg(p) == Fail(SpawnPrefix + p.message)
    ensures p.Exited? && RunFFmpeg(p).Fail? ==>
              var head := ExitPrefix + CodeText(p.code) + ":\n";
              var t := TextUtil.Trim(p.stderr);
              var tail := RunFFmpeg(p).error[|head|..];
              && head <= RunFFmpeg(p).error
              && |tail| <= |t| && tail == t[|t| - |tail|..]
              && |TextUtil.Split(tail, '\n')| <= TailLines
              && (|TextUtil.Split(t, '\n')| <= TailLines ==> tail == t)
  {
    if p.Exited? && p.code != Some(0) {
      var head := ExitPrefix + CodeText(p.code) + ":\n";
      var tail := DiagnosticTail(p.stderr);
      assert RunFFmpeg(p) == Fail(head + tail);
      AppendSplits(head, tail);
      DiagnosticTailShape(p.stderr);
    }
  }

  lemma AppendSplits(a: string, b: string)
    ensures a <= a + b && (a + b)[|a|..] == b
  {
    assert (a + b)[..|a|] == a;
  }

  /** The join of the last `k` parts is a suffix of the join of all parts. */
  lemma TailOfJoin(parts: seq<string>, k: nat, sep: char)
    requires k >= 1
    ensures var t := TextUtil.Join(parts, sep);
            var tail := TextUtil.Join(TextUtil.LastN(parts, k), sep);
            |tail| <= |t| && tail == t[|t| - |tail|..]
  {
    var last := TextUtil.LastN(parts, k);
    if |parts| > k {
      var front := parts[..|parts| - k];
      assert front + last == parts;
      TextUtil.JoinAppend(front, last, sep);
    }
  }

  /** Splitting the join of the last `k` separator-free parts gives those
      parts back, so at most `k` lines remain. */
  lemma TailLinesKept(parts: seq<string>, k: nat, sep: char)
    requires k >= 1 && |parts| >= 1
    requires forall j :: 0 <= j < |parts| ==> sep !in parts[j]
    ensures |TextUtil.Split(TextUtil.Join(TextUtil.LastN(parts, k), sep), sep)| <= k
  {
    var last := TextUtil.LastN(parts, k);
    var offset := |parts| - |last|;
    forall j | 0 <= j < |last| ensures sep !in last[j] {
      assert last[j] == parts[offset + j];
    }
    assert |last| >= 1;
    TextUtil.SplitJoin(last, sep);
  }

  // ---------------------------------------------------------------------------
  // The environment of one run
  // ---------------------------------------------------------------------------

  /** `transcode` is how the process started with a given argument vector
      ends; `statusWriteOk(k)` says whether the k-th status write of the run
      (counting from 0) lands; `listWriteOk` whether the concatenation list
      can be written; `ioError` the message of a failed write; `showNumber`
      is JavaScript's `String(x)` for a segment time. */
  datatype Env = Env(
    transcode: seq<string> -> ProcResult,
    statusWriteOk: nat -> bool,
    listWriteOk: bool,
    ioError: string,
    showNumber: real -> string)

  datatype StatusWrite = StatusWrite(record: StatusFile, landed: bool)

  /** How `processExportJob` returned: normally after recording completion,
      normally after recording a failure, or by throwing (a status write
      outside the recovery path, or the failure write itself, did not land). */
  datatype Exit = Succeeded | Failure(error: string) | Raised(error: string)

  datatype Run = Run(
    writes: seq<StatusWrite>,
    calls: seq<seq<string>>,
    concatList: Option<string>,
    removed: seq<string>,
    exit: Exit)

  // ---------------------------------------------------------------------------
  // Paths, records and argument vectors
  // ---------------------------------------------------------------------------

  function JoinPath(dir: string, name: string): string {
    dir + "/" + name
  }

  function SegmentPath(jobDir: string, i: nat): string {
    JoinPath(jobDir, "segment_" + TextUtil.NatToString(i) + ".mp4")
  }

  function SegmentPaths(jobDir: string, n: nat): (files: seq<string>)
    ensures |files| == n
    ensures forall i :: 0 <= i < n ==> files[i] == SegmentPath(jobDir, i)
  {
    seq(n, i requires 0 <= i < n => SegmentPath(jobDir, i))
  }

  function ConcatListPath(jobDir: string): string {
    JoinPath(jobDir, "concat_list.txt")
  }

  function DownloadUrl(id: string): string {
    "/api/export/" + id + "/download"
  }

  /** Progress written before cutting segment `i` of `n`. */
  function CutProgress(i: nat, n: nat): real
    requires n > 0
  {
    (i as real / n as real) * 0.8
  }

  const ConcatProgress: real := 0.85

  function StartRecord(c: Config): StatusFile {
    StatusFile(c.id, Processing, 0.0, Some("Starting export"), None, None)
  }

  function CutRecord(c: Config, i: nat): StatusFile
    requires i < |c.segments|
  {
    StatusFile(c.id, Processing, CutProgress(i, |c.segments|),
               Some("Cutting segment " + TextUtil.NatToString(i + 1) + " of " + TextUtil.NatToString(|c.segments|)),
               None, None)
  }

  function ConcatRecord(c: Config): StatusFile {
    StatusFile(c.id, Processing, ConcatProgress, Some("Concatenating segments"), None, None)
  }

  function CompletedRecord(c: Config): StatusFile {
    StatusFile(c.id, Completed, 1.0, Some("Export completed"), None, Some(DownloadUrl(c.id)))
  }

  function FailedRecord(c: Config, error: string): StatusFile {
    StatusFile(c.id, Failed, 0.0, None, Some(error), None)
  }

  function InvalidSourceMessage(i: nat, sourceIndex: nat): string {
    "Segment " + TextUtil.NatToString(i) + " references invalid sourceIndex " + TextUtil.NatToString(sourceIndex)
  }

  /** `sources[seg.sourceIndex]` is defined. */
  predicate Resolves(c: Config, i: nat)
    requires i < |c.segments|
  {
    c.segments[i].sourceIndex < |c.sources|
  }

  /** The cut of segment `i`: overwrite, seek to the start, stop at the end,
      read the source, stream-copy, drop audio when the segment says so,
      shift timestamps to zero, write the segment file. */
  function CutArgs(c: Config, jobDir: string, env: Env, i: nat): (r: seq<string>)
    requires i < |c.segments| && Resolves(c, i)
    ensures |r| == (if c.segments[i].audioFromSource then 12 else 13)
    ensures r[0] == "-y" && r[|r| - 1] == SegmentPath(jobDir, i)
    ensures r[1..7] == ["-ss", env.showNumber(c.segments[i].startTime), "-to", env.showNumber(c.segments[i].endTime),
                        "-i", c.sources[c.segments[i].sourceIndex].filePath]
    ensures r[7..9] == ["-c", "copy"]
    ensures r[9] == "-an" <==> !c.segments[i].audioFromSource
    ensures r[|r| - 3..|r| - 1] == ["-avoid_negative_ts", "make_zero"]
  {
    var seg := c.segments[i];
    var from, to, input := env.showNumber(seg.startTime), env.showNumber(seg.endTime), c.sources[seg.sourceIndex].filePath;
    if seg.audioFromSource then
      ["-y", "-ss", from, "-to", to, "-i", input, "-c", "copy",
       "-avoid_negative_ts", "make_zero", SegmentPath(jobDir, i)]
    else
      ["-y", "-ss", from, "-to", to, "-i", input, "-c", "copy", "-an",
       "-avoid_negative_ts", "make_zero", SegmentPath(jobDir, i)]
  }

  /** The join: overwrite, read the list with the concat demuxer, stream-copy
      into the output path. */
  function ConcatArgs(c: Config, jobDir: string): (r: seq<string>)
    ensures |r| == 10 && r[0] == "-y" && r[|r| - 1] == c.output.filePath
    ensures r[1..3] == ["-f", "concat"] && r[3..5] == ["-safe", "0"]
    ensures r[5..7] == ["-i", ConcatListPath(jobDir)] && r[7..9] == ["-c", "copy"]
  {
    ["-y", "-f", "concat", "-safe", "0", "-i", ConcatListPath(jobDir), "-c", "copy", c.output.filePath]
  }

  function ListLine(file: string): string {
    "file '" + file + "'"
  }

  function ListLines(files: seq<string>): (lines: seq<string>)
    ensures |lines| == |files|
    ensures forall k :: 0 <= k < |files| ==> lines[k] == ListLine(files[k])
  {
    seq(|files|, k requires 0 <= k < |files| => ListLine(files[k]))
  }

  /** The concatenation list: one `file '<path>'` line per segment file.
      Read back line by line it gives those lines, in order, as long as no
      file name holds a line break. */
  function ConcatListText(files: seq<string>): (r: string)
    ensures |files| >= 1 && (forall k :: 0 <= k < |files| ==> '\n' !in files[k]) ==>
              TextUtil.Split(r, '\n') == ListLines(files)
  {
    ListLinesSplit(files);
    TextUtil.Join(ListLines(files), '\n')
  }

  lemma ListLinesSplit(files: seq<string>)
    ensures |files| >= 1 && (forall k :: 0 <= k < |files| ==> '\n' !in files[k]) ==>
              TextUtil.Split(TextUtil.Join(ListLines(files), '\n'), '\n') == ListLines(files)
  {
    if |files| >= 1 && (forall k :: 0 <= k < |files| ==> '\n' !in files[k]) {
      var lines := ListLines(files);
      forall k | 0 <= k < |lines| ensures '\n' !in lines[k] {
        assert lines[k] == "file '" + files[k] + "'";
        assert forall j :: 0 <= j < |lines[k]| ==> lines[k][j] != '\n' by {
          forall j | 0 <= j < |lines[k]| ensures lines[k][j] != '\n' {
            if 6 <= j < 6 + |files[k]| {
              assert lines[k][j] == files[k][j - 6];
            }
          }
        }
      }
      TextUtil.SplitJoin(lines, '\n');
    }
  }

  // ---------------------------------------------------------------------------
  // The run
  // ---------------------------------------------------------------------------

  /** What the `try` block did before it finished or threw `thrown`. */
  datatype Attempt = Attempt(
    writes: seq<StatusWrite>,
    calls: seq<seq<string>>,
    concatList: Option<string>,
    removed: seq<string>,
    thrown: Option<string>)

  /** The `try` block from the cut of segment `i` on. Every earlier write
      landed, so the status write before cutting segment `i` is write `i + 1`. */
  function CutFrom(c: Config, jobDir: string, env: Env, i: nat): Attempt
    requires i <= |c.segments|
    decreases |c.segments| - i
  {
    if i == |c.segments| then ConcatPhase(c, jobDir, env)
    else
      var seg := c.segments[i];
      if !Resolves(c, i) then Attempt([], [], None, [], Some(InvalidSourceMessage(i, seg.sourceIndex)))
      else
        var rec := CutRecord(c, i);
        if !env.statusWriteOk(i + 1) then Attempt([StatusWrite(rec, false)], [], None, [], Some(env.ioError))
        else
          var args := CutArgs(c, jobDir, env, i);
          match RunFFmpeg(env.transcode(args))
          case Fail(e) => Attempt([StatusWrite(rec, true)], [args], None, [], Some(e))
          case Pass =>
            var rest := CutFrom(c, jobDir, env, i + 1);
            rest.(writes := [StatusWrite(rec, true)] + rest.writes, calls := [args] + rest.calls)
  }

  /** Writing the list, the 0.85 status, the join, cleanup and the completed status. */
  function ConcatPhase(c: Config, jobDir: string, env: Env): Attempt {
    var n := |c.segments|;
    var files := SegmentPaths(jobDir, n);
    var listPath := ConcatListPath(jobDir);
    var text := ConcatListText(files);
    if !env.listWriteOk then Attempt([], [], None, [], Some(env.ioError))
    else
      var rec := ConcatRecord(c);
      if !env.statusWriteOk(n + 1) then Attempt([StatusWrite(rec, false)], [], Some(text), [], Some(env.ioError))
      else
        var args := ConcatArgs(c, jobDir);
        match RunFFmpeg(env.transcode(args))
        case Fail(e) => Attempt([StatusWrite(rec, true)], [args], Some(text), [], Some(e))
        case Pass =>
          var removed := files + [listPath];
          var done := CompletedRecord(c);
          if !env.statusWriteOk(n + 2) then
            Attempt([StatusWrite(rec, true), StatusWrite(done, false)], [args], Some(text), removed, Some(env.ioError))
          else
            Attempt([StatusWrite(rec, true), StatusWrite(done, true)], [args], Some(text), removed, None)
  }

  /** `processExportJob`: the starting status (outside the `try`), the `try`
      block, and on any error the failed status with that error's message. */
  function ProcessExportJob(c: Config, jobDir: string, env: Env): (r: Run)
    ensures |r.writes| >= 1 && r.writes[0] == StatusWrite(StartRecord(c), env.statusWriteOk(0))
    ensures !env.statusWriteOk(0) ==> r.exit == Raised(env.ioError) && r.calls == []
  {
    if !env.statusWriteOk(0) then Run([StatusWrite(StartRecord(c), false)], [], None, [], Raised(env.ioError))
    else Conclude(c, env, CutFrom(c, jobDir, env, 0))
  }

  /** The run once the starting status landed and the `try` block did `a`:
      on an error, the `catch` writes the failed status with its message. */
  function Conclude(c: Config, env: Env, a: Attempt): Run {
    var writes := [StatusWrite(StartRecord(c), true)] + a.writes;
    match a.thrown
    case None => Run(writes, a.calls, a.concatList, a.removed, Succeeded)
    case Some(e) =>
      var failed := FailedRecord(c, e);
      if env.statusWriteOk(|writes|) then
        Run(writes + [StatusWrite(failed, true)], a.calls, a.concatList, a.removed, Failure(e))
      else
        Run(writes + [StatusWrite(failed, false)], a.calls, a.concatList, a.removed, Raised(env.ioError))
  }

  /** The index of the last landed write among the first `n`, if any. */
  function LastLandedBefore(ws: seq<StatusWrite>, n: nat): (r: Option<nat>)
    requires n <= |ws|
    ensures r.Some? ==> r.value < n && ws[r.value].landed && forall j :: r.value < j < n ==> !ws[j].landed
    ensures r.None? ==> forall j :: 0 <= j < n ==> !ws[j].landed
  {
    if n == 0 then None
    else if ws[n - 1].landed then Some(n - 1)
    else LastLandedBefore(ws, n - 1)
  }

  /** The status record a reader sees after the run, if any write landed. */
  function LastLanded(ws: seq<StatusWrite>): (r: Option<StatusFile>)
    ensures r.Some? <==> exists k :: 0 <= k < |ws| && ws[k].landed
    ensures r.Some? ==> exists k :: 0 <= k < |ws| && ws[k].landed && ws[k].record == r.value
                                   && forall j :: k < j < |ws| ==> !ws[j].landed
  {
    match LastLandedBefore(ws, |ws|)
    case None => None
    case Some(k) => Some(ws[k].record)
  }

  // ---------------------------------------------------------------------------
  // Progress
  // ---------------------------------------------------------------------------

  lemma DivLess(a: real, b: real, d: real)
    requires a < b && d > 0.0
    ensures a / d < b / d
  {
    assert b / d - a / d == (b - a) / d;
  }

  /** Cut progress starts at 0, strictly increases with the segment index and
      stays below 0.8. */
  lemma CutProgressIncreasing(i: nat, j: nat, n: nat)
    requires i < j < n
    ensures CutProgress(0, n) == 0.0
    ensures 0.0 <= CutProgress(i, n) < CutProgress(j, n) < 0.8
  {
    DivLess(i as real, j as real, n as real);
    DivLess(j as real, n as real, n as real);
    if i > 0 { DivLess(0.0, i as real, n as real); }
  }

  lemma CutProgressBelow(i: nat, n: nat)
    requires i < n
    ensures 0.0 <= CutProgress(i, n) < 0.8
    ensures i + 1 < n ==> CutProgress(i, n) < CutProgress(i + 1, n)
  {
    if i + 1 < n {
      CutProgressIncreasing(i, i + 1, n);
    } else {
      DivLess(i as real, n as real, n as real);
    }
  }

  // Properties of a sequence of status writes.

  ghost predicate NonDecreasing(ws: seq<StatusWrite>) {
    forall a, b :: 0 <= a < b < |ws| ==> ws[a].record.progress <= ws[b].record.progress
  }

  /** Non-decreasing, except that a failure record may drop to 0. */
  ghost predicate NonDecreasingUntilFailure(ws: seq<StatusWrite>) {
    forall a, b :: 0 <= a < b < |ws| && ws[b].record.status != Failed ==>
      ws[a].record.progress <= ws[b].record.progress
  }

  ghost predicate ProgressWithin(ws: seq<StatusWrite>, lo: real) {
    forall k :: 0 <= k < |ws| ==> lo <= ws[k].record.progress <= 1.0
  }

  ghost predicate NoFailureRecord(ws: seq<StatusWrite>) {
    forall k :: 0 <= k < |ws| ==> ws[k].record.status != Failed
  }

  /** A failure record at progress 0 may follow any non-decreasing run. */
  lemma FailureSnoc(ws: seq<StatusWrite>, f: StatusWrite)
    requires NonDecreasing(ws) && ProgressWithin(ws, 0.0)
    requires f.record.status == Failed && f.record.progress == 0.0
    ensures NonDecreasingUntilFailure(ws + [f]) && ProgressWithin(ws + [f], 0.0)
  {
    assert forall k :: 0 <= k < |ws| ==> (ws + [f])[k] == ws[k];
  }

  /** Write `k` lands exactly when the store accepts write `base + k`. */
  ghost predicate LandsAsAccepted(ws: seq<StatusWrite>, env: Env, base: nat) {
    forall k :: 0 <= k < |ws| ==> ws[k].landed == env.statusWriteOk(base + k)
  }

  ghost predicate AllButLastLanded(ws: seq<StatusWrite>) {
    forall k :: 0 <= k < |ws| - 1 ==> ws[k].landed
  }

  lemma LandsCons(w: StatusWrite, ws: seq<StatusWrite>, env: Env, base: nat)
    requires w.landed == env.statusWriteOk(base) && LandsAsAccepted(ws, env, base + 1)
    ensures LandsAsAccepted([w] + ws, env, base)
  {
    forall k | 1 <= k < |[w] + ws|
      ensures ([w] + ws)[k].landed == env.statusWriteOk(base + k)
    {
      assert ([w] + ws)[k] == ws[k - 1];
      assert base + 1 + (k - 1) == base + k;
    }
  }

  lemma LandsSnoc(ws: seq<StatusWrite>, w: StatusWrite, env: Env, base: nat)
    requires LandsAsAccepted(ws, env, base) && w.landed == env.statusWriteOk(base + |ws|)
    ensures LandsAsAccepted(ws + [w], env, base)
  {
    assert forall k :: 0 <= k < |ws| ==> (ws + [w])[k] == ws[k];
  }

  lemma LandedCons(w: StatusWrite, ws: seq<StatusWrite>)
    requires w.landed && AllButLastLanded(ws)
    ensures AllButLastLanded([w] + ws)
  {
    assert forall k :: 1 <= k < |[w] + ws| ==> ([w] + ws)[k] == ws[k - 1];
  }

  /** Putting a write in front of writes that never fall below its progress
      keeps the sequence non-decreasing and within [lo, 1]. */
  lemma ProgressCons(w: StatusWrite, ws: seq<StatusWrite>, lo: real)
    requires lo <= w.record.progress <= 1.0 && w.record.status != Failed
    requires NonDecreasing(ws) && ProgressWithin(ws, w.record.progress) && NoFailureRecord(ws)
    ensures NonDecreasing([w] + ws) && ProgressWithin([w] + ws, lo) && NoFailureRecord([w] + ws)
  {
    assert forall k :: 1 <= k < |[w] + ws| ==> ([w] + ws)[k] == ws[k - 1];
  }

  lemma ProgressWeaken(ws: seq<StatusWrite>, lo: real, lo': real)
    requires ProgressWithin(ws, lo) && lo' <= lo
    ensures ProgressWithin(ws, lo')
  {
  }

  // Properties of a sequence of transcoder calls.

  /** Call `j` is the cut of segment `from + j`, whose source resolves, or the
      join once every segment is cut; nothing follows the join. */
  ghost predicate CallsInOrder(c: Config, jobDir: string, env: Env, calls: seq<seq<string>>, from: nat) {
    && from + |calls| <= |c.segments| + 1
    && (forall j :: from <= j < |c.segments| && j < from + |calls| ==> Resolves(c, j))
    && (forall j :: 0 <= j < |calls| && from + j < |c.segments| ==>
          Resolves(c, from + j) && calls[j] == CutArgs(c, jobDir, env, from + j))
    && (forall j :: 0 <= j < |calls| && from + j == |c.segments| ==> calls[j] == ConcatArgs(c, jobDir))
  }

  /** Every call but the last succeeded. */
  ghost predicate EarlierCallsPass(env: Env, calls: seq<seq<string>>) {
    forall j :: 0 <= j < |calls| - 1 ==> RunFFmpeg(env.transcode(calls[j])).Pass?
  }

  lemma CallsCons(c: Config, jobDir: string, env: Env, calls: seq<seq<string>>, i: nat)
    requires i < |c.segments| && Resolves(c, i)
    requires CallsInOrder(c, jobDir, env, calls, i + 1)
    ensures CallsInOrder(c, jobDir, env, [CutArgs(c, jobDir, env, i)] + calls, i)
  {
    var all := [CutArgs(c, jobDir, env, i)] + calls;
    forall j | 0 <= j < |all| && i + j < |c.segments|
      ensures Resolves(c, i + j) && all[j] == CutArgs(c, jobDir, env, i + j)
    {
      if j > 0 {
        assert all[j] == calls[j - 1] && i + j == (i + 1) + (j - 1);
      }
    }
    forall j | 0 <= j < |all| && i + j == |c.segments|
      ensures all[j] == ConcatArgs(c, jobDir)
    {
      assert all[j] == calls[j - 1] && i + j == (i + 1) + (j - 1);
    }
  }

  lemma PassCons(env: Env, x: seq<string>, calls: seq<seq<string>>)
    requires RunFFmpeg(env.transcode(x)).Pass? && EarlierCallsPass(env, calls)
    ensures EarlierCallsPass(env, [x] + calls)
  {
    assert forall j :: 1 <= j < |[x] + calls| ==> ([x] + calls)[j] == calls[j - 1];
  }

  /** Lowest progress the `try` block writes from segment `i` on. */
  function ProgressFloor(c: Config, i: nat): real {
    if i < |c.segments| then CutProgress(i, |c.segments|) else ConcatProgress
  }

  /** The cut of segment `i` succeeded: the block goes on with the next
      segment after that segment's status write and call. */
  lemma CutFromPass(c: Config, jobDir: string, env: Env, i: nat)
    requires i < |c.segments| && Resolves(c, i) && env.statusWriteOk(i + 1)
    requires RunFFmpeg(env.transcode(CutArgs(c, jobDir, env, i))).Pass?
    ensures var rest := CutFrom(c, jobDir, env, i + 1);
            CutFrom(c, jobDir, env, i)
              == rest.(writes := [StatusWrite(CutRecord(c, i), true)] + rest.writes,
                       calls := [CutArgs(c, jobDir, env, i)] + rest.calls)
  {
  }

  lemma {:induction false} AttemptProgress(c: Config, jobDir: string, env: Env, i: nat)
    requires i <= |c.segments|
    decreases |c.segments| - i
    ensures ProgressOk(CutFrom(c, jobDir, env, i).writes, ProgressFloor(c, i))
  {
    var n := |c.segments|;
    if i == n {
      ConcatPhaseProgress(c, jobDir, env);
    } else if Resolves(c, i) && env.statusWriteOk(i + 1) && RunFFmpeg(env.transcode(CutArgs(c, jobDir, env, i))).Pass? {
      AttemptProgress(c, jobDir, env, i + 1);
      CutFromPassProgress(c, jobDir, env, i);
    } else {
      CutFromStopped(c, jobDir, env, i);
    }
  }

  lemma CutFromPassProgress(c: Config, jobDir: string, env: Env, i: nat)
    requires i < |c.segments| && Resolves(c, i) && env.statusWriteOk(i + 1)
    requires RunFFmpeg(env.transcode(CutArgs(c, jobDir, env, i))).Pass?
    requires ProgressOk(CutFrom(c, jobDir, env, i + 1).writes, ProgressFloor(c, i + 1))
    ensures ProgressOk(CutFrom(c, jobDir, env, i).writes, ProgressFloor(c, i))
  {
    CutFromPass(c, jobDir, env, i);
    CutWriteProgress(c, CutFrom(c, jobDir, env, i + 1).writes, i);
  }

  lemma CutWriteProgress(c: Config, ws: seq<StatusWrite>, i: nat)
    requires i < |c.segments|
    requires ProgressOk(ws, ProgressFloor(c, i + 1))
    ensures ProgressOk([StatusWrite(CutRecord(c, i), true)] + ws, ProgressFloor(c, i))
  {
    CutProgressBelow(i, |c.segments|);
    if i + 1 < |c.segments| { CutProgressBelow(i + 1, |c.segments|); }
    ProgressStep(StatusWrite(CutRecord(c, i), true), ws, ProgressFloor(c, i), ProgressFloor(c, i + 1));
  }

  /** A cut that does not go on writes at most its own record. */
  lemma CutFromStopped(c: Config, jobDir: string, env: Env, i: nat)
    requires i < |c.segments|
    requires !(Resolves(c, i) && env.statusWriteOk(i + 1) && RunFFmpeg(env.transcode(CutArgs(c, jobDir, env, i))).Pass?)
    ensures ProgressOk(CutFrom(c, jobDir, env, i).writes, ProgressFloor(c, i))
  {
    CutProgressBelow(i, |c.segments|);
  }

  /** The status writes are in order, in range from `floor` on, and none is a
      failure record. */
  ghost predicate ProgressOk(ws: seq<StatusWrite>, floor: real) {
    NonDecreasing(ws) && ProgressWithin(ws, floor) && NoFailureRecord(ws)
  }

  lemma ProgressStep(w: StatusWrite, ws: seq<StatusWrite>, floor: real, next: real)
    requires ProgressOk(ws, next)
    requires w.record.status != Failed && floor <= w.record.progress <= next <= 1.0
    ensures ProgressOk([w] + ws, floor)
  {
    ProgressWeaken(ws, next, w.record.progress);
    ProgressCons(w, ws, floor);
  }

  lemma ConcatPhaseProgress(c: Config, jobDir: string, env: Env)
    ensures var ws := ConcatPhase(c, jobDir, env).writes;
            NonDecreasing(ws) && ProgressWithin(ws, ConcatProgress) && NoFailureRecord(ws)
  {
    ConcatPhaseShape(c, jobDir, env);
    ConcatWritesProgress(c, ConcatPhase(c, jobDir, env).writes);
  }

  /** The join phase writes at most the join record and then the completed
      record, each landing as the environment says. */
  lemma ConcatPhaseShape(c: Config, jobDir: string, env: Env)
    ensures var ws := ConcatPhase(c, jobDir, env).writes;
            && |ws| <= 2
            && (|ws| > 0 ==> ws[0] == StatusWrite(ConcatRecord(c), env.statusWriteOk(|c.segments| + 1)))
            && (|ws| > 1 ==> ws[1] == StatusWrite(CompletedRecord(c), env.statusWriteOk(|c.segments| + 2)))
  {
  }

  lemma ConcatWritesProgress(c: Config, ws: seq<StatusWrite>)
    requires |ws| <= 2
    requires |ws| > 0 ==> ws[0].record == ConcatRecord(c)
    requires |ws| > 1 ==> ws[1].record == CompletedRecord(c)
    ensures NonDecreasing(ws) && ProgressWithin(ws, ConcatProgress) && NoFailureRecord(ws)
  {
  }

  /** Every status written lies in [0, 1]; the first is the start record; and
      apart from a final failure record the progress never goes down. */
  lemma RunProgress(c: Config, jobDir: string, env: Env)
    ensures |ProcessExportJob(c, jobDir, env).writes| >= 1
    ensures ProcessExportJob(c, jobDir, env).writes[0].record == StartRecord(c)
    ensures ProgressWithin(ProcessExportJob(c, jobDir, env).writes, 0.0)
    ensures NonDecreasingUntilFailure(ProcessExportJob(c, jobDir, env).writes)
  {
    if env.statusWriteOk(0) {
      AttemptProgress(c, jobDir, env, 0);
      if 0 < |c.segments| { CutProgressBelow(0, |c.segments|); }
      assert ProgressOk(CutFrom(c, jobDir, env, 0).writes, ProgressFloor(c, 0));
      var a := CutFrom(c, jobDir, env, 0);
      ProgressWeaken(a.writes, ProgressFloor(c, 0), 0.0);
      ConcludeProgress(c, env, a);
    }
  }

  lemma ConcludeProgress(c: Config, env: Env, a: Attempt)
    requires NonDecreasing(a.writes) && ProgressWithin(a.writes, 0.0) && NoFailureRecord(a.writes)
    ensures ProgressWithin(Conclude(c, env, a).writes, 0.0)
    ensures NonDecreasingUntilFailure(Conclude(c, env, a).writes)
  {
    var w := StatusWrite(StartRecord(c), true);
    ProgressCons(w, a.writes, 0.0);
    if a.thrown.Some? {
      var f := StatusWrite(FailedRecord(c, a.thrown.value), env.statusWriteOk(1 + |a.writes|));
      assert Conclude(c, env, a).writes == ([w] + a.writes) + [f];
      FailureSnoc([w] + a.writes, f);
    }
  }

  // ---------------------------------------------------------------------------
  // Transcoder calls
  // ---------------------------------------------------------------------------

  lemma {:induction false} AttemptCallShape(c: Config, jobDir: string, env: Env, i: nat)
    requires i <= |c.segments|
    decreases |c.segments| - i
    ensures CallsInOrder(c, jobDir, env, CutFrom(c, jobDir, env, i).calls, i)
  {
    var n := |c.segments|;
    if i == n {
      ConcatPhaseCalls(c, jobDir, env);
    } else if Resolves(c, i) && env.statusWriteOk(i + 1) && RunFFmpeg(env.transcode(CutArgs(c, jobDir, env, i))).Pass? {
      AttemptCallShape(c, jobDir, env, i + 1);
      CallShapeCons(c, jobDir, env, CutFrom(c, jobDir, env, i), CutFrom(c, jobDir, env, i + 1),
                    StatusWrite(CutRecord(c, i), true), i);
    } else {
      CutFromStoppedCalls(c, jobDir, env, i);
    }
  }

  /** A cut that does not go on made at most its own call. */
  lemma CutFromStoppedCalls(c: Config, jobDir: string, env: Env, i: nat)
    requires i < |c.segments|
    requires !(Resolves(c, i) && env.statusWriteOk(i + 1) && RunFFmpeg(env.transcode(CutArgs(c, jobDir, env, i))).Pass?)
    ensures CallsInOrder(c, jobDir, env, CutFrom(c, jobDir, env, i).calls, i)
  {
    var calls := CutFrom(c, jobDir, env, i).calls;
    assert calls == [] || (Resolves(c, i) && calls == [CutArgs(c, jobDir, env, i)]);
    OwnCallInOrder(c, jobDir, env, calls, i);
  }

  lemma OwnCallInOrder(c: Config, jobDir: string, env: Env, calls: seq<seq<string>>, i: nat)
    requires i < |c.segments|
    requires calls == [] || (Resolves(c, i) && calls == [CutArgs(c, jobDir, env, i)])
    ensures CallsInOrder(c, jobDir, env, calls, i)
  {
  }

  lemma CallShapeCons(c: Config, jobDir: string, env: Env, a: Attempt, rest: Attempt, w: StatusWrite, i: nat)
    requires i < |c.segments| && Resolves(c, i)
    requires a == rest.(writes := [w] + rest.writes, calls := [CutArgs(c, jobDir, env, i)] + rest.calls)
    requires CallsInOrder(c, jobDir, env, rest.calls, i + 1)
    ensures CallsInOrder(c, jobDir, env, a.calls, i)
  {
    CallsCons(c, jobDir, env, rest.calls, i);
  }

  lemma ConcatPhaseCalls(c: Config, jobDir: string, env: Env)
    ensures CallsInOrder(c, jobDir, env, ConcatPhase(c, jobDir, env).calls, |c.segments|)
  {
  }

  /** Every call but the last succeeded; a failing last call is what the
      block threw; a block that did not throw made at least one call and its
      last call succeeded. */
  ghost predicate CallChain(env: Env, a: Attempt) {
    && EarlierCallsPass(env, a.calls)
    && (|a.calls| > 0 && RunFFmpeg(env.transcode(a.calls[|a.calls| - 1])).Fail? ==>
          a.thrown == Some(RunFFmpeg(env.transcode(a.calls[|a.calls| - 1])).error))
    && (a.thrown.None? ==> |a.calls| > 0 && RunFFmpeg(env.transcode(a.calls[|a.calls| - 1])).Pass?)
  }

  lemma ChainCons(env: Env, a: Attempt, rest: Attempt, w: StatusWrite, args: seq<string>)
    requires a == rest.(writes := [w] + rest.writes, calls := [args] + rest.calls)
    requires RunFFmpeg(env.transcode(args)).Pass? && CallChain(env, rest)
    ensures CallChain(env, a)
  {
    PassCons(env, args, rest.calls);
    if |rest.calls| > 0 {
      assert a.calls[|a.calls| - 1] == rest.calls[|rest.calls| - 1];
    }
  }

  lemma {:induction false} AttemptCallChain(c: Config, jobDir: string, env: Env, i: nat)
    requires i <= |c.segments|
    decreases |c.segments| - i, 1
    ensures CallChain(env, CutFrom(c, jobDir, env, i))
  {
    var n := |c.segments|;
    if i == n {
      ConcatPhaseChain(c, jobDir, env);
    } else if Resolves(c, i) && env.statusWriteOk(i + 1) && RunFFmpeg(env.transcode(CutArgs(c, jobDir, env, i))).Pass? {
      CutFromPassChain(c, jobDir, env, i);
    } else {
      CutFromStoppedChain(c, jobDir, env, i);
    }
  }

  /** The step of `AttemptCallChain`: the cut of segment `i` passes. */
  lemma {:induction false} CutFromPassChain(c: Config, jobDir: string, env: Env, i: nat)
    requires i < |c.segments| && Resolves(c, i) && env.statusWriteOk(i + 1)
    requires RunFFmpeg(env.transcode(CutArgs(c, jobDir, env, i))).Pass?
    decreases |c.segments| - i, 0
    ensures CallChain(env, CutFrom(c, jobDir, env, i))
  {
    AttemptCallChain(c, jobDir, env, i + 1);
    CutFromPass(c, jobDir, env, i);
    ChainCons(env, CutFrom(c, jobDir, env, i), CutFrom(c, jobDir, env, i + 1),
              StatusWrite(CutRecord(c, i), true), CutArgs(c, jobDir, env, i));
  }

  /** A cut that does not go on threw, and its own call, if made, failed. */
  lemma CutFromStoppedChain(c: Config, jobDir: string, env: Env, i: nat)
    requires i < |c.segments|
    requires !(Resolves(c, i) && env.statusWriteOk(i + 1) && RunFFmpeg(env.transcode(CutArgs(c, jobDir, env, i))).Pass?)
    ensures CallChain(env, CutFrom(c, jobDir, env, i))
  {
  }

  lemma ConcatPhaseChain(c: Config, jobDir: string, env: Env)
    ensures CallChain(env, ConcatPhase(c, jobDir, env))
  {
  }

  /** The list is written only after every cut, and a block that did not
      throw made every call and removed every temporary file. */
  ghost predicate Completes(c: Config, jobDir: string, a: Attempt, i: nat) {
    var n := |c.segments|;
    && (a.concatList.Some? ==> i + |a.calls| >= n
                               && a.concatList == Some(ConcatListText(SegmentPaths(jobDir, n))))
    && (a.thrown.None? ==> a.concatList.Some? && i + |a.calls| == n + 1
                           && a.removed == SegmentPaths(jobDir, n) + [ConcatListPath(jobDir)])
  }

  lemma CompletesCons(c: Config, jobDir: string, a: Attempt, rest: Attempt, w: StatusWrite, args: seq<string>, i: nat)
    requires a == rest.(writes := [w] + rest.writes, calls := [args] + rest.calls)
    requires Completes(c, jobDir, rest, i + 1)
    ensures Completes(c, jobDir, a, i)
  {
  }

  lemma {:induction false} AttemptCompletes(c: Config, jobDir: string, env: Env, i: nat)
    requires i <= |c.segments|
    decreases |c.segments| - i, 1
    ensures Completes(c, jobDir, CutFrom(c, jobDir, env, i), i)
  {
    var n := |c.segments|;
    if i == n {
      ConcatPhaseCompletes(c, jobDir, env);
    } else if Resolves(c, i) && env.statusWriteOk(i + 1) && RunFFmpeg(env.transcode(CutArgs(c, jobDir, env, i))).Pass? {
      CutFromPassCompletes(c, jobDir, env, i);
    } else {
      CutFromStoppedCompletes(c, jobDir, env, i);
    }
  }

  /** The step of `AttemptCompletes`: the cut of segment `i` passes. */
  lemma {:induction false} CutFromPassCompletes(c: Config, jobDir: string, env: Env, i: nat)
    requires i < |c.segments| && Resolves(c, i) && env.statusWriteOk(i + 1)
    requires RunFFmpeg(env.transcode(CutArgs(c, jobDir, env, i))).Pass?
    decreases |c.segments| - i, 0
    ensures Completes(c, jobDir, CutFrom(c, jobDir, env, i), i)
  {
    AttemptCompletes(c, jobDir, env, i + 1);
    CutFromPass(c, jobDir, env, i);
    CompletesCons(c, jobDir, CutFrom(c, jobDir, env, i), CutFrom(c, jobDir, env, i + 1),
                  StatusWrite(CutRecord(c, i), true), CutArgs(c, jobDir, env, i), i);
  }

  lemma CutFromStoppedCompletes(c: Config, jobDir: string, env: Env, i: nat)
    requires i < |c.segments|
    requires !(Resolves(c, i) && env.statusWriteOk(i + 1) && RunFFmpeg(env.transcode(CutArgs(c, jobDir, env, i))).Pass?)
    ensures Completes(c, jobDir, CutFrom(c, jobDir, env, i), i)
  {
  }

  lemma ConcatPhaseCompletes(c: Config, jobDir: string, env: Env)
    ensures Completes(c, jobDir, ConcatPhase(c, jobDir, env), |c.segments|)
  {
  }

  /** The transcoder calls of a run, in order: the cuts of segments 0, 1, …
      (each one resolving its source), then the join. */
  lemma RunCallShape(c: Config, jobDir: string, env: Env)
    ensures CallsInOrder(c, jobDir, env, ProcessExportJob(c, jobDir, env).calls, 0)
  {
    if env.statusWriteOk(0) {
      AttemptCallShape(c, jobDir, env, 0);
    }
  }

  /** A call is made only after every earlier call succeeded. */
  lemma RunCallChain(c: Config, jobDir: string, env: Env)
    ensures EarlierCallsPass(env, ProcessExportJob(c, jobDir, env).calls)
  {
    if env.statusWriteOk(0) {
      AttemptCallChain(c, jobDir, env, 0);
    }
  }

  /** A failing call's message becomes the job's error, unless recording the
      failure fails too. */
  lemma RunFailureReported(c: Config, jobDir: string, env: Env)
    ensures var r := ProcessExportJob(c, jobDir, env);
            |r.calls| > 0 && RunFFmpeg(env.transcode(r.calls[|r.calls| - 1])).Fail? ==>
              r.exit == Failure(RunFFmpeg(env.transcode(r.calls[|r.calls| - 1])).error)
              || r.exit == Raised(env.ioError)
  {
    if env.statusWriteOk(0) {
      AttemptCallChain(c, jobDir, env, 0);
      ConcludeFailureReported(c, env, CutFrom(c, jobDir, env, 0));
    }
  }

  lemma ConcludeFailureReported(c: Config, env: Env, a: Attempt)
    requires CallChain(env, a)
    ensures var r := Conclude(c, env, a);
            |r.calls| > 0 && RunFFmpeg(env.transcode(r.calls[|r.calls| - 1])).Fail? ==>
              r.exit == Failure(RunFFmpeg(env.transcode(r.calls[|r.calls| - 1])).error)
              || r.exit == Raised(env.ioError)
  {
  }

  /** A segment whose source index does not resolve stops the job: neither
      that cut, nor any later one, nor the join is attempted, no list is
      written and the job does not complete. */
  lemma UnresolvedSegmentStops(c: Config, jobDir: string, env: Env, k: nat)
    requires k < |c.segments| && !Resolves(c, k)
    ensures var r := ProcessExportJob(c, jobDir, env);
            && |r.calls| <= k
            && r.concatList.None?
            && r.exit != Succeeded
  {
    RunCallShape(c, jobDir, env);
    if env.statusWriteOk(0) {
      AttemptCompletes(c, jobDir, env, 0);
    }
  }

  // ---------------------------------------------------------------------------
  // Status writes and the terminal state
  // ---------------------------------------------------------------------------

  /** Write `k` of the block from segment `i` is write `i + 1 + k` of the run;
      every write but the last landed. */
  lemma {:induction false} AttemptWriteIndex(c: Config, jobDir: string, env: Env, i: nat)
    requires i <= |c.segments|
    decreases |c.segments| - i, 1
    ensures LandsAsAccepted(CutFrom(c, jobDir, env, i).writes, env, i + 1)
    ensures AllButLastLanded(CutFrom(c, jobDir, env, i).writes)
  {
    var n := |c.segments|;
    if i == n {
      ConcatPhaseLands(c, jobDir, env);
    } else if Resolves(c, i) && env.statusWriteOk(i + 1) && RunFFmpeg(env.transcode(CutArgs(c, jobDir, env, i))).Pass? {
      CutFromPassLands(c, jobDir, env, i);
    } else {
      CutFromStoppedLands(c, jobDir, env, i);
    }
  }

  /** The step of `AttemptWriteIndex`: the cut of segment `i` passes. */
  lemma {:induction false} CutFromPassLands(c: Config, jobDir: string, env: Env, i: nat)
    requires i < |c.segments| && Resolves(c, i) && env.statusWriteOk(i + 1)
    requires RunFFmpeg(env.transcode(CutArgs(c, jobDir, env, i))).Pass?
    decreases |c.segments| - i, 0
    ensures LandsAsAccepted(CutFrom(c, jobDir, env, i).writes, env, i + 1)
    ensures AllButLastLanded(CutFrom(c, jobDir, env, i).writes)
  {
    AttemptWriteIndex(c, jobDir, env, i + 1);
    CutFromPass(c, jobDir, env, i);
    LandsStep(env, CutFrom(c, jobDir, env, i), CutFrom(c, jobDir, env, i + 1),
              StatusWrite(CutRecord(c, i), true), CutArgs(c, jobDir, env, i), i + 1);
  }

  lemma CutFromStoppedLands(c: Config, jobDir: string, env: Env, i: nat)
    requires i < |c.segments|
    requires !(Resolves(c, i) && env.statusWriteOk(i + 1) && RunFFmpeg(env.transcode(CutArgs(c, jobDir, env, i))).Pass?)
    ensures LandsAsAccepted(CutFrom(c, jobDir, env, i).writes, env, i + 1)
    ensures AllButLastLanded(CutFrom(c, jobDir, env, i).writes)
  {
  }

  lemma LandsStep(env: Env, a: Attempt, rest: Attempt, w: StatusWrite, args: seq<string>, base: nat)
    requires a == rest.(writes := [w] + rest.writes, calls := [args] + rest.calls)
    requires w.landed && env.statusWriteOk(base)
    requires LandsAsAccepted(rest.writes, env, base + 1) && AllButLastLanded(rest.writes)
    ensures LandsAsAccepted(a.writes, env, base) && AllButLastLanded(a.writes)
  {
    LandsCons(w, rest.writes, env, base);
    LandedCons(w, rest.writes);
  }

  lemma ConcatPhaseLands(c: Config, jobDir: string, env: Env)
    ensures LandsAsAccepted(ConcatPhase(c, jobDir, env).writes, env, |c.segments| + 1)
    ensures AllButLastLanded(ConcatPhase(c, jobDir, env).writes)
  {
    ConcatPhaseShape(c, jobDir, env);
    ConcatWritesLand(ConcatPhase(c, jobDir, env).writes, env, |c.segments| + 1);
  }

  lemma ConcatWritesLand(ws: seq<StatusWrite>, env: Env, base: nat)
    requires |ws| <= 2
    requires |ws| > 0 ==> ws[0].landed == env.statusWriteOk(base)
    requires |ws| > 1 ==> ws[0].landed && ws[1].landed == env.statusWriteOk(base + 1)
    ensures LandsAsAccepted(ws, env, base) && AllButLastLanded(ws)
  {
  }

  lemma {:induction false} AttemptWriteEnd(c: Config, jobDir: string, env: Env, i: nat)
    requires i <= |c.segments|
    decreases |c.segments| - i
    ensures EndsAsThrown(c, env, CutFrom(c, jobDir, env, i))
  {
    var n := |c.segments|;
    if i == n {
      ConcatPhaseEnds(c, jobDir, env);
    } else if Resolves(c, i) && env.statusWriteOk(i + 1) {
      var args := CutArgs(c, jobDir, env, i);
      if RunFFmpeg(env.transcode(args)).Pass? {
        AttemptWriteEnd(c, jobDir, env, i + 1);
        EndsStep(c, env, CutFrom(c, jobDir, env, i), CutFrom(c, jobDir, env, i + 1),
                 StatusWrite(CutRecord(c, i), true), args);
      }
    }
  }

  /** A block that did not throw ends with the landed completed record; a
      block whose last write did not land threw the write error. */
  ghost predicate EndsAsThrown(c: Config, env: Env, a: Attempt) {
    && (a.thrown.None? ==> |a.writes| >= 1 && a.writes[|a.writes| - 1] == StatusWrite(CompletedRecord(c), true))
    && (|a.writes| > 0 && !a.writes[|a.writes| - 1].landed ==> a.thrown == Some(env.ioError))
  }

  lemma EndsStep(c: Config, env: Env, a: Attempt, rest: Attempt, w: StatusWrite, args: seq<string>)
    requires a == rest.(writes := [w] + rest.writes, calls := [args] + rest.calls)
    requires w.landed && EndsAsThrown(c, env, rest)
    ensures EndsAsThrown(c, env, a)
  {
    if |rest.writes| > 0 {
      assert a.writes[|a.writes| - 1] == rest.writes[|rest.writes| - 1];
    }
  }

  lemma ConcatPhaseEnds(c: Config, jobDir: string, env: Env)
    ensures EndsAsThrown(c, env, ConcatPhase(c, jobDir, env))
  {
  }

  /** Write `k` of a run lands exactly when the store accepts write `k`, and
      every write but the last landed. */
  lemma RunWriteIndex(c: Config, jobDir: string, env: Env)
    ensures |ProcessExportJob(c, jobDir, env).writes| >= 1
    ensures LandsAsAccepted(ProcessExportJob(c, jobDir, env).writes, env, 0)
  {
    if env.statusWriteOk(0) {
      AttemptWriteIndex(c, jobDir, env, 0);
      ConcludeLands(c, env, CutFrom(c, jobDir, env, 0));
    }
  }

  lemma ConcludeLands(c: Config, env: Env, a: Attempt)
    requires env.statusWriteOk(0) && LandsAsAccepted(a.writes, env, 1)
    ensures LandsAsAccepted(Conclude(c, env, a).writes, env, 0)
  {
    var w := StatusWrite(StartRecord(c), true);
    LandsCons(w, a.writes, env, 0);
    if a.thrown.Some? {
      var f := StatusWrite(FailedRecord(c, a.thrown.value), env.statusWriteOk(1 + |a.writes|));
      LandsSnoc([w] + a.writes, f, env, 0);
    }
  }

  /** A run that succeeds made every call, each of which succeeded, wrote the
      list, removed the temporary files and ends with the completed record
      (progress 1, with the download URL) landed. */
  lemma RunSucceeded(c: Config, jobDir: string, env: Env)
    requires ProcessExportJob(c, jobDir, env).exit == Succeeded
    ensures var r := ProcessExportJob(c, jobDir, env);
            && |r.writes| >= 2
            && r.writes[|r.writes| - 1] == StatusWrite(CompletedRecord(c), true)
            && r.writes[|r.writes| - 1].record.status == Completed
            && r.writes[|r.writes| - 1].record.progress == 1.0
            && r.writes[|r.writes| - 1].record.downloadUrl == Some("/api/export/" + c.id + "/download")
    ensures var r := ProcessExportJob(c, jobDir, env);
            && |r.calls| == |c.segments| + 1
            && RunFFmpeg(env.transcode(r.calls[|c.segments|])).Pass?
            && EarlierCallsPass(env, r.calls)
    ensures var r := ProcessExportJob(c, jobDir, env);
            && r.concatList == Some(ConcatListText(SegmentPaths(jobDir, |c.segments|)))
            && r.removed == SegmentPaths(jobDir, |c.segments|) + [ConcatListPath(jobDir)]
  {
    AttemptWriteEnd(c, jobDir, env, 0);
    AttemptCallChain(c, jobDir, env, 0);
    AttemptCompletes(c, jobDir, env, 0);
    var a := CutFrom(c, jobDir, env, 0);
    var writes := [StatusWrite(StartRecord(c), true)] + a.writes;
    assert writes[|writes| - 1] == a.writes[|a.writes| - 1];
  }

  /** A run that returns after a failure ends with the failed record for that
      error (progress 0) landed; a run that throws ends with a write that did
      not land, and throws the write error. */
  lemma RunFailed(c: Config, jobDir: string, env: Env)
    ensures var r := ProcessExportJob(c, jobDir, env);
            && |r.writes| >= 1
            && (r.exit.Failure? ==>
                  && r.writes[|r.writes| - 1] == StatusWrite(FailedRecord(c, r.exit.error), true)
                  && r.writes[|r.writes| - 1].record.status == Failed
                  && r.writes[|r.writes| - 1].record.progress == 0.0
                  && r.writes[|r.writes| - 1].record.error == Some(r.exit.error))
            && (r.exit.Raised? ==> !r.writes[|r.writes| - 1].landed && r.exit.error == env.ioError)
  {
  }

  // ---------------------------------------------------------------------------
  // The happy path and the invalid-index path
  // ---------------------------------------------------------------------------

  /** The record of write `m` of a run on which nothing fails: the start, one
      record per segment, the join, the completion. */
  function ExpectedRecord(c: Config, m: nat): StatusFile {
    var n := |c.segments|;
    if m == 0 then StartRecord(c)
    else if m <= n then CutRecord(c, m - 1)
    else if m == n + 1 then ConcatRecord(c)
    else CompletedRecord(c)
  }

  ghost predicate WritesAsExpected(c: Config, ws: seq<StatusWrite>, base: nat) {
    forall k :: 0 <= k < |ws| ==> ws[k] == StatusWrite(ExpectedRecord(c, base + k), true)
  }

  lemma ExpectedCons(c: Config, ws: seq<StatusWrite>, base: nat)
    requires WritesAsExpected(c, ws, base + 1)
    ensures WritesAsExpected(c, [StatusWrite(ExpectedRecord(c, base), true)] + ws, base)
  {
    var all := [StatusWrite(ExpectedRecord(c, base), true)] + ws;
    forall k | 1 <= k < |all|
      ensures all[k] == StatusWrite(ExpectedRecord(c, base + k), true)
    {
      assert all[k] == ws[k - 1];
      assert base + 1 + (k - 1) == base + k;
    }
  }

  /** Every source resolves, every cut and the join exit with 0, and every
      file write lands. */
  ghost predicate NothingFails(c: Config, jobDir: string, env: Env) {
    && (forall i :: 0 <= i < |c.segments| ==>
          Resolves(c, i) && RunFFmpeg(env.transcode(CutArgs(c, jobDir, env, i))).Pass?)
    && (forall k :: 0 <= k <= |c.segments| + 2 ==> env.statusWriteOk(k))
    && env.listWriteOk
    && RunFFmpeg(env.transcode(ConcatArgs(c, jobDir))).Pass?
  }

  lemma {:induction false} AttemptSucceeds(c: Config, jobDir: string, env: Env, i: nat)
    requires i <= |c.segments|
    requires NothingFails(c, jobDir, env)
    decreases |c.segments| - i, 1
    ensures Succeeds(c, CutFrom(c, jobDir, env, i), i)
  {
    var n := |c.segments|;
    if i == n {
      ConcatPhaseSucceeds(c, jobDir, env);
    } else {
      NothingFailsAt(c, jobDir, env, i);
      CutFromPassSucceeds(c, jobDir, env, i);
    }
  }

  lemma NothingFailsAt(c: Config, jobDir: string, env: Env, i: nat)
    requires i < |c.segments| && NothingFails(c, jobDir, env)
    ensures Resolves(c, i) && env.statusWriteOk(i + 1) && RunFFmpeg(env.transcode(CutArgs(c, jobDir, env, i))).Pass?
  {
  }

  /** The step of `AttemptSucceeds`: the cut of segment `i` passes, and the
      rest of the block succeeds. */
  lemma {:induction false} CutFromPassSucceeds(c: Config, jobDir: string, env: Env, i: nat)
    requires i < |c.segments| && Resolves(c, i) && env.statusWriteOk(i + 1)
    requires RunFFmpeg(env.transcode(CutArgs(c, jobDir, env, i))).Pass?
    requires NothingFails(c, jobDir, env)
    decreases |c.segments| - i, 0
    ensures Succeeds(c, CutFrom(c, jobDir, env, i), i)
  {
    AttemptSucceeds(c, jobDir, env, i + 1);
    CutFromPass(c, jobDir, env, i);
    SucceedsCons(c, CutFrom(c, jobDir, env, i + 1), CutArgs(c, jobDir, env, i), i);
  }

  /** The block from segment `i` on threw nothing and wrote the expected
      records from the one of segment `i` to the completed one. */
  ghost predicate Succeeds(c: Config, a: Attempt, i: nat) {
    && a.thrown.None?
    && |a.writes| == |c.segments| - i + 2
    && WritesAsExpected(c, a.writes, i + 1)
  }

  lemma SucceedsCons(c: Config, rest: Attempt, args: seq<string>, i: nat)
    requires i < |c.segments| && Succeeds(c, rest, i + 1)
    ensures Succeeds(c, rest.(writes := [StatusWrite(CutRecord(c, i), true)] + rest.writes,
                              calls := [args] + rest.calls), i)
  {
    assert ExpectedRecord(c, i + 1) == CutRecord(c, i);
    ExpectedCons(c, rest.writes, i + 1);
  }

  lemma ConcatPhaseSucceeds(c: Config, jobDir: string, env: Env)
    requires NothingFails(c, jobDir, env)
    ensures Succeeds(c, ConcatPhase(c, jobDir, env), |c.segments|)
  {
    var n := |c.segments|;
    assert env.statusWriteOk(n + 1) && env.statusWriteOk(n + 2);
  }

  /** When nothing fails the run succeeds, writing exactly the start record,
      one record per segment (with progress `i / n * 0.8` and the message
      "Cutting segment i+1 of n"), the join record and the completed record,
      after making exactly the `n` cuts and the join. */
  lemma HappyPath(c: Config, jobDir: string, env: Env)
    requires NothingFails(c, jobDir, env)
    ensures var r := ProcessExportJob(c, jobDir, env);
            && r.exit == Succeeded
            && |r.writes| == |c.segments| + 3
            && WritesAsExpected(c, r.writes, 0)
            && |r.calls| == |c.segments| + 1
            && CallsInOrder(c, jobDir, env, r.calls, 0)
  {
    assert env.statusWriteOk(0);
    AttemptSucceeds(c, jobDir, env, 0);
    var a := CutFrom(c, jobDir, env, 0);
    ExpectedCons(c, a.writes, 0);
    RunSucceeded(c, jobDir, env);
    RunCallShape(c, jobDir, env);
  }

  lemma {:induction false} AttemptStopsAt(c: Config, jobDir: string, env: Env, i: nat, k: nat)
    requires i <= k < |c.segments| && !Resolves(c, k)
    requires CutsPassBefore(c, jobDir, env, k)
    decreases k - i
    ensures StopsAfter(CutFrom(c, jobDir, env, i), InvalidSourceMessage(k, c.segments[k].sourceIndex), k - i)
  {
    if i < k {
      assert Resolves(c, i) && RunFFmpeg(env.transcode(CutArgs(c, jobDir, env, i))).Pass?;
      assert env.statusWriteOk(i + 1);
      AttemptStopsAt(c, jobDir, env, i + 1, k);
      CutFromPass(c, jobDir, env, i);
      StopsCons(CutFrom(c, jobDir, env, i + 1), StatusWrite(CutRecord(c, i), true), CutArgs(c, jobDir, env, i),
                InvalidSourceMessage(k, c.segments[k].sourceIndex), k - i - 1);
    } else {
      CutFromUnresolved(c, jobDir, env, k);
    }
  }

  /** Every segment before `k` resolves and its cut passes, and every status
      write up to `k` lands. */
  ghost predicate CutsPassBefore(c: Config, jobDir: string, env: Env, k: nat)
    requires k < |c.segments|
  {
    && (forall j :: 0 <= j < k ==> Resolves(c, j) && RunFFmpeg(env.transcode(CutArgs(c, jobDir, env, j))).Pass?)
    && (forall j :: 0 <= j <= k ==> env.statusWriteOk(j))
  }

  /** The block threw `msg` after `m` status writes and `m` calls. */
  ghost predicate StopsAfter(a: Attempt, msg: string, m: int) {
    a.thrown == Some(msg) && |a.writes| == m && |a.calls| == m
  }

  lemma StopsCons(rest: Attempt, w: StatusWrite, args: seq<string>, msg: string, m: int)
    requires StopsAfter(rest, msg, m)
    ensures StopsAfter(rest.(writes := [w] + rest.writes, calls := [args] + rest.calls), msg, m + 1)
  {
  }

  lemma CutFromUnresolved(c: Config, jobDir: string, env: Env, k: nat)
    requires k < |c.segments| && !Resolves(c, k)
    ensures StopsAfter(CutFrom(c, jobDir, env, k), InvalidSourceMessage(k, c.segments[k].sourceIndex), 0)
  {
  }

  /** The first segment whose source index does not resolve fails the job
      with "Segment k references invalid sourceIndex s", recorded at progress
      0, after the `k` earlier cuts and nothing more. */
  lemma InvalidSourceFails(c: Config, jobDir: string, env: Env, k: nat)
    requires k < |c.segments| && !Resolves(c, k)
    requires forall j :: 0 <= j < k ==> Resolves(c, j) && RunFFmpeg(env.transcode(CutArgs(c, jobDir, env, j))).Pass?
    requires forall j :: 0 <= j <= k + 1 ==> env.statusWriteOk(j)
    ensures var r := ProcessExportJob(c, jobDir, env);
            var msg := InvalidSourceMessage(k, c.segments[k].sourceIndex);
            && r.exit == Failure(msg)
            && |r.calls| == k
            && |r.writes| == k + 2
            && r.writes[k + 1] == StatusWrite(FailedRecord(c, msg), true)
            && r.concatList.None?
  {
    assert env.statusWriteOk(0);
    AttemptStopsAt(c, jobDir, env, 0, k);
    assert env.statusWriteOk(k + 1);
    UnresolvedSegmentStops(c, jobDir, env, k);
  }

  // ---------------------------------------------------------------------------
  // The concatenation list
  // ---------------------------------------------------------------------------

  /** Reading the list back line by line gives one `file '<path>'` line per
      segment, in segment order, as long as the job directory holds no line
      break. */
  lemma ConcatListLines(jobDir: string, n: nat)
    requires n >= 1 && '\n' !in jobDir
    ensures var lines := TextUtil.Split(ConcatListText(SegmentPaths(jobDir, n)), '\n');
            && |lines| == n
            && forall i :: 0 <= i < n ==> lines[i] == "file '" + jobDir + "/segment_" + TextUtil.NatToString(i) + ".mp4'"
  {
    var files := SegmentPaths(jobDir, n);
    var lines := seq(|files|, k requires 0 <= k < |files| => ListLine(files[k]));
    forall k | 0 <= k < |lines|
      ensures '\n' !in lines[k]
      ensures lines[k] == "file '" + jobDir + "/segment_" + TextUtil.NatToString(k) + ".mp4'"
    {
      ListLineNoBreak(jobDir, k);
    }
    TextUtil.SplitJoin(lines, '\n');
  }

  lemma ListLineNoBreak(jobDir: string, k: nat)
    requires '\n' !in jobDir
    ensures var line := ListLine(SegmentPath(jobDir, k));
            && line == "file '" + jobDir + "/segment_" + TextUtil.NatToString(k) + ".mp4'"
            && '\n' !in line
  {
    var d := TextUtil.NatToString(k);
    assert forall m :: 0 <= m < |d| ==> TextUtil.IsDigit(d[m]);
    assert ListLine(SegmentPath(jobDir, k)) == "file '" + jobDir + "/segment_" + d + ".mp4'";
  }
}

=== FILE: progress.dfy ===
/** Progress estimation from one line of the transcoder's diagnostic output:
    the first `time=HH:MM:SS.CC` stamp in the line, as a fraction of the
    expected total duration. */
module Progress {
  import opened Wrappers
  import TextUtil

  const Marker: string := "time="

  /** Length of a full match: the marker plus `DD:DD:DD.DD`. */
  const MatchLength: nat := 16

  /** The pattern `time=(\d{2}):(\d{2}):(\d{2})\.(\d{2})` matches at index `i`. */
  predicate MatchAt(line: string, i: nat) {
    && i + MatchLength <= |line|
    && line[i..i + 5] == Marker
    && TextUtil.IsDigit(line[i + 5]) && TextUtil.IsDigit(line[i + 6]) && line[i + 7] == ':'
    && TextUtil.IsDigit(line[i + 8]) && TextUtil.IsDigit(line[i + 9]) && line[i + 10] == ':'
    && TextUtil.IsDigit(line[i + 11]) && TextUtil.IsDigit(line[i + 12]) && line[i + 13] == '.'
    && TextUtil.IsDigit(line[i + 14]) && TextUtil.IsDigit(line[i + 15])
  }

  /** The leftmost match at or after `from`, as a regular expression's `exec` finds it. */
  function FirstMatch(line: string, from: nat): (r: Option<nat>)
    decreases |line| - from
    ensures r.Some? ==> from <= r.value && MatchAt(line, r.value)
    ensures r.Some? ==> forall j :: from <= j < r.value ==> !MatchAt(line, j)
    ensures r.None? ==> forall j :: from <= j ==> !MatchAt(line, j)
  {
    if from + MatchLength > |line| then None
    else if MatchAt(line, from) then Some(from)
    else FirstMatch(line, from + 1)
  }

  /** `parseInt` of a two-digit capture group. */
  function TwoDigits(line: string, i: nat): (v: nat)
    requires i + 1 < |line| && TextUtil.IsDigit(line[i]) && TextUtil.IsDigit(line[i + 1])
    ensures v < 100
  {
    10 * TextUtil.DigitValue(line[i]) + TextUtil.DigitValue(line[i + 1])
  }

  /** The time, in seconds, written by the match at `i`. */
  function TimeAt(line: string, i: nat): (t: real)
    requires MatchAt(line, i)
    ensures t >= 0.0
  {
    (TwoDigits(line, i + 5) * 3600 + TwoDigits(line, i + 8) * 60 + TwoDigits(line, i + 11)) as real
      + TwoDigits(line, i + 14) as real / 100.0
  }

  function Min(a: real, b: real): real {
    if a <= b then a else b
  }

  /** `parseProgressFromStderr`: `None` when the line holds no time stamp; 0
      for a non-positive total; otherwise the elapsed fraction capped at 1. */
  function ParseProgress(line: string, totalDuration: real): (r: Option<real>)
    ensures r.None? <==> forall j :: !MatchAt(line, j)
    ensures r.Some? && totalDuration <= 0.0 ==> r.value == 0.0
    ensures r.Some? && totalDuration > 0.0 ==> 0.0 <= r.value <= 1.0
    ensures r.Some? && totalDuration > 0.0 ==>
              exists i :: MatchAt(line, i) && r.value == Min(TimeAt(line, i) / totalDuration, 1.0)
  {
    match FirstMatch(line, 0)
    case None => None
    case Some(i) =>
      var currentTime := TimeAt(line, i);
      if totalDuration <= 0.0 then Some(0.0)
      else
        DivNonNegative(currentTime, totalDuration);
        Some(Min(currentTime / totalDuration, 1.0))
  }

  lemma DivNonNegative(a: real, b: real)
    requires a >= 0.0 && b > 0.0
    ensures a / b >= 0.0
  {
  }

  /** The value reported comes from the leftmost stamp in the line. */
  lemma UsesFirstMatch(line: string, i: nat, totalDuration: real)
    requires MatchAt(line, i)
    requires forall j :: 0 <= j < i ==> !MatchAt(line, j)
    requires totalDuration > 0.0
    ensures ParseProgress(line, totalDuration) == Some(Min(TimeAt(line, i) / totalDuration, 1.0))
  {
    var r := FirstMatch(line, 0);
    assert r.Some?;
  }

  // ---------------------------------------------------------------------------
  // Writing a time stamp, and reading it back
  // ---------------------------------------------------------------------------

  function Pad2(v: nat): (s: string)
    requires v < 100
    ensures |s| == 2 && TextUtil.IsDigit(s[0]) && TextUtil.IsDigit(s[1])
  {
    [TextUtil.DigitChar(v / 10), TextUtil.DigitChar(v % 10)]
  }

  /** The stamp the transcoder prints for `h:m:s.cs`. */
  function Stamp(h: nat, m: nat, s: nat, cs: nat): string
    requires h < 100 && m < 100 && s < 100 && cs < 100
  {
    Marker + Pad2(h) + ":" + Pad2(m) + ":" + Pad2(s) + "." + Pad2(cs)
  }

  /** The seconds a stamp `h:m:s.cs` stands for. */
  function Seconds(h: nat, m: nat, s: nat, cs: nat): real {
    (h * 3600 + m * 60 + s) as real + cs as real / 100.0
  }

  /** A line that starts with a stamp reports that stamp's time as
      `h*3600 + m*60 + s + cs/100` seconds, whatever follows it. */
  lemma StampRoundTrip(h: nat, m: nat, s: nat, cs: nat, rest: string, totalDuration: real)
    requires h < 100 && m < 100 && s < 100 && cs < 100
    requires totalDuration > 0.0
    ensures var line := Stamp(h, m, s, cs) + rest;
            && MatchAt(line, 0)
            && TimeAt(line, 0) == Seconds(h, m, s, cs)
            && ParseProgress(line, totalDuration) == Some(Min(Seconds(h, m, s, cs) / totalDuration, 1.0))
  {
    var line := Stamp(h, m, s, cs) + rest;
    StampMatches(h, m, s, cs, rest);
    UsesFirstMatch(line, 0, totalDuration);
  }

  lemma StampMatches(h: nat, m: nat, s: nat, cs: nat, rest: string)
    requires h < 100 && m < 100 && s < 100 && cs < 100
    ensures var line := Stamp(h, m, s, cs) + rest;
            && MatchAt(line, 0)
            && TimeAt(line, 0) == Seconds(h, m, s, cs)
  {
    var line := Stamp(h, m, s, cs) + rest;
    assert line[0..5] == Marker;
    assert line[5..7] == Pad2(h) && line[8..10] == Pad2(m) && line[11..13] == Pad2(s) && line[14..16] == Pad2(cs);
    assert line[7] == ':' && line[10] == ':' && line[13] == '.';
    Pad2Value(h, line, 5);
    Pad2Value(m, line, 8);
    Pad2Value(s, line, 11);
    Pad2Value(cs, line, 14);
  }

  /** Two padded digits read back as the number they pad. */
  lemma Pad2Value(v: nat, line: string, i: nat)
    requires v < 100 && i + 2 <= |line| && line[i..i + 2] == Pad2(v)
    ensures TextUtil.IsDigit(line[i]) && TextUtil.IsDigit(line[i + 1])
    ensures TwoDigits(line, i) == v
  {
    assert line[i] == Pad2(v)[0] && line[i + 1] == Pad2(v)[1];
    TextUtil.DigitCharValue(v / 10);
    TextUtil.DigitCharValue(v % 10);
  }
}

=== FILE: scheduler.dfy ===
/** The worker's polling loop: list the exports directory, select the job
    directories whose status record says "pending", and run them one after
    the other, each inside a handler that swallows every error.

    The file system is a value: the directory listing (`None` when it cannot
    be read), the status field of each job's readable status record, and the
    parsed descriptor of each job whose descriptor file can be read and parsed
    as JSON. */
module Scheduler {
  import opened Wrappers
  import opened ExportSchema
  import opened Processor

  /** One entry returned by `readdir(…, { withFileTypes: true })`. */
  datatype Entry = Entry(name: string, isDirectory: bool)

  /** The `status` field of each job directory's status record, for the job
      directories whose record can be read and parsed; a directory missing
      from the map has no readable record. The field is kept as text because
      the record is read back with an unchecked cast. */
  type StatusStore = map<string, string>

  function ExportsDir(mediaBase: string): string {
    JoinPath(mediaBase, "exports")
  }

  predicate IsPending(store: StatusStore, jobDir: string) {
    jobDir in store && store[jobDir] == "pending"
  }

  /** The loop body of `findPendingJobs` over `entries`. */
  function PendingAmong(exportsDir: string, entries: seq<Entry>, store: StatusStore): (r: seq<string>)
    ensures |r| <= |entries|
    ensures forall d :: d in r ==> IsPending(store, d)
  {
    if |entries| == 0 then []
    else
      var e := entries[0];
      var jobDir := JoinPath(exportsDir, e.name);
      var rest := PendingAmong(exportsDir, entries[1..], store);
      if e.isDirectory && IsPending(store, jobDir) then [jobDir] + rest else rest
  }

  /** `findPendingJobs`: the pending job directories in listing order; an
      unreadable directory yields no jobs. */
  function FindPendingJobs(exportsDir: string, listing: Option<seq<Entry>>, store: StatusStore): (r: seq<string>)
    ensures forall d :: d in r ==> IsPending(store, d)
  {
    match listing
    case None => []
    case Some(entries) => PendingAmong(exportsDir, entries, store)
  }

  /** A directory is selected exactly when some directory entry names it and
      its record says "pending". */
  lemma {:induction false} PendingAmongMembers(exportsDir: string, entries: seq<Entry>, store: StatusStore, jobDir: string)
    ensures jobDir in PendingAmong(exportsDir, entries, store) <==>
              exists k :: 0 <= k < |entries| && entries[k].isDirectory
                          && jobDir == JoinPath(exportsDir, entries[k].name) && IsPending(store, jobDir)
  {
    if |entries| > 0 {
      PendingAmongMembers(exportsDir, entries[1..], store, jobDir);
      var e := entries[0];
      if jobDir in PendingAmong(exportsDir, entries[1..], store) {
        var k :| 0 <= k < |entries[1..]| && entries[1..][k].isDirectory
                 && jobDir == JoinPath(exportsDir, entries[1..][k].name) && IsPending(store, jobDir);
        assert entries[k + 1] == entries[1..][k];
      }
      if exists k :: 0 <= k < |entries| && entries[k].isDirectory
                     && jobDir == JoinPath(exportsDir, entries[k].name) && IsPending(store, jobDir) {
        var k :| 0 <= k < |entries| && entries[k].isDirectory
                 && jobDir == JoinPath(exportsDir, entries[k].name) && IsPending(store, jobDir);
        if k > 0 {
          assert entries[1..][k - 1] == entries[k];
        }
      }
    }
  }

  /** Selection distributes over a split listing, so the selected jobs keep
      the listing's order. */
  lemma {:induction false} PendingAmongAppend(exportsDir: string, xs: seq<Entry>, ys: seq<Entry>, store: StatusStore)
    ensures PendingAmong(exportsDir, xs + ys, store)
            == PendingAmong(exportsDir, xs, store) + PendingAmong(exportsDir, ys, store)
  {
    if |xs| > 0 {
      assert (xs + ys)[0] == xs[0];
      assert (xs + ys)[1..] == xs[1..] + ys;
      PendingAmongAppend(exportsDir, xs[1..], ys, store);
    } else {
      assert xs + ys == ys;
    }
  }

  /** The selection from a readable listing, as membership. */
  lemma FindPendingJobsMembers(exportsDir: string, listing: Option<seq<Entry>>, store: StatusStore, jobDir: string)
    ensures listing.None? ==> FindPendingJobs(exportsDir, listing, store) == []
    ensures listing.Some? ==>
              (jobDir in FindPendingJobs(exportsDir, listing, store) <==>
                 exists k :: 0 <= k < |listing.value| && listing.value[k].isDirectory
                             && jobDir == JoinPath(exportsDir, listing.value[k].name) && IsPending(store, jobDir))
  {
    if listing.Some? {
      PendingAmongMembers(exportsDir, listing.value, store, jobDir);
    }
  }

  // ---------------------------------------------------------------------------
  // Running one job
  // ---------------------------------------------------------------------------

  /** What the worker sees of the file system and the outside world. */
  datatype World = World(
    configs: map<string, ConfigInput>,
    envOf: string -> Env,
    isDateTime: string -> bool)

  function ConfigPath(jobDir: string): string {
    JoinPath(jobDir, "config.json")
  }

  /** How `processJob` ended; it never lets an error escape. */
  datatype Report =
    | ConfigUnreadable
    | ConfigInvalid(issue: Issue)
    | Ran(run: Run)

  /** `processJob`: read and parse the descriptor, validate it, run it. */
  function ProcessJob(jobDir: string, world: World): (r: Report)
    ensures r.Ran? <==> ConfigPath(jobDir) in world.configs
                         && ParseConfig(world.configs[ConfigPath(jobDir)], world.isDateTime).Ok?
    ensures r.ConfigUnreadable? <==> ConfigPath(jobDir) !in world.configs
    ensures r.ConfigInvalid? ==> ParseConfig(world.configs[ConfigPath(jobDir)], world.isDateTime) == Err(r.issue)
    ensures r.Ran? ==>
              var parsed := ParseConfig(world.configs[ConfigPath(jobDir)], world.isDateTime);
              && ValidConfig(parsed.value, world.isDateTime)
              && r.run == ProcessExportJob(parsed.value, jobDir, world.envOf(jobDir))
  {
    var path := ConfigPath(jobDir);
    if path !in world.configs then ConfigUnreadable
    else
      match ParseConfig(world.configs[path], world.isDateTime)
      case Err(issue) => ConfigInvalid(issue)
      case Ok(c) => Ran(ProcessExportJob(c, jobDir, world.envOf(jobDir)))
  }

  /** The record a reader finds after the job: the last one that landed, or
      the record it found before when none did. */
  function AfterJob(store: StatusStore, jobDir: string, report: Report): (r: StatusStore)
    ensures forall d :: d != jobDir ==> (d in r <==> d in store) && (d in r ==> r[d] == store[d])
    ensures !report.Ran? || LastLanded(report.run.writes).None? ==> r == store
    ensures report.Ran? && LastLanded(report.run.writes).Some? ==>
              jobDir in r && r[jobDir] == StatusName(LastLanded(report.run.writes).value.status)
  {
    match report
    case Ran(run) =>
      (match LastLanded(run.writes)
       case Some(rec) => store[jobDir := StatusName(rec.status)]
       case None => store)
    case _ => store
  }

  /** The `for … of` loop over the selected jobs, in order. */
  function ProcessAll(jobs: seq<string>, world: World, store: StatusStore): (r: (seq<Report>, StatusStore))
    ensures |r.0| == |jobs|
    ensures forall k :: 0 <= k < |jobs| ==> r.0[k] == ProcessJob(jobs[k], world)
  {
    if |jobs| == 0 then ([], store)
    else
      var report := ProcessJob(jobs[0], world);
      var rest := ProcessAll(jobs[1..], world, AfterJob(store, jobs[0], report));
      ([report] + rest.0, rest.1)
  }

  /** One iteration of `pollLoop`: find the pending jobs, then run them. */
  function Poll(exportsDir: string, listing: Option<seq<Entry>>, world: World, store: StatusStore): (r: (seq<string>, seq<Report>, StatusStore))
    ensures r.0 == FindPendingJobs(exportsDir, listing, store)
    ensures forall d :: d in r.0 ==> IsPending(store, d)
    ensures |r.1| == |r.0| && forall k :: 0 <= k < |r.0| ==> r.1[k] == ProcessJob(r.0[k], world)
    ensures forall d :: d !in r.0 ==> (d in r.2 <==> d in store) && (d in store ==> r.2[d] == store[d])
  {
    var jobs := FindPendingJobs(exportsDir, listing, store);
    var (reports, store') := ProcessAll(jobs, world, store);
    forall d | d !in jobs
      ensures (d in store' <==> d in store) && (d in store ==> store'[d] == store[d])
    {
      ProcessAllFrame(jobs, world, store, d);
    }
    (jobs, reports, store')
  }

  // ---------------------------------------------------------------------------
  // Effects on the status records
  // ---------------------------------------------------------------------------

  /** A job only changes its own record. */
  lemma {:induction false} ProcessAllFrame(jobs: seq<string>, world: World, store: StatusStore, other: string)
    requires other !in jobs
    ensures var s := ProcessAll(jobs, world, store).1;
            (other in s <==> other in store) && (other in store ==> s[other] == store[other])
  {
    if |jobs| > 0 {
      assert other !in jobs[1..];
      ProcessAllFrame(jobs[1..], world, AfterJob(store, jobs[0], ProcessJob(jobs[0], world)), other);
    }
  }

  lemma LastLandedIsLast(ws: seq<StatusWrite>)
    requires |ws| > 0 && ws[|ws| - 1].landed
    ensures LastLanded(ws) == Some(ws[|ws| - 1].record)
  {
  }

  /** A descriptor that cannot be read or does not validate leaves the record
      as it was: a pending job stays pending and is selected again by the
      next poll. */
  lemma RejectedJobStaysPending(exportsDir: string, entries: seq<Entry>, k: nat, world: World, store: StatusStore)
    requires k < |entries| && entries[k].isDirectory
    requires IsPending(store, JoinPath(exportsDir, entries[k].name))
    requires !ProcessJob(JoinPath(exportsDir, entries[k].name), world).Ran?
    ensures var jobDir := JoinPath(exportsDir, entries[k].name);
            var store' := AfterJob(store, jobDir, ProcessJob(jobDir, world));
            && store' == store
            && jobDir in FindPendingJobs(exportsDir, Some(entries), store')
  {
    var jobDir := JoinPath(exportsDir, entries[k].name);
    PendingAmongMembers(exportsDir, entries, store, jobDir);
    assert entries[k].isDirectory && jobDir == JoinPath(exportsDir, entries[k].name) && IsPending(store, jobDir);
  }

  /** A job that completes is recorded as completed and a job that fails is
      recorded as failed, so neither is selected again. */
  lemma FinishedJobNotReselected(exportsDir: string, entries: seq<Entry>, jobDir: string, world: World, store: StatusStore)
    requires ProcessJob(jobDir, world).Ran?
    requires ProcessJob(jobDir, world).run.exit.Succeeded? || ProcessJob(jobDir, world).run.exit.Failure?
    ensures var report := ProcessJob(jobDir, world);
            var store' := AfterJob(store, jobDir, report);
            && jobDir in store'
            && (report.run.exit.Succeeded? ==> store'[jobDir] == "completed")
            && (report.run.exit.Failure? ==> store'[jobDir] == "failed")
            && jobDir !in FindPendingJobs(exportsDir, Some(entries), store')
  {
    FinishedStatus(jobDir, world);
    FinishedReportNotReselected(exportsDir, entries, jobDir, ProcessJob(jobDir, world), store);
  }

  /** `FinishedJobNotReselected` for any report whose run ended as it says. */
  lemma FinishedReportNotReselected(exportsDir: string, entries: seq<Entry>, jobDir: string, report: Report, store: StatusStore)
    requires report.Ran? && (report.run.exit.Succeeded? || report.run.exit.Failure?)
    requires LastLanded(report.run.writes).Some?
    requires report.run.exit.Succeeded? ==> LastLanded(report.run.writes).value.status == Completed
    requires report.run.exit.Failure? ==> LastLanded(report.run.writes).value.status == Failed
    ensures var store' := AfterJob(store, jobDir, report);
            && jobDir in store'
            && (report.run.exit.Succeeded? ==> store'[jobDir] == "completed")
            && (report.run.exit.Failure? ==> store'[jobDir] == "failed")
            && jobDir !in FindPendingJobs(exportsDir, Some(entries), store')
  {
    FinalNotReselected(exportsDir, entries, jobDir, report, store);
  }

  /** A run whose last landed record is final leaves its job recorded under
      that record's status, and so out of the next pending list. */
  lemma FinalNotReselected(exportsDir: string, entries: seq<Entry>, jobDir: string, report: Report, store: StatusStore)
    requires report.Ran? && LastLanded(report.run.writes).Some?
    requires LastLanded(report.run.writes).value.status in {Completed, Failed}
    ensures var store' := AfterJob(store, jobDir, report);
            && jobDir in store'
            && store'[jobDir] == StatusName(LastLanded(report.run.writes).value.status)
            && jobDir !in FindPendingJobs(exportsDir, Some(entries), store')
  {
    var store' := AfterJob(store, jobDir, report);
    assert store' == store[jobDir := StatusName(LastLanded(report.run.writes).value.status)];
    assert !IsPending(store', jobDir);
    PendingAmongMembers(exportsDir, entries, store', jobDir);
  }

  /** The last record a finished job lands names how it finished. */
  lemma FinishedStatus(jobDir: string, world: World)
    requires ProcessJob(jobDir, world).Ran?
    requires ProcessJob(jobDir, world).run.exit.Succeeded? || ProcessJob(jobDir, world).run.exit.Failure?
    ensures var run := ProcessJob(jobDir, world).run;
            && LastLanded(run.writes).Some?
            && (run.exit.Succeeded? ==> LastLanded(run.writes).value.status == Completed)
            && (run.exit.Failure? ==> LastLanded(run.writes).value.status == Failed)
  {
    var report := ProcessJob(jobDir, world);
    var c := ParseConfig(world.configs[ConfigPath(jobDir)], world.isDateTime).value;
    RunFinalStatus(c, jobDir, world.envOf(jobDir));
  }

  /** A run that finished lands its final record last. */
  lemma RunFinalStatus(c: Config, jobDir: string, env: Env)
    requires ProcessExportJob(c, jobDir, env).exit.Succeeded? || ProcessExportJob(c, jobDir, env).exit.Failure?
    ensures var r := ProcessExportJob(c, jobDir, env);
            && LastLanded(r.writes).Some?
            && (r.exit.Succeeded? ==> LastLanded(r.writes).value.status == Completed)
            && (r.exit.Failure? ==> LastLanded(r.writes).value.status == Failed)
  {
    var r := ProcessExportJob(c, jobDir, env);
    if r.exit.Succeeded? {
      RunSucceeded(c, jobDir, env);
    } else {
      RunFailed(c, jobDir, env);
    }
    LastLandedIsLast(r.writes);
  }
}

=== FILE: text_layout.dfy ===
/** Geometry of a text block: the vertical extent of its lines from their
    font metrics, the rectangle the text occupies for an alignment, the
    background rectangle around it, and the rectangle covering both. All
    rectangles are relative to the text's anchor point. */
module TextLayout {
  import opened Wrappers

  /** The part of a line's `TextMetrics` the layout reads; an absent bounding
      box metric is `None`. */
  datatype LineMetrics = LineMetrics(ascent: Option<real>, descent: Option<real>, width: real)

  datatype Block = Block(visualCenterOffset: real, height: real, maxWidth: real)

  datatype Rect = Rect(left: real, top: real, width: real, height: real)

  datatype TextAlign = AlignLeft | AlignCenter | AlignRight

  /** A text element's `background`; the fields left undefined are `None`. */
  datatype Background = Background(
    color: string, paddingX: Option<real>, paddingY: Option<real>, offsetX: Option<real>, offsetY: Option<real>)

  /** The editor's default background padding and offsets. */
  datatype BackgroundDefaults = BackgroundDefaults(paddingX: real, paddingY: real, offsetX: real, offsetY: real)

  /** `getMetricAscent`: the measured ascent, or 0.8 of the font size. */
  function Ascent(m: LineMetrics, fallbackFontSize: real): (r: real)
    ensures m.ascent.None? ==> r == 0.8 * fallbackFontSize
    ensures m.ascent.Some? ==> r == m.ascent.value
  {
    m.ascent.GetOr(fallbackFontSize * 0.8)
  }

  /** `getMetricDescent`: the measured descent, or 0.2 of the font size. */
  function Descent(m: LineMetrics, fallbackFontSize: real): (r: real)
    ensures m.descent.None? ==> r == 0.2 * fallbackFontSize
    ensures m.descent.Some? ==> r == m.descent.value
  {
    m.descent.GetOr(fallbackFontSize * 0.2)
  }

  /** Without measured metrics a line spans exactly one font size, four
      fifths of it above the baseline; a measured metric replaces only its
      own side. */
  lemma FallbackSpansFontSize(m: LineMetrics, fallbackFontSize: real)
    ensures m.ascent.None? && m.descent.None? ==>
              && Ascent(m, fallbackFontSize) + Descent(m, fallbackFontSize) == fallbackFontSize
              && Ascent(m, fallbackFontSize) == 4.0 * Descent(m, fallbackFontSize)
    ensures Ascent(m, fallbackFontSize) == Ascent(m.(descent := None), fallbackFontSize)
    ensures Descent(m, fallbackFontSize) == Descent(m.(ascent := None), fallbackFontSize)
  {
  }

  /** The top and bottom of line `i`, whose baseline is `i` line heights down. */
  function LineTop(lines: seq<LineMetrics>, i: nat, lineHeight: real, fallbackFontSize: real): real
    requires i < |lines|
  {
    i as real * lineHeight - Ascent(lines[i], fallbackFontSize)
  }

  function LineBottom(lines: seq<LineMetrics>, i: nat, lineHeight: real, fallbackFontSize: real): real
    requires i < |lines|
  {
    i as real * lineHeight + Descent(lines[i], fallbackFontSize)
  }

  /** `top` is the highest line top among the first `n` lines. */
  ghost predicate IsTop(lines: seq<LineMetrics>, n: nat, lineHeight: real, fallbackFontSize: real, top: real)
    requires n <= |lines|
  {
    && (forall i :: 0 <= i < n ==> top <= LineTop(lines, i, lineHeight, fallbackFontSize))
    && (exists i :: 0 <= i < n && top == LineTop(lines, i, lineHeight, fallbackFontSize))
  }

  /** `bottom` is the lowest line bottom among the first `n` lines. */
  ghost predicate IsBottom(lines: seq<LineMetrics>, n: nat, lineHeight: real, fallbackFontSize: real, bottom: real)
    requires n <= |lines|
  {
    && (forall i :: 0 <= i < n ==> LineBottom(lines, i, lineHeight, fallbackFontSize) <= bottom)
    && (exists i :: 0 <= i < n && bottom == LineBottom(lines, i, lineHeight, fallbackFontSize))
  }

  /** `w` is the widest of the first `n` lines, and at least 0. */
  ghost predicate IsMaxWidth(lines: seq<LineMetrics>, n: nat, w: real)
    requires n <= |lines|
  {
    && 0.0 <= w
    && (forall i :: 0 <= i < n ==> lines[i].width <= w)
    && (w == 0.0 || exists i :: 0 <= i < n && w == lines[i].width)
  }

  /** `measureTextBlock`. With no lines the source's running extremes stay
      at plus and minus infinity, so the height is minus infinity and the
      centre is not a number: `None` here. Otherwise the block spans from the
      highest line top to the lowest line bottom, its centre is that span's
      midpoint, and its width is the widest line's (never below 0). */
  method MeasureTextBlock(lines: seq<LineMetrics>, lineHeight: real, fallbackFontSize: real) returns (r: Option<Block>)
    ensures r.None? <==> |lines| == 0
    ensures r.Some? ==>
              var top := r.value.visualCenterOffset - r.value.height / 2.0;
              var bottom := r.value.visualCenterOffset + r.value.height / 2.0;
              && IsTop(lines, |lines|, lineHeight, fallbackFontSize, top)
              && IsBottom(lines, |lines|, lineHeight, fallbackFontSize, bottom)
              && IsMaxWidth(lines, |lines|, r.value.maxWidth)
  {
    if |lines| == 0 {
      return None;
    }
    var top := LineTop(lines, 0, lineHeight, fallbackFontSize);
    var bottom := LineBottom(lines, 0, lineHeight, fallbackFontSize);
    var maxWidth := if lines[0].width > 0.0 then lines[0].width else 0.0;
    var index := 1;
    while index < |lines|
      invariant 1 <= index <= |lines|
      invariant IsTop(lines, index, lineHeight, fallbackFontSize, top)
      invariant IsBottom(lines, index, lineHeight, fallbackFontSize, bottom)
      invariant IsMaxWidth(lines, index, maxWidth)
    {
      var lineTop := LineTop(lines, index, lineHeight, fallbackFontSize);
      var lineBottom := LineBottom(lines, index, lineHeight, fallbackFontSize);
      if lineTop < top {
        top := lineTop;
      }
      if lineBottom > bottom {
        bottom := lineBottom;
      }
      if lines[index].width > maxWidth {
        maxWidth := lines[index].width;
      }
      index := index + 1;
    }
    var height := bottom - top;
    var centre := (top + bottom) / 2.0;
    assert centre - height / 2.0 == top && centre + height / 2.0 == bottom;
    return Some(Block(centre, height, maxWidth));
  }

  /** A single line spans its ascent above the baseline and its descent
      below it. */
  lemma SingleLineBlock(m: LineMetrics, lineHeight: real, fallbackFontSize: real, top: real, bottom: real)
    requires IsTop([m], 1, lineHeight, fallbackFontSize, top)
    requires IsBottom([m], 1, lineHeight, fallbackFontSize, bottom)
    ensures bottom - top == Ascent(m, fallbackFontSize) + Descent(m, fallbackFontSize)
    ensures (top + bottom) / 2.0 == (Descent(m, fallbackFontSize) - Ascent(m, fallbackFontSize)) / 2.0
  {
    assert top == LineTop([m], 0, lineHeight, fallbackFontSize);
    assert bottom == LineBottom([m], 0, lineHeight, fallbackFontSize);
  }

  // ---------------------------------------------------------------------------
  // Rectangles
  // ---------------------------------------------------------------------------

  function Right(r: Rect): real { r.left + r.width }
  function Bottom(r: Rect): real { r.top + r.height }

  /** `outer` covers `inner`. */
  predicate Contains(outer: Rect, inner: Rect) {
    outer.left <= inner.left && Right(inner) <= Right(outer)
    && outer.top <= inner.top && Bottom(inner) <= Bottom(outer)
  }

  /** `getTextRect`: the block's size, centred vertically on the anchor and
      placed horizontally by the alignment. */
  function TextRect(align: TextAlign, block: Block): (r: Rect)
    ensures r.width == block.maxWidth && r.height == block.height
    ensures r.top + r.height / 2.0 == 0.0
    ensures align == AlignLeft ==> r.left == 0.0
    ensures align == AlignRight ==> Right(r) == 0.0
    ensures align == AlignCenter ==> r.left + r.width / 2.0 == 0.0
  {
    var left := match align
                case AlignLeft => 0.0
                case AlignRight => -block.maxWidth
                case AlignCenter => -block.maxWidth / 2.0;
    Rect(left, -block.height / 2.0, block.maxWidth, block.height)
  }

  /** `isTextBackgroundVisible`: a colour that is neither empty nor
      "transparent". */
  predicate BackgroundVisible(bg: Background) {
    bg.color != "" && bg.color != "transparent"
  }

  /** `getTextBackgroundRect`: the text rectangle grown by the padding
      (scaled by the font-size ratio) on each side, then moved by the
      offset; the defaults fill the missing fields. */
  function BackgroundRect(align: TextAlign, block: Block, bg: Background, defaults: BackgroundDefaults,
                          fontSizeRatio: real): (r: Option<Rect>)
    ensures r.None? <==> !BackgroundVisible(bg)
    ensures r.Some? ==>
              var t := TextRect(align, block);
              var px := bg.paddingX.GetOr(defaults.paddingX) * fontSizeRatio;
              var py := bg.paddingY.GetOr(defaults.paddingY) * fontSizeRatio;
              && r.value.width == t.width + 2.0 * px
              && r.value.height == t.height + 2.0 * py
              && r.value.left + r.value.width / 2.0 == t.left + t.width / 2.0 + bg.offsetX.GetOr(defaults.offsetX)
              && r.value.top + r.value.height / 2.0 == t.top + t.height / 2.0 + bg.offsetY.GetOr(defaults.offsetY)
  {
    if !BackgroundVisible(bg) then None
    else
      var t := TextRect(align, block);
      var px := bg.paddingX.GetOr(defaults.paddingX) * fontSizeRatio;
      var py := bg.paddingY.GetOr(defaults.paddingY) * fontSizeRatio;
      var ox := bg.offsetX.GetOr(defaults.offsetX);
      var oy := bg.offsetY.GetOr(defaults.offsetY);
      Some(Rect(t.left - px + ox, t.top - py + oy, t.width + px * 2.0, t.height + py * 2.0))
  }

  /** With no offset and non-negative padding the background covers the
      text. */
  lemma BackgroundCoversText(align: TextAlign, block: Block, bg: Background, defaults: BackgroundDefaults,
                             fontSizeRatio: real)
    requires BackgroundVisible(bg) && fontSizeRatio >= 0.0
    requires bg.paddingX.GetOr(defaults.paddingX) >= 0.0 && bg.paddingY.GetOr(defaults.paddingY) >= 0.0
    requires bg.offsetX.GetOr(defaults.offsetX) == 0.0 && bg.offsetY.GetOr(defaults.offsetY) == 0.0
    ensures Contains(BackgroundRect(align, block, bg, defaults, fontSizeRatio).value, TextRect(align, block))
  {
    var px := bg.paddingX.GetOr(defaults.paddingX);
    var py := bg.paddingY.GetOr(defaults.paddingY);
    assert px * fontSizeRatio >= 0.0 && py * fontSizeRatio >= 0.0;
  }

  /** `getTextVisualRect`: the text rectangle, or the smallest rectangle
      covering it and the visible background. */
  function VisualRect(align: TextAlign, block: Block, bg: Background, defaults: BackgroundDefaults,
                      fontSizeRatio: real): (r: Rect)
    ensures !BackgroundVisible(bg) ==> r == TextRect(align, block)
    ensures Contains(r, TextRect(align, block))
    ensures BackgroundVisible(bg) ==> Contains(r, BackgroundRect(align, block, bg, defaults, fontSizeRatio).value)
  {
    var t := TextRect(align, block);
    match BackgroundRect(align, block, bg, defaults, fontSizeRatio)
    case None => t
    case Some(b) =>
      var left := if t.left <= b.left then t.left else b.left;
      var top := if t.top <= b.top then t.top else b.top;
      var right := if Right(t) >= Right(b) then Right(t) else Right(b);
      var bottom := if Bottom(t) >= Bottom(b) then Bottom(t) else Bottom(b);
      Rect(left, top, right - left, bottom - top)
  }

  /** Any rectangle covering the text and the visible background covers the
      visual rectangle: it is the smallest such. */
  lemma VisualRectSmallest(align: TextAlign, block: Block, bg: Background, defaults: BackgroundDefaults,
                           fontSizeRatio: real, q: Rect)
    requires Contains(q, TextRect(align, block))
    requires BackgroundVisible(bg) ==> Contains(q, BackgroundRect(align, block, bg, defaults, fontSizeRatio).value)
    ensures Contains(q, VisualRect(align, block, bg, defaults, fontSizeRatio))
  {
  }
}

=== FILE: text_node.dfy ===
/** The pure helpers of the canvas text node: font scaling, quoting of the
    font family for the CSS `font` shorthand, the geometry of underline and
    strike-through, and the element's visibility window. */
module TextNode {
  import opened Wrappers
  import TextLayout

  // ---------------------------------------------------------------------------
  // Font size
  // ---------------------------------------------------------------------------

  /** `scaleFontSize`: font sizes are authored against a reference canvas
      height and scaled to the actual one. The reference is an editor
      constant, positive. */
  function ScaleFontSize(fontSize: real, canvasHeight: real, reference: real): (r: real)
    requires reference > 0.0
    ensures canvasHeight == reference ==> r == fontSize
    ensures r * reference == fontSize * canvasHeight
  {
    fontSize * (canvasHeight / reference)
  }

  /** Scaling is linear in the font size and monotone for a positive canvas. */
  lemma ScaleFontSizeLinear(a: real, b: real, k: real, canvasHeight: real, reference: real)
    requires reference > 0.0
    ensures ScaleFontSize(a + b, canvasHeight, reference)
            == ScaleFontSize(a, canvasHeight, reference) + ScaleFontSize(b, canvasHeight, reference)
    ensures ScaleFontSize(k * a, canvasHeight, reference) == k * ScaleFontSize(a, canvasHeight, reference)
    ensures canvasHeight > 0.0 && a < b ==> ScaleFontSize(a, canvasHeight, reference) < ScaleFontSize(b, canvasHeight, reference)
  {
    var f := canvasHeight / reference;
    assert ScaleFontSize(k * a, canvasHeight, reference) == (k * a) * f == k * (a * f);
    if canvasHeight > 0.0 && a < b {
      assert f > 0.0;
      assert (b - a) * f > 0.0;
      assert ScaleFontSize(b, canvasHeight, reference) - ScaleFontSize(a, canvasHeight, reference) == (b - a) * f;
    }
  }

  // ---------------------------------------------------------------------------
  // Font family quoting
  // ---------------------------------------------------------------------------

  const Quote: char := '"'
  const Backslash: char := '\\'

  /** The number of double quotes in `s`. */
  function QuoteCount(s: string): nat {
    if |s| == 0 then 0 else (if s[0] == Quote then 1 else 0) + QuoteCount(s[1..])
  }

  /** `fontFamily.replace(/"/g, '\\"')`: a backslash before every double quote. */
  function Escape(s: string): (r: string)
    ensures |r| == |s| + QuoteCount(s)
    ensures |r| > 0 ==> r[0] != Quote
  {
    if |s| == 0 then []
    else if s[0] == Quote then [Backslash, Quote] + Escape(s[1..])
    else [s[0]] + Escape(s[1..])
  }

  /** The reading that `Escape` is built for: a backslash followed by a quote
      is a quote, every other character stands for itself. A CSS parser reads
      escapes differently (see `CssRead`). */
  function Unescape(s: string): string {
    if |s| == 0 then []
    else if |s| >= 2 && s[0] == Backslash && s[1] == Quote then [Quote] + Unescape(s[2..])
    else [s[0]] + Unescape(s[1..])
  }

  /** `quoteFontFamily`. */
  function QuoteFontFamily(family: string): (r: string)
    ensures |r| == |family| + 2 + QuoteCount(family)
    ensures r[0] == Quote && r[|r| - 1] == Quote
  {
    [Quote] + Escape(family) + [Quote]
  }

  /** The inverse of `QuoteFontFamily`: strip the delimiters and unescape. */
  function UnquoteFontFamily(s: string): Option<string> {
    if |s| >= 2 && s[0] == Quote && s[|s| - 1] == Quote then Some(Unescape(s[1..|s| - 1])) else None
  }

  lemma {:induction false} EscapeRoundTrip(s: string)
    ensures Unescape(Escape(s)) == s
  {
    if |s| > 0 {
      EscapeRoundTrip(s[1..]);
      var rest := Escape(s[1..]);
      if s[0] == Quote {
        var e := [Backslash, Quote] + rest;
        assert e[2..] == rest;
      } else {
        var e := [s[0]] + rest;
        assert e[1..] == rest;
        assert !(|e| >= 2 && e[0] == Backslash && e[1] == Quote);
      }
    }
  }

  /** Quoting loses nothing under the reading `Unescape` assumes. */
  lemma QuoteRoundTrip(family: string)
    ensures UnquoteFontFamily(QuoteFontFamily(family)) == Some(family)
  {
    var q := QuoteFontFamily(family);
    assert q[1..|q| - 1] == Escape(family);
    EscapeRoundTrip(family);
  }

  /** Every quote inside the escaped text follows a backslash. That backslash
      may itself follow one from the family, so this alone does not keep the
      CSS string from ending early (see `BackslashEndsCssString`). */
  lemma {:induction false} EscapedQuotesFollowBackslash(s: string, i: nat)
    requires i < |Escape(s)| && Escape(s)[i] == Quote
    ensures i > 0 && Escape(s)[i - 1] == Backslash
  {
    if |s| > 0 {
      var rest := Escape(s[1..]);
      if s[0] == Quote {
        if i >= 2 {
          assert Escape(s)[i] == rest[i - 2];
          EscapedQuotesFollowBackslash(s[1..], i - 2);
          assert Escape(s)[i - 1] == rest[i - 3];
        }
      } else {
        assert i != 0;
        assert Escape(s)[i] == rest[i - 1];
        EscapedQuotesFollowBackslash(s[1..], i - 1);
        assert Escape(s)[i - 1] == rest[i - 2];
      }
    }
  }

  /** How a CSS string body is read, as far as quoting needs: a backslash
      makes the next character literal, and the first unescaped double quote
      ends the string. The result is the text read and what follows it,
      starting at the closing quote. Hexadecimal escapes and escaped newlines
      are not modelled. */
  function CssRead(s: string): (r: (string, string))
    ensures |r.0| <= |s| && |r.1| <= |s|
    ensures |r.1| > 0 ==> r.1[0] == Quote
  {
    if |s| == 0 then ([], [])
    else if s[0] == Quote then ([], s)
    else if s[0] == Backslash && |s| >= 2 then var t := CssRead(s[2..]); ([s[1]] + t.0, t.1)
    else var t := CssRead(s[1..]); ([s[0]] + t.0, t.1)
  }

  /** A family without backslashes survives quoting: CSS reads exactly the
      family back, and the string ends at the closing quote. */
  lemma {:induction false} CssReadsEscaped(s: string)
    requires forall i :: 0 <= i < |s| ==> s[i] != Backslash
    ensures CssRead(Escape(s)) == (s, [])
  {
    if |s| > 0 {
      CssReadsEscaped(s[1..]);
      var rest := Escape(s[1..]);
      assert s == [s[0]] + s[1..];
      if s[0] == Quote {
        assert ([Backslash, Quote] + rest)[2..] == rest;
      } else {
        assert s[0] != Backslash;
        assert ([s[0]] + rest)[1..] == rest;
      }
    }
  }

  /** A family with a backslash before a quote does not survive: the
      backslash escapes the added one, and the string ends before `b`. */
  lemma BackslashEndsCssString()
    ensures Escape(['a', Backslash, Quote, 'b']) == ['a', Backslash, Backslash, Quote, 'b']
    ensures CssRead(Escape(['a', Backslash, Quote, 'b'])) == (['a', Backslash], [Quote, 'b'])
  {
    var e := ['a', Backslash, Backslash, Quote, 'b'];
    assert Escape(['b']) == ['b'];
    assert Escape([Quote, 'b']) == [Backslash, Quote, 'b'];
    assert Escape([Backslash, Quote, 'b']) == [Backslash, Backslash, Quote, 'b'];
    assert Escape(['a', Backslash, Quote, 'b']) == e;
    var tail := e[1..];
    assert tail[0] == Backslash && tail[1] == Backslash && |tail| == 4;
    assert tail[2..] == [Quote, 'b'];
    assert CssRead([Quote, 'b']) == ([], [Quote, 'b']);
    assert tail[0] != Quote;
    var end := CssRead(tail[2..]);
    assert end.0 == [] && end.1 == [Quote, 'b'];
    assert CssRead(tail) == ([tail[1]] + end.0, end.1);
    assert [tail[1]] + end.0 == [Backslash];
    var mid := CssRead(tail);
    assert CssRead(e) == ([e[0]] + mid.0, mid.1);
    assert [e[0]] + mid.0 == ['a', Backslash];
  }

  // ---------------------------------------------------------------------------
  // Decorations
  // ---------------------------------------------------------------------------

  /** `Math.max(1, size * 0.07)`. */
  function Thickness(scaledFontSize: real): (r: real)
    ensures r >= 1.0
    ensures r >= 0.07 * scaledFontSize
    ensures r == 1.0 || r == 0.07 * scaledFontSize
  {
    if 1.0 >= scaledFontSize * 0.07 then 1.0 else scaledFontSize * 0.07
  }

  /** The left edge of a decoration under a line of the given width. */
  function DecorationStart(align: TextLayout.TextAlign, lineWidth: real): real {
    match align
    case AlignLeft => 0.0
    case AlignRight => -lineWidth
    case AlignCenter => -lineWidth / 2.0
  }

  /** The rectangle `drawTextDecoration` fills, if any. Only "underline" and
      "line-through" draw; "none", the empty string and every other value
      draw nothing. */
  function DecorationRect(textDecoration: string, lineWidth: real, lineY: real, metrics: TextLayout.LineMetrics,
                          scaledFontSize: real, align: TextLayout.TextAlign): (r: Option<TextLayout.Rect>)
    ensures r.Some? <==> textDecoration == "underline" || textDecoration == "line-through"
    ensures textDecoration == "none" || textDecoration == "" ==> r.None?
    ensures r.Some? ==>
              && r.value.width == lineWidth
              && r.value.height == Thickness(scaledFontSize) >= 1.0
              && r.value.left == DecorationStart(align, lineWidth)
    ensures textDecoration == "underline" ==>
              r.value.top == lineY + TextLayout.Descent(metrics, scaledFontSize) + Thickness(scaledFontSize)
    ensures textDecoration == "line-through" ==>
              r.value.top == lineY - (TextLayout.Ascent(metrics, scaledFontSize)
                                      - TextLayout.Descent(metrics, scaledFontSize)) * 0.35
  {
    if textDecoration == "none" || textDecoration == "" then None
    else
      var thickness := Thickness(scaledFontSize);
      var ascent := TextLayout.Ascent(metrics, scaledFontSize);
      var descent := TextLayout.Descent(metrics, scaledFontSize);
      var xStart := DecorationStart(align, lineWidth);
      if textDecoration == "underline" then
        Some(TextLayout.Rect(xStart, lineY + descent + thickness, lineWidth, thickness))
      else if textDecoration == "line-through" then
        Some(TextLayout.Rect(xStart, lineY - (ascent - descent) * 0.35, lineWidth, thickness))
      else None
  }

  /** A decoration spans the same columns as the text rectangle of a block
      whose widest line is this line. */
  lemma DecorationUnderText(textDecoration: string, lineY: real, metrics: TextLayout.LineMetrics,
                            scaledFontSize: real, align: TextLayout.TextAlign, block: TextLayout.Block)
    requires textDecoration == "underline" || textDecoration == "line-through"
    ensures var d := DecorationRect(textDecoration, block.maxWidth, lineY, metrics, scaledFontSize, align).value;
            var t := TextLayout.TextRect(align, block);
            d.left == t.left && TextLayout.Right(d) == TextLayout.Right(t)
  {
  }

  /** The underline lies wholly below the line's glyphs, at least one unit
      under their lowest point. */
  lemma UnderlineBelowGlyphs(lineWidth: real, lineY: real, metrics: TextLayout.LineMetrics,
                             scaledFontSize: real, align: TextLayout.TextAlign)
    ensures var d := DecorationRect("underline", lineWidth, lineY, metrics, scaledFontSize, align).value;
            d.top >= lineY + TextLayout.Descent(metrics, scaledFontSize) + 1.0
  {
  }

  /** With a descent no larger than the ascent, both non-negative, the strike
      line starts between the glyphs' top and the baseline. */
  lemma StrikeWithinGlyphs(lineWidth: real, lineY: real, metrics: TextLayout.LineMetrics,
                           scaledFontSize: real, align: TextLayout.TextAlign)
    requires 0.0 <= TextLayout.Descent(metrics, scaledFontSize) <= TextLayout.Ascent(metrics, scaledFontSize)
    ensures var d := DecorationRect("line-through", lineWidth, lineY, metrics, scaledFontSize, align).value;
            lineY - TextLayout.Ascent(metrics, scaledFontSize) <= d.top <= lineY
  {
  }

  // ---------------------------------------------------------------------------
  // Visibility window
  // ---------------------------------------------------------------------------

  /** `isInRange`: the element shows from its start time, up to but not
      including its end. */
  function IsInRange(startTime: real, duration: real, time: real): (r: bool)
    ensures r <==> 0.0 <= time - startTime < duration
    ensures r ==> duration > 0.0
  {
    time >= startTime && time < startTime + duration
  }

  /** Splitting an element's window in two at an offset `d1` inside it gives
      two windows that cover it without overlap. */
  lemma InRangeSplit(startTime: real, d1: real, d2: real, time: real)
    requires d1 >= 0.0 && d2 >= 0.0
    ensures IsInRange(startTime, d1 + d2, time) <==>
              IsInRange(startTime, d1, time) || IsInRange(startTime + d1, d2, time)
    ensures !(IsInRange(startTime, d1, time) && IsInRange(startTime + d1, d2, time))
  {
  }

  /** An element with no positive duration never shows. */
  lemma EmptyRangeNeverShows(startTime: real, duration: real, time: real)
    requires duration <= 0.0
    ensures !IsInRange(startTime, duration, time)
  {
  }
}

=== FILE: text_properties.dfy ===
/** The numeric fields of the text properties panel. A stored value is shown
    as an integer offset from its default (scaled for the line height), and
    typed input is turned back into a stored value by a `parse` closure that
    rejects text `parseFloat` reads as NaN.

    `parseFloat` itself is not modelled: every parse takes its result, `None`
    standing for NaN. */
module TextProperties {
  import opened Wrappers

  /** `Math.round`: the nearest integer, halves rounding up. */
  function Round(x: real): (r: int)
    ensures x - 0.5 < r as real <= x + 0.5
  {
    (x + 0.5).Floor
  }

  lemma RoundInteger(n: int)
    ensures Round(n as real) == n
  {
  }

  // ---------------------------------------------------------------------------
  // Offset converters
  // ---------------------------------------------------------------------------

  /** `createOffsetConverter`'s options; `scale` defaults to 1 and is
      positive in every use. */
  datatype Converter = Converter(defaultValue: real, scale: real, min: Option<real>)

  predicate ValidConverter(c: Converter) {
    c.scale > 0.0
  }

  /** `toDisplay`: the stored value's distance from the default, scaled and
      rounded. */
  function ToDisplay(c: Converter, value: real): (r: int)
    requires ValidConverter(c)
    ensures (value - c.defaultValue) * c.scale - 0.5 < r as real <= (value - c.defaultValue) * c.scale + 0.5
  {
    Round((value - c.defaultValue) * c.scale)
  }

  /** `fromDisplay`: the default moved by the display value, unscaled, and
      raised to the minimum when there is one. */
  function FromDisplay(c: Converter, display: real): (r: real)
    requires ValidConverter(c)
    ensures c.min.Some? ==> r >= c.min.value
    ensures c.min.Some? ==> r == c.min.value || r == c.defaultValue + display / c.scale
    ensures c.min.None? ==> r == c.defaultValue + display / c.scale
    ensures r >= c.defaultValue + display / c.scale
  {
    var stored := c.defaultValue + display / c.scale;
    match c.min
    case Some(m) => if m >= stored then m else stored
    case None => stored
  }

  /** The default shows as 0, and 0 stores the default (raised to the
      minimum). */
  lemma DefaultIsZero(c: Converter)
    requires ValidConverter(c)
    ensures ToDisplay(c, c.defaultValue) == 0
    ensures c.min.None? ==> FromDisplay(c, 0.0) == c.defaultValue
    ensures c.min.Some? ==> FromDisplay(c, 0.0) == (if c.min.value >= c.defaultValue then c.min.value else c.defaultValue)
  {
  }

  /** An integer typed in shows again as itself, unless the minimum raised
      the stored value. */
  lemma DisplayRoundTrip(c: Converter, d: int)
    requires ValidConverter(c)
    requires c.min.Some? ==> c.defaultValue + d as real / c.scale >= c.min.value
    ensures ToDisplay(c, FromDisplay(c, d as real)) == d
  {
    var stored := c.defaultValue + d as real / c.scale;
    assert FromDisplay(c, d as real) == stored;
    assert (stored - c.defaultValue) * c.scale == d as real;
  }

  /** Going the other way, a stored value comes back within half a display
      step; exactly when it sits a whole number of steps from the default. */
  lemma StoredRoundTrip(c: Converter, value: real)
    requires ValidConverter(c) && c.min.None?
    ensures var back := FromDisplay(c, ToDisplay(c, value) as real);
            && -0.5 / c.scale < back - value <= 0.5 / c.scale
            && (back == value <==> ((value - c.defaultValue) * c.scale).Floor as real == (value - c.defaultValue) * c.scale)
  {
    var x := (value - c.defaultValue) * c.scale;
    var d := ToDisplay(c, value);
    assert d == Round(x);
    var back := FromDisplay(c, d as real);
    BackOffset(c, value, d as real);
    assert back - value == (d as real - x) / c.scale;
    DivBounds(d as real - x, c.scale);
    assert back == value <==> d as real == x;
    RoundExact(x);
  }

  /** Storing display value `d` lands `(d - x) / scale` away from `value`,
      where `x` is `value`'s exact display position. */
  lemma BackOffset(c: Converter, value: real, d: real)
    requires ValidConverter(c) && c.min.None?
    ensures var back := FromDisplay(c, d);
            && back - value == (d - (value - c.defaultValue) * c.scale) / c.scale
            && (back == value <==> d == (value - c.defaultValue) * c.scale)
  {
    var x := (value - c.defaultValue) * c.scale;
    assert c.defaultValue + d / c.scale - value == (d - x) / c.scale;
    if d != x {
      assert (d - x) / c.scale != 0.0;
    }
  }

  /** Rounding leaves `x` in place exactly when `x` is an integer. */
  lemma RoundExact(x: real)
    ensures Round(x) as real == x <==> x.Floor as real == x
  {
    if x.Floor as real == x {
      assert (x + 0.5).Floor == x.Floor;
    }
  }

  lemma DivBounds(y: real, s: real)
    requires s > 0.0 && -0.5 < y <= 0.5
    ensures -0.5 / s < y / s <= 0.5 / s
  {
    assert y / s - -0.5 / s == (y + 0.5) / s;
    assert 0.5 / s - y / s == (0.5 - y) / s;
  }

  // ---------------------------------------------------------------------------
  // Parse closures
  // ---------------------------------------------------------------------------

  /** The font size field: NaN is rejected, a number is clamped to the
      editor's font size range. */
  function ParseFontSize(parsed: Option<real>, minFontSize: real, maxFontSize: real): (r: Option<real>)
    requires minFontSize <= maxFontSize
    ensures r.None? <==> parsed.None?
    ensures r.Some? ==> minFontSize <= r.value <= maxFontSize
    ensures r.Some? && minFontSize <= parsed.value <= maxFontSize ==> r.value == parsed.value
    ensures r.Some? && parsed.value < minFontSize ==> r.value == minFontSize
    ensures r.Some? && parsed.value > maxFontSize ==> r.value == maxFontSize
  {
    match parsed
    case None => None
    case Some(v) => Some(if v < minFontSize then minFontSize else if v > maxFontSize then maxFontSize else v)
  }

  /** The letter spacing and background offset fields: NaN is rejected, a
      number is rounded to the nearest integer. */
  function ParseRounded(parsed: Option<real>): (r: Option<int>)
    ensures r.None? <==> parsed.None?
    ensures r.Some? ==> parsed.value - 0.5 < r.value as real <= parsed.value + 0.5
  {
    match parsed
    case None => None
    case Some(v) => Some(Round(v))
  }

  /** The corner radius field: rounded, and never below 0. */
  function ParseCornerRadius(parsed: Option<real>): (r: Option<nat>)
    ensures r.None? <==> parsed.None?
    ensures r.Some? && parsed.value >= -0.5 ==> parsed.value - 0.5 < r.value as real <= parsed.value + 0.5
    ensures r.Some? && parsed.value < -0.5 ==> r.value == 0
  {
    match parsed
    case None => None
    case Some(v) => var n := Round(v); Some(if n < 0 then 0 else n)
  }

  /** The line height and padding fields: rounded to a display step, then
      converted back to a stored value. */
  function ParseConverted(c: Converter, parsed: Option<real>): (r: Option<real>)
    requires ValidConverter(c)
    ensures r.None? <==> parsed.None?
    ensures r.Some? && c.min.Some? ==> r.value >= c.min.value
    ensures r.Some? ==> var stored := c.defaultValue + Round(parsed.value) as real / c.scale;
                        && r.value >= stored
                        && (c.min.None? ==> r.value == stored)
                        && (c.min.Some? ==> r.value == stored || r.value == c.min.value)
  {
    match parsed
    case None => None
    case Some(v) => Some(FromDisplay(c, Round(v) as real))
  }

  /** What a field stores shows again as the rounded input, unless the
      minimum raised it. */
  lemma ParseConvertedShows(c: Converter, v: real)
    requires ValidConverter(c)
    ensures var r := ParseConverted(c, Some(v)).value;
            ToDisplay(c, r) == Round(v) || (c.min.Some? && r == c.min.value)
  {
    var d := Round(v);
    if !(c.min.Some? && c.min.value >= c.defaultValue + d as real / c.scale) {
      DisplayRoundTrip(c, d);
    }
  }

  /** The converters of the panel. */
  function LineHeightConverter(defaultLineHeight: real): Converter {
    Converter(defaultLineHeight, 10.0, None)
  }

  function PaddingConverter(defaultPadding: real): Converter {
    Converter(defaultPadding, 1.0, Some(0.0))
  }

  /** Committing the integer a rounded field shows leaves it as it was. */
  lemma RoundedCommitUnchanged(v: real)
    ensures ParseRounded(Some(Round(v) as real)) == Some(Round(v))
  {
    RoundInteger(Round(v));
  }

  /** Committing the text a padding field shows leaves a padding a whole
      number of pixels from its default as it was. */
  lemma PaddingCommitUnchanged(v: real, defaultPadding: real, n: int)
    requires v >= 0.0 && v - defaultPadding == n as real
    ensures var c := PaddingConverter(defaultPadding);
            ParseConverted(c, Some(ToDisplay(c, v) as real)) == Some(v)
  {
    var c := PaddingConverter(defaultPadding);
    assert (v - c.defaultValue) * c.scale == n as real;
    RoundInteger(n);
    assert ToDisplay(c, v) == n;
    assert FromDisplay(c, n as real) == v;
  }
}

=== FILE: text_util.dfy ===
/** String helpers the JavaScript runtime provides to the modelled code:
    decimal rendering of integers (template-literal interpolation), `split`
    and `join` on one separator character, `slice(-k)` on arrays and
    `String.prototype.trim`. */
module TextUtil {

  // ---------------------------------------------------------------------------
  // Decimal digits
  // ---------------------------------------------------------------------------

  predicate IsDigit(c: char) {
    '0' <= c <= '9'
  }

  function DigitChar(d: nat): (c: char)
    requires d < 10
    ensures IsDigit(c)
  {
    "0123456789"[d]
  }

  function DigitValue(c: char): (d: nat)
    requires IsDigit(c)
    ensures d < 10
  {
    (c as int - '0' as int) as nat
  }

  lemma DigitCharValue(d: nat)
    requires d < 10
    ensures DigitValue(DigitChar(d)) == d
  {
  }

  predicate AllDigits(s: string) {
    forall i :: 0 <= i < |s| ==> IsDigit(s[i])
  }

  /** The value of a string of decimal digits, most significant first. */
  function DecimalValue(s: string): nat
    requires AllDigits(s)
  {
    if |s| == 0 then 0
    else 10 * DecimalValue(s[..|s| - 1]) + DigitValue(s[|s| - 1])
  }

  /** Decimal rendering of a natural number, as `String(n)` or `${n}` gives it. */
  function NatToString(n: nat): (s: string)
    ensures |s| >= 1
    ensures AllDigits(s)
    ensures n > 0 ==> s[0] != '0'
  {
    if n < 10 then [DigitChar(n)]
    else NatToString(n / 10) + [DigitChar(n % 10)]
  }

  /** Reading the rendering back gives the number: rendering loses nothing. */
  lemma {:induction false} NatToStringRoundTrip(n: nat)
    ensures DecimalValue(NatToString(n)) == n
  {
    var s := NatToString(n);
    if n < 10 {
      assert s[..0] == [];
      DigitCharValue(n);
    } else {
      var p := NatToString(n / 10);
      assert s == p + [DigitChar(n % 10)];
      assert s[..|s| - 1] == p;
      NatToStringRoundTrip(n / 10);
      DigitCharValue(n % 10);
    }
  }

  /** Rendering is injective: distinct numbers print differently. */
  lemma NatToStringInjective(m: nat, n: nat)
    requires NatToString(m) == NatToString(n)
    ensures m == n
  {
    NatToStringRoundTrip(m);
    NatToStringRoundTrip(n);
  }

  /** Decimal rendering of an integer; negative values get a leading '-'. */
  function IntToString(i: int): (s: string)
    ensures |s| >= 1
    ensures i >= 0 <==> s[0] != '-'
  {
    if i < 0 then "-" + NatToString(-i) else NatToString(i)
  }

  // ---------------------------------------------------------------------------
  // split / join on one separator character
  // ---------------------------------------------------------------------------

  /** `parts.join(sep)`. */
  function Join(parts: seq<string>, sep: char): string
  {
    if |parts| == 0 then ""
    else if |parts| == 1 then parts[0]
    else parts[0] + [sep] + Join(parts[1..], sep)
  }

  /** `s.split(sep)`: always at least one part, and no part holds `sep`. */
  function Split(s: string, sep: char): (parts: seq<string>)
    ensures |parts| >= 1
    ensures forall k :: 0 <= k < |parts| ==> sep !in parts[k]
  {
    if |s| == 0 then [""]
    else
      var rest := Split(s[1..], sep);
      if s[0] == sep then [""] + rest
      else [[s[0]] + rest[0]] + rest[1..]
  }

  lemma JoinCons(p: string, parts: seq<string>, sep: char)
    requires |parts| >= 1
    ensures Join([p] + parts, sep) == p + [sep] + Join(parts, sep)
  {
    assert ([p] + parts)[1..] == parts;
  }

  /** Joining the parts of a split gives the original string back. */
  lemma {:induction false} JoinSplit(s: string, sep: char)
    ensures Join(Split(s, sep), sep) == s
  {
    if |s| > 0 {
      var rest := Split(s[1..], sep);
      JoinSplit(s[1..], sep);
      if s[0] == sep {
        JoinCons("", rest, sep);
        assert s == [sep] + s[1..];
      } else {
        var parts := [[s[0]] + rest[0]] + rest[1..];
        if |rest| == 1 {
          assert Join(parts, sep) == [s[0]] + rest[0];
          assert s == [s[0]] + s[1..];
        } else {
          JoinCons([s[0]] + rest[0], rest[1..], sep);
          JoinCons(rest[0], rest[1..], sep);
          assert [rest[0]] + rest[1..] == rest;
          assert s == [s[0]] + s[1..];
        }
      }
    }
  }

  /** Splitting the join of separator-free parts gives the parts back. */
  lemma {:induction false} SplitJoin(parts: seq<string>, sep: char)
    requires |parts| >= 1
    requires forall k :: 0 <= k < |parts| ==> sep !in parts[k]
    ensures Split(Join(parts, sep), sep) == parts
  {
    if |parts| == 1 {
      SplitNoSep(parts[0], sep);
    } else {
      SplitJoin(parts[1..], sep);
      JoinCons(parts[0], parts[1..], sep);
      SplitAround(parts[0], Join(parts[1..], sep), sep);
      assert [parts[0]] + parts[1..] == parts;
    }
  }

  lemma {:induction false} SplitNoSep(s: string, sep: char)
    requires sep !in s
    ensures Split(s, sep) == [s]
  {
    if |s| > 0 {
      assert sep !in s[1..] by {
        forall k | 0 <= k < |s[1..]| ensures s[1..][k] != sep {
          assert s[1..][k] == s[k + 1];
        }
      }
      SplitNoSep(s[1..], sep);
      assert s == [s[0]] + s[1..];
    }
  }

  /** Splitting `a + sep + b` where `a` holds no separator. */
  lemma {:induction false} SplitAround(a: string, b: string, sep: char)
    requires sep !in a
    ensures Split(a + [sep] + b, sep) == [a] + Split(b, sep)
  {
    var s := a + [sep] + b;
    if |a| == 0 {
      assert s[0] == sep;
      assert s[1..] == b;
    } else {
      assert sep !in a[1..] by {
        forall k | 0 <= k < |a[1..]| ensures a[1..][k] != sep {
          assert a[1..][k] == a[k + 1];
        }
      }
      SplitAround(a[1..], b, sep);
      assert s[1..] == a[1..] + [sep] + b;
      assert s[0] == a[0];
      assert [a[0]] + a[1..] == a;
    }
  }

  /** `Join` of a concatenation of two non-empty lists. */
  lemma {:induction false} JoinAppend(xs: seq<string>, ys: seq<string>, sep: char)
    requires |xs| >= 1 && |ys| >= 1
    ensures Join(xs + ys, sep) == Join(xs, sep) + [sep] + Join(ys, sep)
  {
    if |xs| == 1 {
      JoinCons(xs[0], ys, sep);
      assert xs + ys == [xs[0]] + ys;
    } else {
      JoinAppend(xs[1..], ys, sep);
      assert xs + ys == [xs[0]] + (xs[1..] + ys);
      JoinCons(xs[0], xs[1..] + ys, sep);
      JoinCons(xs[0], xs[1..], sep);
      assert [xs[0]] + xs[1..] == xs;
    }
  }

  /** `xs.slice(-k)` for positive `k`: the last `k` elements, or all of them. */
  function LastN<T>(xs: seq<T>, k: nat): (r: seq<T>)
    ensures |r| <= k && |r| <= |xs|
    ensures |xs| <= k ==> r == xs
    ensures |xs| > k ==> |r| == k
    ensures r == xs[|xs| - |r|..]
  {
    if |xs| <= k then xs else xs[|xs| - k..]
  }

  // ---------------------------------------------------------------------------
  // trim
  // ---------------------------------------------------------------------------

  /** The characters `String.prototype.trim` removes: ECMAScript WhiteSpace
      (tab, vertical tab, form feed, space, no-break space, byte-order mark and
      the Unicode space separators) and LineTerminator characters. */
  predicate IsJsWhiteSpace(c: char) {
    || c == '\t' || c == '\n' || c == '\U{000B}' || c == '\U{000C}' || c == '\r'
    || c == ' ' || c == '\U{00A0}' || c == '\U{1680}'
    || ('\U{2000}' <= c <= '\U{200A}')
    || c == '\U{2028}' || c == '\U{2029}' || c == '\U{202F}' || c == '\U{205F}'
    || c == '\U{3000}' || c == '\U{FEFF}'
  }

  function TrimStart(s: string): (r: string)
    ensures |r| <= |s| && r == s[|s| - |r|..]
    ensures |r| > 0 ==> !IsJsWhiteSpace(r[0])
    ensures forall k :: 0 <= k < |s| - |r| ==> IsJsWhiteSpace(s[k])
  {
    if |s| > 0 && IsJsWhiteSpace(s[0]) then TrimStart(s[1..]) else s
  }

  function TrimEnd(s: string): (r: string)
    ensures |r| <= |s| && r == s[..|r|]
    ensures |r| > 0 ==> !IsJsWhiteSpace(r[|r| - 1])
    ensures forall k :: |r| <= k < |s| ==> IsJsWhiteSpace(s[k])
  {
    if |s| > 0 && IsJsWhiteSpace(s[|s| - 1]) then TrimEnd(s[..|s| - 1]) else s
  }

  /** `s.trim()`: the longest infix that neither starts nor ends with white space. */
  function Trim(s: string): string {
    TrimEnd(TrimStart(s))
  }
}

=== FILE: wrappers.dfy ===
/** Failure-compatible wrappers used across the model: `Option` for values that
    may be absent (JavaScript `undefined`/`null`) and `Result` for operations
    that throw or report a validation error. */
module Wrappers {

  datatype Option<+T> = None | Some(value: T) {

    /** The value, or `default` when absent (JavaScript `??`). */
    function GetOr(default: T): T {
      match this
      case Some(v) => v
      case None => default
    }
  }

  datatype Result<+R, +E> = Ok(value: R) | Err(error: E)

  /** A pass/fail outcome that carries only an error. */
  datatype Outcome<+E> = Pass | Fail(error: E)
}
